=== FILE: README.md ===
# RAG-autogen core, modelled in Dafny

This project models the deterministic core of a retrieval-augmented question-answering system for financial documents. The system:
- extracts text from PDF, Word, Markdown, PowerPoint and plain-text files;
- cuts the text into blocks with a greedy paragraph/sentence packer;
- stores new blocks in a vector store after a near-duplicate check;
- answers questions from the retrieved blocks with a chat model.

It also has an LLM-based reranker, a query rewriter with rule-based fallbacks and classifiers, and two Flask front ends.

Every call to the chat model, the embedding model, the vector store, `json.loads`, the clock and the extraction libraries is replaced by a parameter:
- an oracle function, such as `chat`, `decode`, `search`, `topSimilarity`, `probe` or `clock`;
- or the plain value that call hands back, such as the converted document items or the slide texts.

What the code does with those values is modelled as written, including one branch of `get_query_suggestions` that can never be taken, and `analyze_query_intent` typing every `为什么` query as `definition`; the Word loop's header branch is modelled both as reachable and as shadowed by the `TextItem` test (see "## Findings"). The corrected classifiers are separate members with `Intended` in their names.

Modules, one per source file, plus shared pieces:

| file | module | models |
|---|---|---|
| `wrappers.dfy` | `Wrappers` | `Option` and `Result` |
| `llm.dfy` | `Llm` | a chat reply: content or the error raised |
| `text.dfy` | `Text` | Python string helpers: `str.isspace`, `strip`, `split`, `join`, `in`, `rsplit` last dot, `lower` on ASCII, `dict.fromkeys` de-duplication, `s[:n]`, `str(int)` |
| `stable_sort.dfy` | `StableSort` | `list.sort(key=…, reverse=True)`: a stable descending insertion sort |
| `chunker.dfy` | `Chunker` | `TextUtils.split_text` |
| `reranker.dfy` | `Reranker` | `LLMReranker` |
| `query_rewriter.dfy` | `QueryRewriter` | the deterministic parts of `QueryRewriter` |
| `document_processor.dfy` | `DocumentProcessor` | `DocumentProcessor` post-processing and `process_file` dispatch |
| `rag_system.dfy` | `RagSystem` | `FinanceRAGSystem`: connect loop, the two de-duplicating ingestion paths, search, answer loop |
| `uploads.dfy` | `Uploads` | `allowed_file`, which both Flask modules define with the same text |
| `web_ui.dfy` | `WebUi` | `/upload` and `/ask` of the plain front end |
| `autogen_web_ui.dfy` | `AutogenWebUi` | the question, knowledge and agent-lookup checks of the agent front end |

Some behaviour of the code is worth knowing before reading the table:
- the code has no page-tagged chunks, chunk overlap, parent-page collapse or score clamping;
- nothing in the code wires rewrite, search and rerank together;
- `split_text` drops the text after the last delimiter of an over-long paragraph or sentence;
- the two ingestion paths compare with the 0.8 threshold in different directions.

## Model

| member | source | states |
|---|---|---|
| Chunker.TerminatedCoversText | src/utils/text_utils.py:47-53 | cutting a text at its delimiters gives delimiter-terminated pieces and an unterminated tail that together are exactly the text |
| Chunker.TerminatedOneDelimiter | src/utils/text_utils.py:47-53 | each piece of the regex split holds exactly one delimiter, as its last character |
| Chunker.AllPiecesNonEmpty | src/utils/text_utils.py:33-62 | every piece cut from non-blank paragraphs is non-empty |
| Chunker.ChunkGroupsSound | src/utils/text_utils.py:28-95 | the blocks, read in order, hold exactly the pieces of the non-blank stripped paragraphs in input order; each block is a non-empty list of non-empty pieces whose summed length is at most `max_length` unless the block holds a single piece |
| Chunker.JoinAll | src/utils/text_utils.py:42-93 | each output block is the newline-join of one group of pieces |
| Chunker.ShortParagraphsKept | src/utils/text_utils.py:81-89 | paragraphs within `max_length` are never cut: each is one piece, whole |
| Chunker.LongParagraphClosesBlock | src/utils/text_utils.py:39-44 | an over-long paragraph first closes the open block, so its pieces never share a block with earlier paragraphs |
| Chunker.BlockLengthBound | src/utils/text_utils.py:64-89 | a block's length is its summed piece length plus one newline per seam; a block of several pieces is at most `max_length` plus the seams |
| Chunker.SeamsNotCounted | src/utils/text_utils.py:82-84 | two 4-character paragraphs share a block of budget 8 even though the joined block has 9 characters |
| Chunker.BlankTextGivesNothing | src/utils/text_utils.py:28-36 | a text made of white space only gives no blocks |
| Chunker.GreedyPacking | src/utils/text_utils.py:39-89 | blocks are filled greedily: a block was closed only because the first piece of the next block did not fit, so its summed length plus that piece's exceeds `max_length`, except where an over-long paragraph closed it |
| Chunker.GreedyWhenParagraphsFit | src/utils/text_utils.py:82-89 | when every paragraph fits the budget, every block but the last plus the next block's first paragraph exceeds `max_length` |
| Chunker.UnterminatedLongParagraphDropped | src/utils/text_utils.py:47-53 | an over-long paragraph without any sentence terminator contributes nothing |
| Chunker.LongParagraphTailDropped | src/utils/text_utils.py:47-62 | an over-long paragraph contributes exactly its terminated sentences (cut further at commas when over-long); the text after the last terminator is lost |
| Chunker.RunPlacesAll | src/utils/text_utils.py:33-89 | the packing loop appends every piece of every paragraph, in order, to the blocks |
| Reranker.JsonSlice | src/utils/reranker.py:82-85 | the JSON text is taken only when both braces occur; a non-empty slice starts with `{` and ends with `}` |
| Reranker.JsonSliceSpan | src/utils/reranker.py:82-85 | a non-empty slice runs from the first `{` to the last `}` of the reply |
| Reranker.RankSingle | src/utils/reranker.py:77-107 | a decodable reply gives the decoded ranking; a failed call gives score 0.5 with `重排序失败: ` and the error; a reply without braces gives 0.5 with `无法解析LLM响应`; a brace slice that is empty (the last `}` before the first `{`) or does not decode gives 0.5 with the malformed-JSON reason |
| Reranker.RankMultiple | src/utils/reranker.py:148-190 | a decodable reply gives its `block_rankings`; otherwise one ranking per block, each 0.5 with the same reason as the single path: the call's error, the unparsable reply, or the malformed JSON, an empty brace slice included |
| Reranker.ReversedBracesMalformed | src/utils/reranker.py:82-98 | a reply `}{` slices to the empty string, which never decodes, so it gets the malformed-JSON default on both paths |
| Reranker.NonJsonReplyDefaultsWholeBatch | src/utils/reranker.py:158-167 | a reply without `{` gives every block of the batch 0.5 with `无法解析LLM响应` |
| Reranker.Round4 | src/utils/reranker.py:238-242 | rounding to 4 decimals moves a value by at most half a unit in the fourth place |
| Reranker.CombinedInUnitRange | src/utils/reranker.py:237-242 | when weight, relevance and distance all lie in [0, 1] the fused score does too; the code checks none of the three |
| Reranker.CombinedNotClamped | src/utils/reranker.py:237-242 | a distance above 1 gives a negative fused score: no clamping happens |
| Reranker.ScoreDoc | src/utils/reranker.py:231-276 | a document is scored iff its ranking has a relevance score (and, on the single path, a reasoning); the result keeps the document, its relevance and its reasoning (`""` when absent on the batch path), and its fused score is `round(w*relevance + (1-w)*(1-distance), 4)` with distance 0 when absent |
| Reranker.Batches | src/utils/reranker.py:218-221 | batches are non-empty, at most `documents_batch_size` long, and all but the last are full |
| Reranker.BatchesCover | src/utils/reranker.py:218-221 | the batches concatenate to the input |
| Reranker.Pad | src/utils/reranker.py:257-263 | a short ranking list is padded to the batch length with 0.5 `默认评分（LLM响应不完整）` entries, and a long one is left alone |
| Reranker.ScoreZip | src/utils/reranker.py:265-278 | zipping fails iff some document's paired ranking has no score; otherwise the `i`-th result is the `i`-th document scored with the `i`-th ranking, extra rankings ignored |
| Reranker.ShortRankingsArePadded | src/utils/reranker.py:254-265 | when the model returns fewer rankings than documents, the rest of the batch gets 0.5 |
| Reranker.ScoreBatch | src/utils/reranker.py:251-277 | a batch fails iff one of its padded rankings has no score; otherwise the `i`-th result is the `i`-th document scored with the `i`-th padded ranking of the batch reply |
| Reranker.ScoreBatches | src/utils/reranker.py:281-287 | the flattened batch results correspond one-to-one, in order, to the documents, and each carries the fused score of its own relevance and distance |
| Reranker.ScoreBatchesAppend | src/utils/reranker.py:281-287 | the batch results are concatenated in batch order: one more batch appends its own scored documents, and any failing batch fails the whole path |
| Reranker.ScoreBatchesFails | src/utils/reranker.py:281-287 | the batch path fails iff the scoring of some batch fails |
| Reranker.ScoreSingles | src/utils/reranker.py:227-247 | the single-document path fails iff some document's ranking lacks a field; otherwise the `i`-th result is the `i`-th document scored with its own ranking |
| Reranker.Scored | src/utils/reranker.py:218-287 | batch size 0 fails (`range` step 0 raises); a negative batch size gives no batches and no results; otherwise the scored documents are the input documents in order |
| Reranker.Rerank | src/utils/reranker.py:211-298 | empty input gives `[]`; for non-empty input the documents come back unchanged exactly when scoring raises, and are reranked otherwise; batch size 0 returns the input unchanged; a negative batch size gives `[]` |
| Reranker.RerankOrdersAllDocuments | src/utils/reranker.py:282-293 | a successful rerank is sorted by combined score descending, is a permutation of the scored input, keeps input order among equal scores, and every hit carries its own fused score |
| Reranker.MissingScoreReturnsInput | src/utils/reranker.py:227-298 | on the single path, one ranking without a score makes the whole call return the documents unchanged |
| StableSort.SortDescIsSortedPermutation | src/utils/reranker.py:290 | the sort's output is sorted descending by key and is a permutation of its input |
| StableSort.SortDescIsStable | src/utils/reranker.py:290 | for every key value, the elements with that key keep their input order |
| QueryRewriter.CleanQueryIsNormal | src/utils/query_rewriter.py:297-316 | a cleaned query has no leading or trailing white space and no white-space run other than single spaces |
| QueryRewriter.CleanQueryKeepsClean | src/utils/query_rewriter.py:304-311 | cleaning leaves an already clean query unchanged |
| QueryRewriter.CleanQueryDropsColon | src/utils/query_rewriter.py:304 | one leading colon and the white space after it are removed |
| QueryRewriter.CleanQueryDropsNumber | src/utils/query_rewriter.py:305 | a leading `digits.` and the white space after it are removed |
| QueryRewriter.DigitRun | src/utils/query_rewriter.py:305 | the longest prefix of decimal digits |
| QueryRewriter.Candidate | src/utils/query_rewriter.py:238-254 | a kept line is a cleaned line longer than 5 characters |
| QueryRewriter.ParseRewriteResponse | src/utils/query_rewriter.py:226-264 | the parse is duplicate-free, at most 5 long, each entry a cleaned line longer than 5 characters |
| QueryRewriter.ParsedFromLine | src/utils/query_rewriter.py:238-254 | every parsed query comes from some line of the reply |
| QueryRewriter.LineParsed | src/utils/query_rewriter.py:238-261 | every candidate line's query is in the parse unless the parse is already full at 5 |
| QueryRewriter.ParseRewriteResponseOrder | src/utils/query_rewriter.py:258 | parsed queries are in first-seen order |
| QueryRewriter.ExtractRewrittenQuery | src/utils/query_rewriter.py:270-291 | the result is the cleaned form of the first line that is not blank, has no label prefix and cleans to more than 5 characters; empty iff there is no such line |
| QueryRewriter.RewriteQuery | src/utils/query_rewriter.py:71-224 | there are always 1 to 5 rewritten queries; `auto` is reported as `multiple`; success iff the chat call answered; a failed call gives `[original]` and the error; on success `auto` gives the parse of the reply's lines (or `[original]` when it is empty) and any other strategy gives the one extracted query (or the original when none is found) |
| QueryRewriter.ExpandQueryKeywords | src/utils/query_rewriter.py:322-374 | the keywords are duplicate-free, at most 10, and begin with the de-duplicated whitespace tokens of the query |
| QueryRewriter.ExpandQueryKeywordsFrom | src/utils/query_rewriter.py:338-363 | every keyword is a token of the query or one of the first two expansions of a table term related to a token by substring |
| QueryRewriter.ExpandQueryKeywordsTo | src/utils/query_rewriter.py:338-368 | conversely, every token and every first-two expansion of a related table term is a keyword unless ten keywords were already found |
| QueryRewriter.WhyQueryGetsDefinitionSuggestions | src/utils/query_rewriter.py:394-427 | as written, the reason branch is unreachable and a query with `为什么` gets the definition suggestions |
| QueryRewriter.SuggestionKindOf | src/utils/query_rewriter.py:394-452 | with why-questions recognised, the reason template is chosen iff the query contains `为什么`; every other query keeps its branch |
| QueryRewriter.SuggestionsFor | src/utils/query_rewriter.py:394-452 | a branch's suggestions are exactly 4, each the query, a space and the branch's suffix in order |
| QueryRewriter.GetQuerySuggestions | src/utils/query_rewriter.py:380-458 | as written: exactly 4 suggestions, each the query, a space and the matching suffix of the branch the code's test order picks |
| QueryRewriter.WhyQueryGetsDetailSuggestion | src/utils/query_rewriter.py:394-400 | as written, a query with `为什么` is first offered `详细说明` |
| QueryRewriter.GetQuerySuggestionsIntended | src/utils/query_rewriter.py:394-452 | corrected: the same 4 suggestions, with the branch chosen by the corrected classifier |
| QueryRewriter.WhyQueryGetsReasonSuggestions | src/utils/query_rewriter.py:420-427 | corrected: a query with `为什么` reaches the reason branch, first suggestion `具体原因` |
| QueryRewriter.SuggestionsIntendedAgree | src/utils/query_rewriter.py:394-452 | the correction changes nothing for a query without `为什么` |
| QueryRewriter.WhyQueryTypedAsDefinition | src/utils/query_rewriter.py:486-497 | as written, a query with `为什么` is typed `definition` |
| QueryRewriter.IntentTypeOf | src/utils/query_rewriter.py:486-505 | with why-questions recognised, a query with `为什么` is typed `why`; every other query keeps the as-written type |
| QueryRewriter.AnalyzeQueryIntent | src/utils/query_rewriter.py:476-516 | as written: the type is the code's classifier (so `为什么` gives `definition`); confidence is 0.8 for a recognised type and 0.5 for `general`; entities are always empty; keywords and suggestions come from `expand_query_keywords` and `get_query_suggestions` |
| QueryRewriter.AnalyzeQueryIntentIntended | src/utils/query_rewriter.py:476-516 | corrected: the same result with the corrected type and suggestions |
| QueryRewriter.IntentIntendedAgree | src/utils/query_rewriter.py:486-497 | the two analyses agree on every query without `为什么`; on one with it the code says `definition` and the correction `why` |
| DocumentProcessor.PipeJoined | src/processors/document_processor.py:74-80 | a row gives nothing iff it has no non-blank text; otherwise their non-empty, stripped join with the `Pipe` separator (space, vertical bar, space) |
| DocumentProcessor.PipeJoinedRoundTrip | src/processors/document_processor.py:74-80 | splitting a row's join at the `Pipe` separator gives back its stripped cells |
| DocumentProcessor.RowTexts | src/processors/document_processor.py:74-80 | one text at most per table row, each non-empty and stripped |
| DocumentProcessor.PdfTexts | src/processors/document_processor.py:59-80 | every text taken from converted PDF items and table rows is non-empty and stripped |
| DocumentProcessor.ItemTextsMembers | src/processors/document_processor.py:65-68 | a text is taken iff some text item has it, stripped and non-blank |
| DocumentProcessor.TableTextsMembers | src/processors/document_processor.py:71-80 | a table line is taken iff some table with a grid has a row that joins to it |
| DocumentProcessor.PdfTextsInOrder | src/processors/document_processor.py:59-80 | conversions are read in order: one more conversion appends its item texts and then its table lines, or nothing when it failed |
| DocumentProcessor.PdfTextsMembers | src/processors/document_processor.py:59-80 | a text is taken iff some successful conversion has it among its item texts or table lines |
| DocumentProcessor.TxtTextsMembers | src/processors/document_processor.py:381 | the `.txt` texts are exactly the non-empty stripped parts of the content split at blank lines |
| DocumentProcessor.TxtTextsRoundTrip | src/processors/document_processor.py:381 | stripped paragraphs joined with blank lines come back unchanged |
| DocumentProcessor.PptxTextsMembers | src/processors/document_processor.py:360-368 | a slide text is the `Pipe`-separator join of some slide's non-blank shape texts; slides without text give nothing |
| DocumentProcessor.MarkdownTexts | src/processors/document_processor.py:346-349 | every Markdown text is non-empty and stripped |
| DocumentProcessor.MarkdownTextsMembers | src/processors/document_processor.py:346-349 | a text is taken iff some paragraph or heading element has it as its stripped, non-blank text |
| DocumentProcessor.MarkdownTextsInOrder | src/processors/document_processor.py:346-349 | elements are read in order: one more element appends its stripped text at the end unless it is blank |
| DocumentProcessor.RegionText | src/processors/document_processor.py:173-201 | the result is the stripped text of the first item on the page whose box lies inside the region and whose text is non-blank; `""` iff there is none |
| DocumentProcessor.FirstMatchIsFirst | src/processors/document_processor.py:180-193 | the first-match search is empty iff no item matches, and otherwise gives the text of the first matching item |
| DocumentProcessor.DocxTexts | src/processors/document_processor.py:232-268 | a conversion failure or an empty result gives `[]`; at most one non-empty text per item |
| DocumentProcessor.DocxTextsMembers | src/processors/document_processor.py:232-247 | with the three `isinstance` branches read as disjoint, an entry is emitted iff some item gives it: a paragraph or other item its stripped non-blank text, a section header its `[标题level]` label |
| DocumentProcessor.DocxTextsInOrder | src/processors/document_processor.py:232-247 | items are read in order: one more item appends its entry, if it has one, at the end |
| DocumentProcessor.HeadersAlwaysEmitted | src/processors/document_processor.py:239-243 | corrected: when the header branch is reached, every section header is emitted as `[标题level] text`, even with an empty text |
| DocumentProcessor.DocxTextsAsWrittenMembers | src/processors/document_processor.py:235-247 | with section headers caught by the `TextItem` test, an entry is emitted iff some item, header or not, has it as its stripped non-blank text: no label is ever written |
| DocumentProcessor.HeaderLabelLost | src/processors/document_processor.py:235-243 | with headers caught by the `TextItem` test, a header comes out as its stripped text instead of its `[标题level]` label, and a blank header gives nothing |
| DocumentProcessor.SplitExt | src/processors/document_processor.py:390 | `os.path.splitext`: root and extension concatenate to the path; an extension starts with its only dot and has no slash |
| DocumentProcessor.ProcessFile | src/processors/document_processor.py:388-401 | success iff the lower-cased extension is one of the five; the extractor of that format is used; otherwise the error names the extension |
| DocumentProcessor.ProcessFileIgnoresCase | src/processors/document_processor.py:390 | the extension is matched without regard to ASCII case |
| DocumentProcessor.DotFileRefused | src/processors/document_processor.py:390-401 | `.pdf` has an empty extension and is refused |
| RagSystem.Connect | src/core/rag_finance_qa.py:34-51 | at most 5 attempts; it stops at the first success; it sleeps 3 after each failure but the last; the last error is returned after 5 failures |
| RagSystem.Basename | src/core/rag_finance_qa.py:98 | `os.path.basename`: the suffix after the last slash |
| RagSystem.NewBlocksMembers | src/core/rag_finance_qa.py:84-94 | a block is kept iff it is non-blank and has no top-1 hit more than 0.8 similar |
| RagSystem.AddDocument | src/core/rag_finance_qa.py:55-128 | something is inserted iff the file exists, extraction gave texts, embedding worked and a new block remains; the insert's parallel lists have equal length, hold the kept re-chunked blocks in order, the basename, and one time stamp per block |
| RagSystem.NewTextsMembers | src/core/rag_finance_qa.py:139-151 | a text is kept iff it has no hit or its top-1 hit is less than 0.8 similar |
| RagSystem.ThresholdsDiffer | src/core/rag_finance_qa.py:92-144 | a similarity of exactly 0.8 is kept by `add_document` and skipped by `add_knowledge` |
| RagSystem.AddKnowledge | src/core/rag_finance_qa.py:133-167 | it returns early iff no text is new; otherwise it raises iff the embedding or insert call raises, passing that error on; an insert holds the kept texts in order, with one source and one time stamp for all |
| RagSystem.NewTextsAllKept | src/core/rag_finance_qa.py:139-149 | when every text is new, every text is kept, duplicates included |
| RagSystem.DuplicatesWithinBatchKept | src/core/rag_finance_qa.py:139-167 | the same text twice against an empty store is inserted twice |
| RagSystem.Printed | src/core/rag_finance_qa.py:205-211 | no printed chunk starts with `<think>`; at most one printed text per chunk |
| RagSystem.PrintedInOrder | src/core/rag_finance_qa.py:205-211 | chunks are printed in stream order: one more chunk appends its content at the end unless it has none or starts with `<think>` |
| RagSystem.PrintedMembers | src/core/rag_finance_qa.py:205-211 | a text is printed iff some chunk carries it as content and it does not start with `<think>` |
| RagSystem.AnswerQuestion | src/core/rag_finance_qa.py:183-217 | at most 3 attempts; it stops at the first stream read to the end, sleeps 2 after every failed attempt, and returns `回答完成` or the fixed failure message |
| Uploads.AllowedFileMeans | src/web/web_ui.py:35-38 | a name is accepted iff it has a dot after which no dot follows and the lower-cased text after it is one of the five extensions |
| Uploads.AllowedFileOf | src/core/autogen_web_ui.py:56-59 | the copy in the agent front end: a name ending in a dot and a dot-free extension is accepted iff the lower-cased extension is allowed |
| Uploads.AllowedFileExamples | src/web/web_ui.py:33-38 | `a.PDF` and `.pdf` are accepted; `report.`, `pdf` and `a.pdf.exe` are refused |
| Uploads.AllowedFileIgnoresCase | src/web/web_ui.py:38 | the filter ignores the case of the extension |
| Uploads.AllowedFileAgreesWithDispatch | src/web/web_ui.py:35-38 | for a name with a non-dot character before its last dot, the upload filter accepts exactly what `process_file` dispatches |
| Uploads.DotFileAcceptedThenRefused | src/core/autogen_web_ui.py:56-59 | the filter accepts `.pdf`, which the extension dispatch then refuses |
| WebUi.Upload | src/web/web_ui.py:68-101 | accepted iff the system is ready, a file is present and its name passes `allowed_file`; 500 when not ready, otherwise 400 |
| WebUi.Preview | src/web/web_ui.py:129 | a context of at most 500 characters is shown unchanged; a longer one as its first 500 characters followed by `...`, 503 characters in all |
| WebUi.PreviewIdempotent | src/web/web_ui.py:129 | previewing a preview changes nothing |
| WebUi.Sources | src/web/web_ui.py:130 | the sources are the hit sources in hit order |
| WebUi.Ask | src/web/web_ui.py:108-133 | a blank question is a 400; otherwise the stripped question is searched and asked; the reply carries the answer, the preview of the hit texts and the sources, or a 500 with the chat error |
| WebUi.AskIgnoresPadding | src/web/web_ui.py:115 | white space around the question changes nothing |
| AutogenWebUi.QuestionGate | src/core/autogen_web_ui.py:162-193 | in both `/api/ask` (lines 162-168) and `/api/ask_stream` (lines 187-193), the question passes iff the system is ready and it is not blank after stripping; it passes stripped |
| AutogenWebUi.BlankQuestionRefused | src/core/autogen_web_ui.py:166-168 | a question of white space only is refused with 400 |
| AutogenWebUi.KnowledgeGate | src/core/autogen_web_ui.py:231-239 | an empty or missing `texts` list is refused with 400; otherwise the texts go on unchanged with the source defaulting to `manual_input` |
| AutogenWebUi.AgentStatus | src/core/autogen_web_ui.py:300-314 | a missing system is a 500; an exception while reading the status report is a 500 carrying its message; otherwise the first agent with the requested name, else a 404 naming it |
| AutogenWebUi.AgentStatusFirstWins | src/core/autogen_web_ui.py:308-310 | with two agents of one name, the earlier is returned |
| Text.StripPadded | src/web/web_ui.py:115 | `strip` removes any white space added at both ends |
| Text.DedupFirstSeenOrder | src/utils/query_rewriter.py:258 | `dict.fromkeys` de-duplication (here and again at line 368) keeps first-seen order |
| Text.JoinSplit | src/utils/text_utils.py:28 | joining the parts of a split gives back the text |
| Text.CollapseIdempotent | src/utils/query_rewriter.py:311 | collapsing white-space runs twice is collapsing once |
| Text.StrippedNonBlankMembers | src/processors/document_processor.py:381 | the stripped non-blank parts are exactly the non-empty strips of the parts |
| Text.ParagraphsEmptyIffBlank | src/utils/text_utils.py:28-36 | a text has no non-blank paragraph iff it is made of white space only |

## Left out

- Chat model, embedding model, vector store, `json.loads`, the clock, `time.sleep` and `os.path.exists` are parameters or returned counts. Their behaviour and their floats are not modelled. Sleeping is counted, not performed.
- Library extraction (docling, python-docx, markdown with BeautifulSoup, python-pptx) is replaced by the values it hands back. The dictionary shapes that would raise mid-loop, and so give a partial list, are not modelled.
- `calculate_similarity` cosine math is replaced by a top-1 similarity oracle per text, read against the store as it was before the call.
- Reranker.Round4: Python's `round(x, 4)` on binary doubles, which rounds half to even on the binary value, is modelled on exact reals. The model only promises that the result is within half a unit of the fourth decimal, which is weaker than Python's exact result.
- The reranker's `ThreadPoolExecutor` fan-out is modelled as a sequential, order-preserving map. `executor.map` preserves order, so nothing observable is lost. Concurrency itself is out of scope.
- `re` semantics beyond the patterns used are hand-coded. `\s` and `str.strip()` use Python's `str.isspace` list. `\d` covers ASCII and full-width digits only, not every Unicode decimal. `lower()` is modelled on ASCII letters; this is exact for the extension checks, which compare against ASCII names.
- QueryRewriter: the `except` branches that cannot be reached on strings are not modelled: the cleaner's, the parser's `[]`, `expand_query_keywords` returning `query.split()`, `get_query_suggestions` returning `[]`, and `rewrite_query`'s outer handler. The chat call's own failure is modelled.
- QueryRewriter prompt templates: only which template is used is modelled, not its prose.
- RagSystem.AddKnowledge: an error raised by the per-text embedding or top-1 search inside the loop is not modelled; `topSimilarity` is total. Only the error of the batch embedding or the insert is.
- RagSystem.AddDocument: an insert error after embedding and the outer `except` around extraction and search are not modelled; the insert is returned as the value handed to the store. `process_file`'s `ValueError` is the `Failure` case of `extracted`.
- RagSystem.AnswerQuestion: a stream that fails part-way has already printed part of its text; the model treats a failed attempt as printing nothing.
- RagSystem.AnswerQuestion: the search is an oracle of the question, so each attempt sees the same hits.
- `add_document`'s printed messages, `typewriter_print` timing and all logging are not modelled.
- Flask routing, `secure_filename`, saving to a temporary directory, background threads, `processing_status`, and the server-sent-event generators (src/web/web_ui.py:40-66,135-184; src/core/autogen_web_ui.py:61-121,195-225) are I/O and concurrency plumbing.
- AutogenWebUi.AgentStatus: every agent record is taken to have a `name` key; a record without one raises `KeyError` inside the handler's `try`, which gives a 500, and that case is not modelled.
- DocumentProcessor.HeadersAlwaysEmitted: the Word loop's three `isinstance` branches are modelled as disjoint, as the source text reads. docling-core declares `SectionHeaderItem` a subclass of `TextItem`, so with that library a header takes the `TextItem` branch and is never labelled. docling-core is not part of this model; that reading is `DocxTextsAsWritten` (see "## Findings").
- The agent front end's `/api/ask` answer comes from src/core/autogen_rag_system.py, which is not part of this model. Only its gate is modelled.
- src/utils/vector_store.py is not part of this model beyond the search and insert oracles.

## Findings

| source | as written | input that shows it | evidently intended | confidence | as-written member | corrected member |
|---|---|---|---|---|---|---|
| src/utils/query_rewriter.py:394-427 | the definition test `'什么' in query` runs first, and `为什么` contains `什么`, so the reason branch can never be taken | `为什么利润下降` gets `详细说明 / 具体含义 / 相关概念 / 背景介绍` | a why-question gets the reason suggestions `具体原因 / 影响因素 / 背景分析 / 相关数据` | not executed | QueryRewriter.WhyQueryGetsDefinitionSuggestions | QueryRewriter.SuggestionKindOf |
| src/utils/query_rewriter.py:486-497 | the same `什么` test types every query containing `为什么` as `definition` before the `why` test is reached | `为什么利润下降` is typed `definition` | it is typed `why` | not executed | QueryRewriter.WhyQueryTypedAsDefinition | QueryRewriter.IntentTypeOf |
| src/processors/document_processor.py:235-243 | `isinstance(item, TextItem)` is tested before `isinstance(item, SectionHeaderItem)`; docling-core declares `SectionHeaderItem` a subclass of `TextItem`, so a header takes the first branch and the labelled branch never runs | a level-1 header `Intro` gives `Intro`; a blank header gives nothing | the header is written as `[标题1] Intro`, and every header is written | not executed; rests on the docling-core class hierarchy, which is not part of this model | DocumentProcessor.HeaderLabelLost | DocumentProcessor.HeadersAlwaysEmitted |

The corrected classifiers test for `为什么` before any other branch. Every other query keeps the branch it had. `GetQuerySuggestions` and `AnalyzeQueryIntent` follow the code as written; `GetQuerySuggestionsIntended` and `AnalyzeQueryIntentIntended` use the corrected classifiers, and `IntentIntendedAgree` and `SuggestionsIntendedAgree` show that the two differ only on queries with `为什么`.

The Word loop is modelled both ways. `DocxTexts`, which the rest of the model uses, reads the three `isinstance` branches as disjoint, so a section header gets its label. `DocxTextsAsWritten` lets the `TextItem` test catch headers, as the library's class hierarchy makes it do.

=== FILE: autogen_web_ui.dfy ===
/** The request checks of the agent front end in src/core/autogen_web_ui.py:
    the question gate of both ask endpoints, the knowledge-texts gate and
    the agent lookup by name. Its `allowed_file` is a copy of the one in
    src/web/web_ui.py and is modelled once, in `Uploads`. */
module AutogenWebUi {
  import opened Wrappers
  import opened Text

  /** An error reply: HTTP status and message. */
  datatype Refusal = Refusal(status: nat, error: string)

  const NotReady := "AutoGen系统未初始化"
  const EmptyQuestion := "问题不能为空"
  const EmptyKnowledge := "知识内容不能为空"
  const DefaultSource := "manual_input"
  const StatusFailedPrefix := "获取智能体状态失败: "

  /** `/api/ask` and `/api/ask_stream` alike: the stripped question, or a
      refusal when the system is missing or the question is blank. */
  function QuestionGate(ready: bool, question: string): (r: Result<string, Refusal>)
    ensures r.Success? <==> ready && Strip(question) != []
    ensures r.Success? ==>
      r.value == Strip(question) && r.value != [] && !IsSpace(r.value[0]) && !IsSpace(r.value[|r.value| - 1])
    ensures !ready ==> r == Failure(Refusal(500, NotReady))
    ensures ready && r.Failure? ==> r == Failure(Refusal(400, EmptyQuestion))
  {
    if !ready then Failure(Refusal(500, NotReady))
    else if Strip(question) == [] then Failure(Refusal(400, EmptyQuestion))
    else Success(Strip(question))
  }

  /** A blank question is refused whatever white space it is made of. */
  lemma BlankQuestionRefused(question: string)
    requires AllSpace(question)
    ensures QuestionGate(true, question) == Failure(Refusal(400, EmptyQuestion))
  {
    TrimLeftOfBlank(question);
  }

  /** What `/api/knowledge` hands to `add_knowledge`. */
  datatype KnowledgeRequest = KnowledgeRequest(texts: seq<string>, source: string)

  /** `/api/knowledge`: a missing `texts` field counts as the empty list and
      is refused; a missing `source` is `manual_input`. The texts go on
      unchanged: blank entries are not filtered here. */
  function KnowledgeGate(ready: bool, texts: seq<string>, source: Option<string>)
    : (r: Result<KnowledgeRequest, Refusal>)
    ensures r.Success? <==> ready && texts != []
    ensures r.Success? ==> r.value.texts == texts && r.value.source == source.GetOr(DefaultSource)
    ensures !ready ==> r == Failure(Refusal(500, NotReady))
    ensures ready && r.Failure? ==> r == Failure(Refusal(400, EmptyKnowledge))
  {
    if !ready then Failure(Refusal(500, NotReady))
    else if texts == [] then Failure(Refusal(400, EmptyKnowledge))
    else Success(KnowledgeRequest(texts, source.GetOr(DefaultSource)))
  }

  /** An agent in the status report; `details` stands for the rest of its JSON record. */
  datatype Agent = Agent(name: string, details: string)

  function NameIs(wanted: string): Agent -> Option<Agent> {
    (a: Agent) => if a.name == wanted then Some(a) else None
  }

  /** `/api/agents/status/<agent_name>`: with the system up and its status
      report read (`report`, or the message of the exception reading it
      raised), the first agent of the report with that name, else a 404
      naming it. A missing system or a raised exception is a 500. */
  function AgentStatus(ready: bool, report: Result<seq<Agent>, string>, name: string): (r: Result<Agent, Refusal>)
    ensures !ready ==> r == Failure(Refusal(500, NotReady))
    ensures ready && report.Failure? ==> r == Failure(Refusal(500, StatusFailedPrefix + report.error))
    ensures ready && report.Success? ==>
      (r.Success? <==> exists i :: 0 <= i < |report.value| && report.value[i].name == name)
    ensures ready && report.Success? && r.Success? ==>
      exists i :: 0 <= i < |report.value| && report.value[i] == r.value && r.value.name == name &&
        forall j :: 0 <= j < i ==> report.value[j].name != name
    ensures ready && report.Success? && r.Failure? ==> r == Failure(Refusal(404, "智能体 " + name + " 不存在"))
  {
    if !ready then Failure(Refusal(500, NotReady))
    else if report.Failure? then Failure(Refusal(500, StatusFailedPrefix + report.error))
    else
      var agents := report.value;
      FirstSomeIsFirst(agents, NameIs(name));
      match FirstSome(agents, NameIs(name))
      case Some(a) => Success(a)
      case None => Failure(Refusal(404, "智能体 " + name + " 不存在"))
  }

  /** Two agents with the same name: the lookup always answers with the earlier one. */
  lemma AgentStatusFirstWins(a: Agent, b: Agent, rest: seq<Agent>)
    requires a.name == b.name
    ensures AgentStatus(true, Success([a, b] + rest), a.name) == Success(a)
  {
    var agents := [a, b] + rest;
    assert agents[0] == a;
  }
}

=== FILE: chunker.dfy ===
/** `TextUtils.split_text` (src/utils/text_utils.py): packs the non-blank
    paragraphs of a text into blocks whose summed piece length stays within a
    budget. A paragraph over the budget closes the open block and is cut into
    sentences ending in `.!?。！？`; a sentence over the budget is cut into
    parts ending in `,，`. What follows the last delimiter of a cut text is
    dropped, and the pieces of a block are joined with a newline, so the
    newlines are not counted against the budget. */
module Chunker {
  import opened Wrappers
  import opened Text

  /** The default `max_length`. */
  const DefaultMaxLength := 1000

  /** The delimiters of `re.split(r'([.!?。！？])', para)`. */
  const Terminators: set<char> := {'.', '!', '?', '。', '！', '？'}

  /** The delimiters of `re.split(r'([,，])', sentence)`. */
  const Commas: set<char> := {',', '，'}

  // ---------------------------------------------------------------- cutting at delimiters

  /** Index of the first character of `s` in `delims`. */
  function FirstIn(s: string, delims: set<char>): (r: Option<nat>)
    ensures r.None? ==> forall k :: 0 <= k < |s| ==> s[k] !in delims
    ensures r.Some? ==>
      r.value < |s| && s[r.value] in delims && forall k :: 0 <= k < r.value ==> s[k] !in delims
  {
    if s == [] then None
    else if s[0] in delims then Some(0)
    else
      var f := FirstIn(s[1..], delims);
      if f.None? then None else Some(1 + f.value)
  }

  /** The pieces `parts[j] + parts[j + 1]` that the loop over a capturing
      `re.split` builds: every text up to and including a delimiter. The text
      after the last delimiter is not among them. */
  function Terminated(s: string, delims: set<char>): (r: seq<string>)
    ensures forall i :: 0 <= i < |r| ==> r[i] != [] && r[i][|r[i]| - 1] in delims
    decreases |s|
  {
    var f := FirstIn(s, delims);
    if f.None? then [] else [s[..f.value + 1]] + Terminated(s[f.value + 1..], delims)
  }

  /** The text after the last delimiter, which the loop drops. */
  function Dropped(s: string, delims: set<char>): (r: string)
    ensures forall k :: 0 <= k < |r| ==> r[k] !in delims
    decreases |s|
  {
    var f := FirstIn(s, delims);
    if f.None? then s else Dropped(s[f.value + 1..], delims)
  }

  /** The pieces and the dropped tail make up the text. */
  lemma {:induction false} TerminatedCoversText(s: string, delims: set<char>)
    ensures Concat(Terminated(s, delims)) + Dropped(s, delims) == s
    decreases |s|
  {
    var f := FirstIn(s, delims);
    if f.Some? {
      var n := f.value + 1;
      var tail := Terminated(s[n..], delims);
      TerminatedCoversText(s[n..], delims);
      var r := Terminated(s, delims);
      assert r == [s[..n]] + tail;
      assert r[1..] == tail;
      assert Concat(r) == s[..n] + Concat(tail);
      assert Dropped(s, delims) == Dropped(s[n..], delims);
      ConcatAssoc3(s[..n], Concat(tail), Dropped(s[n..], delims));
      assert s == s[..n] + s[n..];
    }
  }

  /** No piece holds a delimiter before its last character. */
  predicate DelimiterOnlyLast(pieces: seq<string>, delims: set<char>) {
    forall i, k :: 0 <= i < |pieces| && 0 <= k < |pieces[i]| - 1 ==> pieces[i][k] !in delims
  }

  /** A piece holds exactly one delimiter, its last character. */
  lemma {:induction false} TerminatedOneDelimiter(s: string, delims: set<char>)
    ensures DelimiterOnlyLast(Terminated(s, delims), delims)
    decreases |s|
  {
    var f := FirstIn(s, delims);
    if f.Some? {
      var n := f.value + 1;
      TerminatedOneDelimiter(s[n..], delims);
      var r := Terminated(s, delims);
      var tail := Terminated(s[n..], delims);
      assert r == [s[..n]] + tail;
      forall i, k | 0 <= i < |r| && 0 <= k < |r[i]| - 1 ensures r[i][k] !in delims {
        if i > 0 {
          assert r[i] == tail[i - 1];
          assert tail[i - 1][k] !in delims;
        } else {
          assert r[0] == s[..n];
          assert r[i][k] == s[k];
          assert k < f.value;
        }
      }
    }
  }

  // ---------------------------------------------------------------- pieces

  /** A sentence is placed whole when it fits the budget, and as its
      comma-terminated parts otherwise. */
  function SentencePieces(sentence: string, max: int): seq<string> {
    if |sentence| > max then Terminated(sentence, Commas) else [sentence]
  }

  function SentencesPieces(sentences: seq<string>, max: int): seq<string> {
    if sentences == [] then [] else SentencePieces(sentences[0], max) + SentencesPieces(sentences[1..], max)
  }

  /** The pieces one paragraph contributes: itself when it fits, else its
      sentences, each further cut at commas when it does not fit. */
  function ParagraphPieces(para: string, max: int): seq<string> {
    if |para| > max then SentencesPieces(Terminated(para, Terminators), max) else [para]
  }

  /** The pieces of all paragraphs, in order: the reference for what the
      blocks hold. */
  function AllPieces(paras: seq<string>, max: int): seq<string> {
    if paras == [] then [] else ParagraphPieces(paras[0], max) + AllPieces(paras[1..], max)
  }

  predicate NonEmptyPieces(ps: seq<string>) {
    forall i :: 0 <= i < |ps| ==> ps[i] != []
  }

  lemma NonEmptyTail(ps: seq<string>)
    requires ps != [] && NonEmptyPieces(ps)
    ensures NonEmptyPieces(ps[1..])
  {
    forall i | 0 <= i < |ps| - 1 ensures ps[1..][i] != [] {
      assert ps[1..][i] == ps[i + 1];
    }
  }

  lemma {:induction false} AllPiecesNonEmpty(paras: seq<string>, max: int)
    requires NonEmptyPieces(paras)
    ensures NonEmptyPieces(AllPieces(paras, max))
    decreases |paras|
  {
    if paras != [] {
      NonEmptyTail(paras);
      AllPiecesNonEmpty(paras[1..], max);
      var p := paras[0];
      if |p| > max {
        SentencesPiecesNonEmpty(Terminated(p, Terminators), max);
      }
    }
  }

  lemma {:induction false} SentencesPiecesNonEmpty(sentences: seq<string>, max: int)
    requires NonEmptyPieces(sentences)
    ensures NonEmptyPieces(SentencesPieces(sentences, max))
    decreases |sentences|
  {
    if sentences != [] {
      NonEmptyTail(sentences);
      SentencesPiecesNonEmpty(sentences[1..], max);
      var a := SentencePieces(sentences[0], max);
      var b := SentencesPieces(sentences[1..], max);
      assert NonEmptyPieces(a);
      forall i | 0 <= i < |a + b| ensures (a + b)[i] != [] {
        if i >= |a| {
          assert (a + b)[i] == b[i - |a|];
        }
      }
    }
  }

  // ---------------------------------------------------------------- packing

  function SumLen(ps: seq<string>): nat {
    if ps == [] then 0 else |ps[0]| + SumLen(ps[1..])
  }

  lemma {:induction false} SumLenAppend(ps: seq<string>, p: string)
    ensures SumLen(ps + [p]) == SumLen(ps) + |p|
    decreases |ps|
  {
    if ps == [] {
      assert [] + [p] == [p];
    } else {
      SumLenAppend(ps[1..], p);
      assert (ps + [p])[1..] == ps[1..] + [p];
    }
  }

  /** The loop state: the finished blocks, the open block and its length. */
  datatype Packer = Packer(blocks: seq<seq<string>>, current: seq<string>, length: int)

  const Start := Packer([], [], 0)

  /** Appends `piece` to the open block when it fits, else closes the open
      block (if any) and opens a new one with `piece`. */
  function Place(p: Packer, piece: string, max: int): Packer {
    if p.length + |piece| <= max then Packer(p.blocks, p.current + [piece], p.length + |piece|)
    else Packer(if p.current != [] then p.blocks + [p.current] else p.blocks, [piece], |piece|)
  }

  /** Closes the open block, if any. */
  function Flush(p: Packer): Packer {
    if p.current != [] then Packer(p.blocks + [p.current], [], 0) else p
  }

  function PlaceAll(p: Packer, pieces: seq<string>, max: int): Packer
    decreases |pieces|
  {
    if pieces == [] then p else PlaceAll(Place(p, pieces[0], max), pieces[1..], max)
  }

  /** One iteration of the paragraph loop. */
  function Step(p: Packer, para: string, max: int): Packer {
    if |para| > max then PlaceAll(Flush(p), ParagraphPieces(para, max), max) else Place(p, para, max)
  }

  function Run(p: Packer, paras: seq<string>, max: int): Packer
    decreases |paras|
  {
    if paras == [] then p else Run(Step(p, paras[0], max), paras[1..], max)
  }

  /** The blocks as lists of pieces, before joining. */
  function ChunkGroups(text: string, max: int): seq<seq<string>> {
    Flush(Run(Start, Paragraphs(text), max)).blocks
  }

  function JoinAll(groups: seq<seq<string>>): (r: seq<string>)
    ensures |r| == |groups| && forall i :: 0 <= i < |r| ==> r[i] == Join(groups[i], "\n")
  {
    if groups == [] then [] else [Join(groups[0], "\n")] + JoinAll(groups[1..])
  }

  /** `split_text(text, max_length)`. */
  function SplitText(text: string, max: int): (r: seq<string>)
    ensures |r| == |ChunkGroups(text, max)|
  {
    JoinAll(ChunkGroups(text, max))
  }

  // ---------------------------------------------------------------- invariants

  function Flatten(groups: seq<seq<string>>): seq<string> {
    if groups == [] then [] else groups[0] + Flatten(groups[1..])
  }

  lemma {:induction false} FlattenAppend(groups: seq<seq<string>>, g: seq<string>)
    ensures Flatten(groups + [g]) == Flatten(groups) + g
    decreases |groups|
  {
    if groups == [] {
      assert Flatten([g]) == g + Flatten([g][1..]);
    } else {
      FlattenAppend(groups[1..], g);
      assert (groups + [g])[1..] == groups[1..] + [g];
    }
  }

  /** A block fits the budget, or is a single piece that does not. */
  predicate WellSized(g: seq<string>, max: int) {
    SumLen(g) <= max || |g| == 1
  }

  /** What the loop keeps true: `current_length` is the length of the open
      block, no block is empty, every block is well sized, and no piece is
      empty. */
  predicate Good(p: Packer, max: int) {
    && p.length == SumLen(p.current)
    && (p.current != [] ==> WellSized(p.current, max))
    && NonEmptyPieces(p.current)
    && forall i :: 0 <= i < |p.blocks| ==> p.blocks[i] != [] && WellSized(p.blocks[i], max) && NonEmptyPieces(p.blocks[i])
  }

  /** The pieces placed so far, in order. */
  function Placed(p: Packer): seq<string> {
    Flatten(p.blocks) + p.current
  }

  lemma PlaceKeepsGood(p: Packer, piece: string, max: int)
    requires Good(p, max) && piece != []
    ensures Good(Place(p, piece, max), max)
    ensures Placed(Place(p, piece, max)) == Placed(p) + [piece]
    ensures p.blocks <= Place(p, piece, max).blocks
  {
    SumLenAppend(p.current, piece);
    if p.length + |piece| > max && p.current != [] {
      FlattenAppend(p.blocks, p.current);
    }
  }

  lemma FlushKeepsGood(p: Packer, max: int)
    requires Good(p, max)
    ensures Good(Flush(p), max) && Flush(p).current == [] && Flush(p).length == 0
    ensures Placed(Flush(p)) == Placed(p)
    ensures p.blocks <= Flush(p).blocks
  {
    if p.current != [] {
      FlattenAppend(p.blocks, p.current);
    }
  }

  lemma {:induction false} PlaceAllKeepsGood(p: Packer, pieces: seq<string>, max: int)
    requires Good(p, max) && NonEmptyPieces(pieces)
    ensures Good(PlaceAll(p, pieces, max), max)
    ensures Placed(PlaceAll(p, pieces, max)) == Placed(p) + pieces
    ensures p.blocks <= PlaceAll(p, pieces, max).blocks
    decreases |pieces|
  {
    if pieces != [] {
      var q := Place(p, pieces[0], max);
      PlaceKeepsGood(p, pieces[0], max);
      NonEmptyTail(pieces);
      PlaceAllKeepsGood(q, pieces[1..], max);
      assert Placed(p) + [pieces[0]] + pieces[1..] == Placed(p) + pieces;
    }
  }

  lemma StepKeepsGood(p: Packer, para: string, max: int)
    requires Good(p, max) && para != []
    ensures Good(Step(p, para, max), max)
    ensures Placed(Step(p, para, max)) == Placed(p) + ParagraphPieces(para, max)
  {
    if |para| > max {
      FlushKeepsGood(p, max);
      SentencesPiecesNonEmpty(Terminated(para, Terminators), max);
      PlaceAllKeepsGood(Flush(p), ParagraphPieces(para, max), max);
    } else {
      PlaceKeepsGood(p, para, max);
    }
  }

  lemma {:induction false} RunKeepsGood(p: Packer, paras: seq<string>, max: int)
    requires Good(p, max) && NonEmptyPieces(paras)
    ensures Good(Run(p, paras, max), max)
    decreases |paras|
  {
    if paras != [] {
      StepKeepsGood(p, paras[0], max);
      NonEmptyTail(paras);
      RunKeepsGood(Step(p, paras[0], max), paras[1..], max);
    }
  }

  lemma {:induction false} RunPlacesAll(p: Packer, paras: seq<string>, max: int)
    requires Good(p, max) && NonEmptyPieces(paras)
    ensures Placed(Run(p, paras, max)) == Placed(p) + AllPieces(paras, max)
    decreases |paras|
  {
    if paras != [] {
      StepKeepsGood(p, paras[0], max);
      NonEmptyTail(paras);
      var q := Step(p, paras[0], max);
      RunPlacesAll(q, paras[1..], max);
      RunUnfold(p, paras, max);
      AppendChain(Placed(p), Placed(q), Placed(Run(q, paras[1..], max)),
        ParagraphPieces(paras[0], max), AllPieces(paras[1..], max));
    }
  }

  lemma RunUnfold(p: Packer, paras: seq<string>, max: int)
    requires paras != []
    ensures Run(p, paras, max) == Run(Step(p, paras[0], max), paras[1..], max)
    ensures AllPieces(paras, max) == ParagraphPieces(paras[0], max) + AllPieces(paras[1..], max)
  {
  }

  lemma AppendChain<T>(x: seq<T>, y: seq<T>, z: seq<T>, a: seq<T>, b: seq<T>)
    requires y == x + a && z == y + b
    ensures z == x + (a + b)
  {
  }

  // ---------------------------------------------------------------- greedy packing

  /** The block indices at which the open block was closed because a
      paragraph over the budget came, not because the next piece did not fit:
      the index the next block gets after each such close. */
  function Barriers(p: Packer, paras: seq<string>, max: int): set<int>
    decreases |paras|
  {
    if paras == [] then {}
    else (if |paras[0]| > max then {|Flush(p).blocks|} else {}) + Barriers(Step(p, paras[0], max), paras[1..], max)
  }

  /** Every block but the last, unless its successor starts at one of the
      `barriers`, is too full to take its successor's first piece. */
  predicate Tight(gs: seq<seq<string>>, max: int, barriers: set<int>) {
    forall i :: 0 <= i < |gs| - 1 && i + 1 !in barriers && gs[i + 1] != [] ==>
      SumLen(gs[i]) + |gs[i + 1][0]| > max
  }

  /** Greedy packing: a block was closed only when the next piece did not fit
      into it, unless the block after it starts at one of the `barriers`. When
      the open block is empty, the last close was at a barrier. */
  predicate Greedy(p: Packer, max: int, barriers: set<int>) {
    && Tight(p.blocks, max, barriers)
    && (p.blocks != [] && p.current != [] && |p.blocks| !in barriers ==>
          SumLen(p.blocks[|p.blocks| - 1]) + |p.current[0]| > max)
    && (p.current == [] && p.blocks != [] ==> |p.blocks| in barriers)
  }

  /** Closing the open block adds one block whose successor is checked by the
      previous open block's first piece. */
  lemma CloseKeepsGreedy(p: Packer, max: int, barriers: set<int>)
    requires Good(p, max) && Greedy(p, max, barriers) && p.current != []
    ensures Tight(p.blocks + [p.current], max, barriers)
  {
    var bs := p.blocks + [p.current];
    forall i | 0 <= i < |bs| - 1 && i + 1 !in barriers && bs[i + 1] != []
      ensures SumLen(bs[i]) + |bs[i + 1][0]| > max
    {
      if i + 1 < |p.blocks| {
        assert bs[i] == p.blocks[i] && bs[i + 1] == p.blocks[i + 1];
      } else {
        assert bs[i] == p.blocks[|p.blocks| - 1] && bs[i + 1] == p.current;
      }
    }
  }

  lemma PlaceKeepsGreedy(p: Packer, piece: string, max: int, barriers: set<int>)
    requires Good(p, max) && Greedy(p, max, barriers) && piece != []
    ensures Greedy(Place(p, piece, max), max, barriers)
  {
    if p.length + |piece| > max && p.current != [] {
      CloseKeepsGreedy(p, max, barriers);
      var q := Place(p, piece, max);
      assert q.blocks[|q.blocks| - 1] == p.current;
    }
  }

  lemma FlushMakesBarrier(p: Packer, max: int, barriers: set<int>)
    requires Good(p, max) && Greedy(p, max, barriers)
    ensures Greedy(Flush(p), max, barriers + {|Flush(p).blocks|})
  {
    if p.current != [] {
      CloseKeepsGreedy(p, max, barriers);
    }
  }

  lemma {:induction false} PlaceAllKeepsGreedy(p: Packer, pieces: seq<string>, max: int, barriers: set<int>)
    requires Good(p, max) && Greedy(p, max, barriers) && NonEmptyPieces(pieces)
    ensures Greedy(PlaceAll(p, pieces, max), max, barriers)
    decreases |pieces|
  {
    if pieces != [] {
      PlaceKeepsGood(p, pieces[0], max);
      PlaceKeepsGreedy(p, pieces[0], max, barriers);
      NonEmptyTail(pieces);
      PlaceAllKeepsGreedy(Place(p, pieces[0], max), pieces[1..], max, barriers);
    }
  }

  lemma StepKeepsGreedy(p: Packer, para: string, max: int, barriers: set<int>)
    requires Good(p, max) && Greedy(p, max, barriers) && para != []
    ensures Greedy(Step(p, para, max), max,
      barriers + (if |para| > max then {|Flush(p).blocks|} else {}))
  {
    if |para| > max {
      FlushKeepsGood(p, max);
      FlushMakesBarrier(p, max, barriers);
      SentencesPiecesNonEmpty(Terminated(para, Terminators), max);
      PlaceAllKeepsGreedy(Flush(p), ParagraphPieces(para, max), max, barriers + {|Flush(p).blocks|});
    } else {
      PlaceKeepsGreedy(p, para, max, barriers);
    }
  }

  lemma {:induction false} RunKeepsGreedy(p: Packer, paras: seq<string>, max: int, barriers: set<int>)
    requires Good(p, max) && Greedy(p, max, barriers) && NonEmptyPieces(paras)
    ensures Greedy(Run(p, paras, max), max, barriers + Barriers(p, paras, max))
    decreases |paras|
  {
    if paras != [] {
      var here: set<int> := if |paras[0]| > max then {|Flush(p).blocks|} else {};
      StepKeepsGood(p, paras[0], max);
      StepKeepsGreedy(p, paras[0], max, barriers);
      NonEmptyTail(paras);
      RunKeepsGreedy(Step(p, paras[0], max), paras[1..], max, barriers + here);
      assert barriers + here + Barriers(Step(p, paras[0], max), paras[1..], max) == barriers + Barriers(p, paras, max);
    }
  }

  /** Paragraphs within the budget never close a block early. */
  lemma {:induction false} NoBarriersWhenParagraphsFit(p: Packer, paras: seq<string>, max: int)
    requires forall i :: 0 <= i < |paras| ==> |paras[i]| <= max
    ensures Barriers(p, paras, max) == {}
    decreases |paras|
  {
    if paras != [] {
      NoBarriersWhenParagraphsFit(Step(p, paras[0], max), paras[1..], max);
    }
  }

  // ---------------------------------------------------------------- properties

  /** The blocks hold exactly the pieces of the non-blank paragraphs, in
      order; no block is empty; and each block either fits the budget (its
      pieces' lengths sum to at most `max`) or is one piece. */
  lemma ChunkGroupsSound(text: string, max: int)
    ensures Flatten(ChunkGroups(text, max)) == AllPieces(Paragraphs(text), max)
    ensures forall i :: 0 <= i < |ChunkGroups(text, max)| ==>
      var g := ChunkGroups(text, max)[i];
      g != [] && NonEmptyPieces(g) && (SumLen(g) <= max || |g| == 1)
  {
    var paras := Paragraphs(text);
    assert Good(Start, max);
    RunKeepsGood(Start, paras, max);
    RunPlacesAll(Start, paras, max);
    var q := Run(Start, paras, max);
    FlushKeepsGood(q, max);
    assert Placed(Start) == [];
    assert Placed(Flush(q)) == Flatten(Flush(q).blocks);
  }

  /** When no paragraph exceeds the budget nothing is cut or dropped: the
      blocks hold the stripped non-blank paragraphs themselves. */
  lemma {:induction false} ShortParagraphsKept(paras: seq<string>, max: int)
    requires forall i :: 0 <= i < |paras| ==> |paras[i]| <= max
    ensures AllPieces(paras, max) == paras
    decreases |paras|
  {
    if paras != [] {
      ShortParagraphsKept(paras[1..], max);
      assert paras == [paras[0]] + paras[1..];
    }
  }

  /** A paragraph over the budget never joins the open block: the block is
      closed first and every block finished before it stays as it was. */
  lemma LongParagraphClosesBlock(p: Packer, para: string, max: int)
    requires Good(p, max) && |para| > max
    ensures p.current != [] ==> p.blocks + [p.current] <= Step(p, para, max).blocks
    ensures p.current == [] ==> p.blocks <= Step(p, para, max).blocks
  {
    FlushKeepsGood(p, max);
    SentencesPiecesNonEmpty(Terminated(para, Terminators), max);
    PlaceAllKeepsGood(Flush(p), ParagraphPieces(para, max), max);
  }

  lemma {:induction false} JoinLength(g: seq<string>)
    requires g != []
    ensures |Join(g, "\n")| == SumLen(g) + |g| - 1
    decreases |g|
  {
    if |g| > 1 {
      JoinLength(g[1..]);
    }
  }

  /** A joined block is longer than its pieces by one newline per seam, so a
      block that fits the budget may still exceed `max` characters by up to
      its piece count minus one. */
  lemma BlockLengthBound(text: string, max: int, i: nat)
    requires i < |SplitText(text, max)|
    ensures var g := ChunkGroups(text, max)[i];
      |SplitText(text, max)[i]| == SumLen(g) + |g| - 1
      && (|g| > 1 ==> |SplitText(text, max)[i]| <= max + |g| - 1)
  {
    ChunkGroupsSound(text, max);
    JoinLength(ChunkGroups(text, max)[i]);
  }

  /** A text made of white space only gives no block. */
  lemma BlankTextGivesNothing(text: string, max: int)
    requires AllSpace(text)
    ensures SplitText(text, max) == []
  {
    ParagraphsEmptyIffBlank(text);
  }

  /** An over-long paragraph with no sentence terminator is dropped whole. */
  lemma UnterminatedLongParagraphDropped(para: string, max: int)
    requires |para| > max && forall k :: 0 <= k < |para| ==> para[k] !in Terminators
    ensures ParagraphPieces(para, max) == []
  {
  }

  /** The text after the last terminator of an over-long paragraph is
      dropped: only the terminated sentences are placed. */
  lemma LongParagraphTailDropped(para: string, max: int)
    requires |para| > max
    ensures Concat(Terminated(para, Terminators)) + Dropped(para, Terminators) == para
    ensures ParagraphPieces(para, max) == SentencesPieces(Terminated(para, Terminators), max)
  {
    TerminatedCoversText(para, Terminators);
  }

  /** Two four-character paragraphs fill a budget of 8 exactly, so they share
      a block, and the joined block has 9 characters. */
  lemma SeamsNotCounted()
    ensures Flush(Run(Start, ["abcd", "efgh"], 8)).blocks == [["abcd", "efgh"]]
    ensures |Join(["abcd", "efgh"], "\n")| == 9
  {
    assert Step(Start, "abcd", 8) == Packer([], ["abcd"], 4);
    assert Step(Packer([], ["abcd"], 4), "efgh", 8) == Packer([], ["abcd", "efgh"], 8);
  }

  /** Blocks are filled greedily: each block was closed because the first
      piece of the next one did not fit into it, except where a paragraph
      over the budget closed it. */
  lemma GreedyPacking(text: string, max: int)
    ensures Tight(ChunkGroups(text, max), max, Barriers(Start, Paragraphs(text), max))
  {
    var paras := Paragraphs(text);
    var barriers := Barriers(Start, paras, max);
    assert Good(Start, max) && Greedy(Start, max, {});
    RunKeepsGood(Start, paras, max);
    RunKeepsGreedy(Start, paras, max, {});
    var q := Run(Start, paras, max);
    assert {} + barriers == barriers;
    FlushMakesBarrier(q, max, barriers);
    FlushKeepsGood(q, max);
  }

  /** When every paragraph fits the budget, every block but the last was
      closed because the next block's first paragraph did not fit into it. */
  lemma GreedyWhenParagraphsFit(text: string, max: int)
    requires forall i :: 0 <= i < |Paragraphs(text)| ==> |Paragraphs(text)[i]| <= max
    ensures Tight(ChunkGroups(text, max), max, {})
  {
    GreedyPacking(text, max);
    NoBarriersWhenParagraphsFit(Start, Paragraphs(text), max);
  }
}

=== FILE: document_processor.dfy ===
/** `DocumentProcessor` (src/processors/document_processor.py): what happens
    to the output of the extraction libraries. The libraries themselves
    (docling, python-pptx, markdown, BeautifulSoup) are replaced by the
    values they hand back: converted documents, table grids, slide shapes,
    Word items. */
module DocumentProcessor {
  import opened Wrappers
  import opened Text

  // ---------------------------------------------------------------- shared post-processing

  lemma StripOfStripped(p: string)
    requires p != [] && !IsSpace(p[0]) && !IsSpace(p[|p| - 1])
    ensures Strip(p) == p
  {
    assert TrimLeft(p) == p;
  }

  /** Parts that are already stripped and non-blank pass through `StrippedNonBlank` unchanged. */
  lemma {:induction false} StrippedNonBlankOfStripped(ps: seq<string>)
    requires forall i :: 0 <= i < |ps| ==> ps[i] != [] && !IsSpace(ps[i][0]) && !IsSpace(ps[i][|ps[i]| - 1])
    ensures StrippedNonBlank(ps) == ps
    decreases |ps|
  {
    if ps != [] {
      StripOfStripped(ps[0]);
      StrippedNonBlankOfStripped(ps[1..]);
      assert ps == [ps[0]] + ps[1..];
    }
  }

  const Pipe: string := " | "

  /** The present, non-blank texts of a row of table cells or of a slide's
      shapes, stripped and joined with `" | "`; nothing when there are none. */
  function PipeJoined(texts: seq<Option<string>>): (r: Option<string>)
    ensures r.None? <==> StrippedNonBlank(FilterMap(texts, (t: Option<string>) => t)) == []
    ensures r.Some? ==> r.value != [] && !IsSpace(r.value[0]) && !IsSpace(r.value[|r.value| - 1])
  {
    var parts := StrippedNonBlank(FilterMap(texts, (t: Option<string>) => t));
    if parts == [] then None
    else
      JoinEnds(parts, Pipe);
      Some(Join(parts, Pipe))
  }

  /** A joined row gives its cell texts back when split on `" | "`, provided
      no cell text contains `|`. */
  lemma PipeJoinedRoundTrip(cells: seq<string>)
    requires cells != []
    requires forall i :: 0 <= i < |cells| ==>
      cells[i] != [] && !IsSpace(cells[i][0]) && !IsSpace(cells[i][|cells[i]| - 1]) && '|' !in cells[i]
    ensures var texts := seq(|cells|, i requires 0 <= i < |cells| => Some(cells[i]));
      PipeJoined(texts).Some? && Split(PipeJoined(texts).value, Pipe) == cells
  {
    var texts := seq(|cells|, i requires 0 <= i < |cells| => Some(cells[i]));
    FilterMapOfPresent(cells);
    StrippedNonBlankOfStripped(cells);
    SplitJoin(cells, Pipe, 1);
  }

  lemma {:induction false} FilterMapOfPresent(cells: seq<string>)
    ensures FilterMap(seq(|cells|, i requires 0 <= i < |cells| => Some(cells[i])), (t: Option<string>) => t) == cells
    decreases |cells|
  {
    if cells != [] {
      var texts := seq(|cells|, i requires 0 <= i < |cells| => Some(cells[i]));
      FilterMapOfPresent(cells[1..]);
      assert texts[1..] == seq(|cells[1..]|, i requires 0 <= i < |cells[1..]| => Some(cells[1..][i]));
      assert cells == [cells[0]] + cells[1..];
    }
  }

  // ---------------------------------------------------------------- plain text

  /** `extract_text_from_txt`: the file's non-blank paragraphs (split on
      blank lines), stripped, in order. */
  function TxtTexts(content: string): (r: seq<string>)
    ensures forall i :: 0 <= i < |r| ==> r[i] != [] && !IsSpace(r[i][0]) && !IsSpace(r[i][|r[i]| - 1])
  {
    Paragraphs(content)
  }

  /** A text written as stripped one-line paragraphs separated by blank
      lines reads back as those paragraphs. */
  lemma TxtTextsRoundTrip(ps: seq<string>)
    requires ps != []
    requires forall i :: 0 <= i < |ps| ==>
      ps[i] != [] && !IsSpace(ps[i][0]) && !IsSpace(ps[i][|ps[i]| - 1]) && '\n' !in ps[i]
    ensures TxtTexts(Join(ps, "\n\n")) == ps
  {
    SplitJoin(ps, "\n\n", 0);
    StrippedNonBlankOfStripped(ps);
  }

  /** Exactly the non-blank parts between blank lines survive, stripped. */
  lemma TxtTextsMembers(content: string, x: string)
    ensures x in TxtTexts(content) <==>
      x != [] && exists j :: 0 <= j < |Split(content, "\n\n")| && x == Strip(Split(content, "\n\n")[j])
  {
    assert TxtTexts(content) == StrippedNonBlank(Split(content, "\n\n"));
    StrippedNonBlankMembers(Split(content, "\n\n"), x);
  }

  // ---------------------------------------------------------------- PDF

  /** The first provenance entry of a text item: its page number and
      bounding box, each possibly missing. */
  datatype BBox = BBox(l: real, t: real, r: real, b: real)
  datatype Prov = Prov(page: Option<int>, bbox: Option<BBox>)

  /** An entry of `data['texts']`: its `text` (possibly missing) and its `prov` list. */
  datatype TextItem = TextItem(text: Option<string>, prov: seq<Prov>)

  /** An entry of `data['tables']`: `data['grid']` when both keys are present,
      a grid of rows of cells whose `text` may be missing. */
  datatype TableItem = TableItem(grid: Option<seq<seq<Option<string>>>>)

  /** A converted document's dictionary; a missing `texts` or `tables` key
      behaves as an empty list. */
  datatype PdfData = PdfData(texts: seq<TextItem>, tables: seq<TableItem>)

  /** One element of `convert_all`: a successful conversion, or any other status. */
  datatype Conversion = Converted(data: PdfData) | ConversionFailed

  function PresentText(item: TextItem): Option<string> {
    item.text
  }

  /** The stripped non-blank texts of the text items. */
  function ItemTexts(items: seq<TextItem>): (r: seq<string>)
    ensures forall i :: 0 <= i < |r| ==> r[i] != [] && !IsSpace(r[i][0]) && !IsSpace(r[i][|r[i]| - 1])
  {
    StrippedNonBlank(FilterMap(items, PresentText))
  }

  /** One `" | "`-joined line per table row (or slide) that has some text,
      in order. */
  function RowTexts(rows: seq<seq<Option<string>>>): (r: seq<string>)
    ensures forall i :: 0 <= i < |r| ==> r[i] != [] && !IsSpace(r[i][0]) && !IsSpace(r[i][|r[i]| - 1])
    ensures |r| <= |rows|
  {
    var r := FilterMap(rows, PipeJoined);
    FilterMapBound(rows, PipeJoined);
    forall i | 0 <= i < |r| ensures r[i] != [] && !IsSpace(r[i][0]) && !IsSpace(r[i][|r[i]| - 1]) {
      FilterMapMembers(rows, PipeJoined, r[i]);
    }
    r
  }

  function TableTexts(tables: seq<TableItem>): (r: seq<string>)
    ensures forall i :: 0 <= i < |r| ==> r[i] != [] && !IsSpace(r[i][0]) && !IsSpace(r[i][|r[i]| - 1])
  {
    if tables == [] then []
    else
      var head := if tables[0].grid.Some? then RowTexts(tables[0].grid.value) else [];
      var tail := TableTexts(tables[1..]);
      forall i | |head| <= i < |head| + |tail| ensures (head + tail)[i] == tail[i - |head|] {
      }
      head + tail
  }

  /** `extract_text_from_pdf`: for every successful conversion, its texts and
      then its table rows; failed conversions add nothing. Every entry is
      non-blank and stripped. */
  function PdfTexts(conversions: seq<Conversion>): (r: seq<string>)
    ensures forall i :: 0 <= i < |r| ==> r[i] != [] && !IsSpace(r[i][0]) && !IsSpace(r[i][|r[i]| - 1])
  {
    if conversions == [] then []
    else
      var c := conversions[0];
      var head := if c.Converted? then ItemTexts(c.data.texts) + TableTexts(c.data.tables) else [];
      var tail := PdfTexts(conversions[1..]);
      forall i | |head| <= i < |head| + |tail| ensures (head + tail)[i] == tail[i - |head|] {
      }
      head + tail
  }

  /** A text item contributes its stripped text exactly when it has a
      non-blank one. */
  lemma ItemTextsMembers(items: seq<TextItem>, x: string)
    ensures x in ItemTexts(items) <==>
      x != [] && exists i :: 0 <= i < |items| && items[i].text.Some? && Strip(items[i].text.value) == x
  {
    var present := FilterMap(items, PresentText);
    StrippedNonBlankMembers(present, x);
    if x in ItemTexts(items) {
      var j :| 0 <= j < |present| && x == Strip(present[j]);
      assert present[j] in present;
      FilterMapMembers(items, PresentText, present[j]);
    }
    if x != [] && exists i :: 0 <= i < |items| && items[i].text.Some? && Strip(items[i].text.value) == x {
      var i :| 0 <= i < |items| && items[i].text.Some? && Strip(items[i].text.value) == x;
      FilterMapMembers(items, PresentText, items[i].text.value);
      var j :| 0 <= j < |present| && present[j] == items[i].text.value;
    }
  }

  /** A table gives a line when it has a grid and one of its rows joins to it. */
  predicate TableGives(table: TableItem, x: string) {
    table.grid.Some? && exists j :: 0 <= j < |table.grid.value| && PipeJoined(table.grid.value[j]) == Some(x)
  }

  /** A table line is emitted exactly when some table gives it. */
  lemma {:induction false} TableTextsMembers(tables: seq<TableItem>, x: string)
    ensures x in TableTexts(tables) <==> exists k :: 0 <= k < |tables| && TableGives(tables[k], x)
    decreases |tables|
  {
    if tables != [] {
      TableTextsMembers(tables[1..], x);
      if tables[0].grid.Some? {
        FilterMapMembers(tables[0].grid.value, PipeJoined, x);
      }
      if exists k :: 0 <= k < |tables| && TableGives(tables[k], x) {
        var k :| 0 <= k < |tables| && TableGives(tables[k], x);
        if k > 0 {
          assert tables[1..][k - 1] == tables[k];
        }
      }
      if exists k :: 0 <= k < |tables| - 1 && TableGives(tables[1..][k], x) {
        var k :| 0 <= k < |tables| - 1 && TableGives(tables[1..][k], x);
        assert tables[k + 1] == tables[1..][k];
      }
    }
  }

  /** The extraction appends conversion by conversion: one more conversion
      adds its texts and then its table rows at the end, or nothing when it
      failed. */
  lemma {:induction false} PdfTextsInOrder(conversions: seq<Conversion>, c: Conversion)
    ensures PdfTexts(conversions + [c]) ==
      PdfTexts(conversions) + (if c.Converted? then ItemTexts(c.data.texts) + TableTexts(c.data.tables) else [])
    decreases |conversions|
  {
    if conversions == [] {
      assert [c][1..] == [];
    } else {
      assert (conversions + [c])[1..] == conversions[1..] + [c];
      PdfTextsInOrder(conversions[1..], c);
    }
  }

  /** A conversion contributes a text when it succeeded and has it among
      its item texts or its table lines. */
  predicate ConversionGives(c: Conversion, x: string) {
    c.Converted? && (x in ItemTexts(c.data.texts) || x in TableTexts(c.data.tables))
  }

  /** A PDF text is emitted exactly when some conversion contributes it. */
  lemma {:induction false} PdfTextsMembers(conversions: seq<Conversion>, x: string)
    ensures x in PdfTexts(conversions) <==> exists k :: 0 <= k < |conversions| && ConversionGives(conversions[k], x)
    decreases |conversions|
  {
    if conversions != [] {
      PdfTextsMembers(conversions[1..], x);
      if exists k :: 0 <= k < |conversions| && ConversionGives(conversions[k], x) {
        var k :| 0 <= k < |conversions| && ConversionGives(conversions[k], x);
        if k > 0 {
          assert conversions[1..][k - 1] == conversions[k];
        }
      }
      if exists k :: 0 <= k < |conversions| - 1 && ConversionGives(conversions[1..][k], x) {
        var k :| 0 <= k < |conversions| - 1 && ConversionGives(conversions[1..][k], x);
        assert conversions[k + 1] == conversions[1..][k];
      }
    }
  }

  // ---------------------------------------------------------------- PDF region lookup

  /** The `bbox` argument of `extract_text_from_pdf_in_region`. */
  datatype Region = Region(left: real, top: real, right: real, bottom: real)

  /** A box lies inside the region (the containment check of the lookup). */
  predicate Inside(b: BBox, region: Region) {
    b.l >= region.left && b.t >= region.top && b.r <= region.right && b.b <= region.bottom
  }

  /** What one text item contributes to the lookup: its stripped text when
      its first provenance entry is on the page, has a box inside the region,
      and the text is not blank. */
  function RegionMatch(item: TextItem, region: Region, page: int): (r: Option<string>)
    ensures r.Some? ==> r.value != []
  {
    if item.prov == [] then None
    else
      var p := item.prov[0];
      if p.page == Some(page) && p.bbox.Some? && Inside(p.bbox.value, region)
         && item.text.Some? && Strip(item.text.value) != []
      then Some(Strip(item.text.value))
      else None
  }

  /** The text items of the successful conversions, in order. */
  function ConvertedItems(conversions: seq<Conversion>): seq<TextItem> {
    if conversions == [] then []
    else (if conversions[0].Converted? then conversions[0].data.texts else []) + ConvertedItems(conversions[1..])
  }

  /** No item matches the region on the page. */
  predicate NoneMatch(items: seq<TextItem>, region: Region, page: int) {
    forall i :: 0 <= i < |items| ==> RegionMatch(items[i], region, page).None?
  }

  /** The stripped text of the first item that matches, or `""`. */
  function FirstMatch(items: seq<TextItem>, region: Region, page: int): string
    decreases |items|
  {
    if items == [] then []
    else match RegionMatch(items[0], region, page)
      case Some(t) => t
      case None => FirstMatch(items[1..], region, page)
  }

  /** `FirstMatch` is empty exactly when no item matches, and otherwise it
      is the text of the first item that does. */
  lemma {:induction false} FirstMatchIsFirst(items: seq<TextItem>, region: Region, page: int)
    ensures FirstMatch(items, region, page) == [] <==> NoneMatch(items, region, page)
    ensures var r := FirstMatch(items, region, page);
      r != [] ==>
        exists i :: 0 <= i < |items| && RegionMatch(items[i], region, page) == Some(r) &&
          forall j :: 0 <= j < i ==> RegionMatch(items[j], region, page).None?
    decreases |items|
  {
    if items != [] && RegionMatch(items[0], region, page).None? {
      FirstMatchIsFirst(items[1..], region, page);
      forall i | 1 <= i < |items| ensures items[i] == items[1..][i - 1] {
      }
      var r := FirstMatch(items, region, page);
      if r != [] {
        var i :| 0 <= i < |items| - 1 && RegionMatch(items[1..][i], region, page) == Some(r) &&
          forall j :: 0 <= j < i ==> RegionMatch(items[1..][j], region, page).None?;
        assert RegionMatch(items[i + 1], region, page) == Some(r);
      }
    }
  }

  /** `extract_text_from_pdf_in_region`: the stripped text of the first
      matching item, or `""` when none matches. */
  function RegionText(conversions: seq<Conversion>, region: Region, page: int): (r: string)
    ensures r == [] <==> NoneMatch(ConvertedItems(conversions), region, page)
    ensures var items := ConvertedItems(conversions);
      r != [] ==>
        exists i :: 0 <= i < |items| && RegionMatch(items[i], region, page) == Some(r) &&
          forall j :: 0 <= j < i ==> RegionMatch(items[j], region, page).None?
  {
    var items := ConvertedItems(conversions);
    FirstMatchIsFirst(items, region, page);
    FirstMatch(items, region, page)
  }

  // ---------------------------------------------------------------- PowerPoint and Markdown

  /** `extract_text_from_pptx`: one `" | "`-joined line per slide with text;
      a slide is the list of its shapes' `text` attributes (missing for
      shapes without one). */
  function PptxTexts(slides: seq<seq<Option<string>>>): (r: seq<string>)
    ensures forall i :: 0 <= i < |r| ==> r[i] != [] && !IsSpace(r[i][0]) && !IsSpace(r[i][|r[i]| - 1])
    ensures |r| <= |slides|
  {
    RowTexts(slides)
  }

  /** A line is emitted exactly when some slide joins to it. */
  lemma PptxTextsMembers(slides: seq<seq<Option<string>>>, x: string)
    ensures x in PptxTexts(slides) <==> exists k :: 0 <= k < |slides| && PipeJoined(slides[k]) == Some(x)
  {
    FilterMapMembers(slides, PipeJoined, x);
  }

  /** `extract_text_from_markdown` after the HTML rendering: the stripped
      non-blank texts of the paragraph and heading elements, in order. */
  function MarkdownTexts(elementTexts: seq<string>): (r: seq<string>)
    ensures forall i :: 0 <= i < |r| ==> r[i] != [] && !IsSpace(r[i][0]) && !IsSpace(r[i][|r[i]| - 1])
  {
    StrippedNonBlank(elementTexts)
  }

  /** A Markdown text is taken exactly when some paragraph or heading element
      has it as its stripped, non-blank text. */
  lemma MarkdownTextsMembers(elementTexts: seq<string>, x: string)
    ensures x in MarkdownTexts(elementTexts) <==>
      x != [] && exists j :: 0 <= j < |elementTexts| && x == Strip(elementTexts[j])
  {
    StrippedNonBlankMembers(elementTexts, x);
  }

  /** One more element appends its stripped text, unless that is blank. */
  lemma MarkdownTextsInOrder(elementTexts: seq<string>, e: string)
    ensures MarkdownTexts(elementTexts + [e]) ==
      MarkdownTexts(elementTexts) + (if Strip(e) == [] then [] else [Strip(e)])
  {
    StrippedNonBlankSnoc(elementTexts, e);
  }

  // ---------------------------------------------------------------- Word

  /** The items a converted Word document iterates over. */
  datatype DocItem =
    | Paragraph(text: string)
    | SectionHeader(level: int, text: string)
    | OtherItem(maybeText: Option<string>)

  /** The label a section header is written with: `[标题<level>] <text>`. */
  function HeaderText(level: int, text: string): (r: string)
    ensures "[标题" <= r && r != []
  {
    "[标题" + IntToString(level) + "] " + Strip(text)
  }

  function DocItemText(item: DocItem): (r: Option<string>)
    ensures r.Some? ==> r.value != []
  {
    match item
    case Paragraph(t) => if Strip(t) != [] then Some(Strip(t)) else None
    case SectionHeader(level, t) => Some(HeaderText(level, t))
    case OtherItem(t) => if t.Some? && Strip(t.value) != [] then Some(Strip(t.value)) else None
  }

  /** `extract_text_from_docx`: one entry per paragraph or other item with
      text, one per section header whatever its text; a failed conversion
      gives nothing. An empty extraction is raised and caught, which also
      gives nothing. */
  function DocxTexts(converted: Result<seq<DocItem>, string>): (r: seq<string>)
    ensures converted.Failure? ==> r == []
    ensures converted.Success? ==> |r| <= |converted.value|
    ensures forall i :: 0 <= i < |r| ==> r[i] != []
  {
    match converted
    case Failure(_) => []
    case Success(items) =>
      var texts := FilterMap(items, DocItemText);
      FilterMapBound(items, DocItemText);
      forall i | 0 <= i < |texts| ensures texts[i] != [] {
        FilterMapMembers(items, DocItemText, texts[i]);
      }
      texts
  }

  /** What an item may give: a paragraph or another item its non-blank
      stripped text, a section header its label. */
  predicate ItemGives(item: DocItem, x: string) {
    match item
    case Paragraph(t) => x != [] && x == Strip(t)
    case SectionHeader(level, t) => x == HeaderText(level, t)
    case OtherItem(t) => t.Some? && x != [] && x == Strip(t.value)
  }

  /** An entry is emitted exactly when some item gives it: a paragraph or
      another item its non-blank stripped text, a section header its label. */
  lemma DocxTextsMembers(items: seq<DocItem>, x: string)
    ensures x in DocxTexts(Success(items)) <==> exists i :: 0 <= i < |items| && ItemGives(items[i], x)
  {
    FilterMapMembers(items, DocItemText, x);
  }

  // A section header reaches the labelled branch only when no earlier
  // `isinstance` test catches it. docling-core declares `SectionHeaderItem`
  // a subclass of `TextItem`, and the `TextItem` test comes first, so the
  // loop as written treats a header like a paragraph. The members above
  // model the labelled reading the header branch was written for; the
  // members below model the loop with that class hierarchy.

  /** The dispatch with section headers caught by the `TextItem` test: a
      header gives its stripped text, unlabelled, or nothing when blank. */
  function DocItemTextAsWritten(item: DocItem): (r: Option<string>)
    ensures r.Some? ==> r.value != []
  {
    match item
    case SectionHeader(_, t) => if Strip(t) != [] then Some(Strip(t)) else None
    case _ => DocItemText(item)
  }

  function DocxTextsAsWritten(items: seq<DocItem>): seq<string> {
    FilterMap(items, DocItemTextAsWritten)
  }

  /** What an item gives when headers take the `TextItem` branch. */
  predicate ItemGivesAsWritten(item: DocItem, x: string) {
    match item
    case Paragraph(t) => x != [] && x == Strip(t)
    case SectionHeader(_, t) => x != [] && x == Strip(t)
    case OtherItem(t) => t.Some? && x != [] && x == Strip(t.value)
  }

  /** With headers caught as text items, an entry is emitted exactly when
      some item has it as its non-blank stripped text: no label is written. */
  lemma DocxTextsAsWrittenMembers(items: seq<DocItem>, x: string)
    ensures x in DocxTextsAsWritten(items) <==> exists i :: 0 <= i < |items| && ItemGivesAsWritten(items[i], x)
  {
    FilterMapMembers(items, DocItemTextAsWritten, x);
  }

  /** A header `Intro` comes out as `Intro`, not as its label, and a blank
      header comes out as nothing. */
  lemma HeaderLabelLost(level: int, text: string)
    requires Strip(text) != []
    ensures DocxTextsAsWritten([SectionHeader(level, text)]) == [Strip(text)]
    ensures DocxTextsAsWritten([SectionHeader(level, "")]) == []
    ensures HeaderText(level, text) !in DocxTextsAsWritten([SectionHeader(level, text)])
  {
    var h, blank := SectionHeader(level, text), SectionHeader(level, "");
    assert [h][1..] == [] && [blank][1..] == [];
    assert DocItemTextAsWritten(h) == Some(Strip(text));
    assert DocItemTextAsWritten(blank) == None by {
      StripEmptyIffBlank("");
    }
    assert DocxTextsAsWritten([h]) == [Strip(text)] + FilterMap([h][1..], DocItemTextAsWritten);
    assert |HeaderText(level, text)| > |Strip(text)|;
  }

  /** The items are visited in order: one more item appends its entry, if
      it has one, at the end. */
  lemma DocxTextsInOrder(items: seq<DocItem>, item: DocItem)
    ensures DocxTexts(Success(items + [item])) ==
      DocxTexts(Success(items)) + (if DocItemText(item).Some? then [DocItemText(item).value] else [])
  {
    FilterMapAppend(items, [item], DocItemText);
    assert [item][1..] == [];
  }

  /** With the header branch reached, every section header is emitted, even
      one whose text is blank. */
  lemma HeadersAlwaysEmitted(items: seq<DocItem>, i: nat)
    requires i < |items| && items[i].SectionHeader?
    ensures HeaderText(items[i].level, items[i].text) in DocxTexts(Success(items))
  {
    FilterMapMembers(items, DocItemText, HeaderText(items[i].level, items[i].text));
  }

  // ---------------------------------------------------------------- dispatch

  /** Python's `posixpath.splitext`: the extension is the text from the last
      `.` of the file name on, unless that dot only follows other dots at the
      start of the file name; otherwise it is empty. */
  function SplitExt(path: string): (r: (string, string))
    ensures r.0 + r.1 == path
    ensures r.1 != [] ==> r.1[0] == '.' && '.' !in r.1[1..] && '/' !in r.1
  {
    if '.' !in path then (path, "")
    else
      var dot := LastIndex(path, '.');
      var start := if '/' in path then LastIndex(path, '/') + 1 else 0;
      if start <= dot && exists k :: start <= k < dot && path[k] != '.' then
        assert path[..dot] + path[dot..] == path;
        (path[..dot], path[dot..])
      else (path, "")
  }

  datatype Format = Pdf | Docx | Markdown | Pptx | Txt

  /** The dispatch table of `process_file`. */
  function FormatOf(ext: string): (r: Option<Format>)
    ensures r.Some? <==> ext in {".pdf", ".docx", ".md", ".pptx", ".txt"}
  {
    if ext == ".pdf" then Some(Pdf)
    else if ext == ".docx" then Some(Docx)
    else if ext == ".md" then Some(Markdown)
    else if ext == ".pptx" then Some(Pptx)
    else if ext == ".txt" then Some(Txt)
    else None
  }

  /** `process_file`: the lower-cased extension picks the extractor (whose
      result is `extract`); any other extension is a `ValueError` naming it. */
  function ProcessFile(path: string, extract: Format -> seq<string>): (r: Result<seq<string>, string>)
    ensures var ext := Lower(SplitExt(path).1);
      (r.Success? <==> ext in {".pdf", ".docx", ".md", ".pptx", ".txt"}) &&
      (r.Success? ==> r.value == extract(FormatOf(ext).value)) &&
      (r.Failure? ==> r.error == "不支持的文件格式: " + ext)
  {
    var ext := Lower(SplitExt(path).1);
    match FormatOf(ext)
    case None => Failure("不支持的文件格式: " + ext)
    case Some(f) => Success(extract(f))
  }

  /** The extension is matched without regard to ASCII case. */
  lemma ProcessFileIgnoresCase(root: string, ext: string, extract: Format -> seq<string>)
    requires '.' !in ext && '/' !in ext
    requires exists k :: 0 <= k < |root| && root[k] != '.' && root[k] != '/' && '/' !in root[k..]
    ensures ProcessFile(root + "." + ext, extract) == ProcessFile(root + "." + Lower(ext), extract)
  {
    var a, b := root + "." + ext, root + "." + Lower(ext);
    assert '.' !in Lower(ext) && '/' !in Lower(ext) by {
      forall k | 0 <= k < |ext| ensures Lower(ext)[k] != '.' && Lower(ext)[k] != '/' {
        assert ext[k] != '.' && ext[k] != '/';
      }
    }
    ExtensionOfName(root, ext);
    ExtensionOfName(root, Lower(ext));
    LowerDot(ext);
    LowerDot(Lower(ext));
    LowerIdempotent(ext);
    assert Lower(SplitExt(a).1) == "." + Lower(ext);
    assert Lower(SplitExt(b).1) == "." + Lower(ext);
    ProcessFileByExtension(a, b, extract);
  }

  /** `process_file` looks only at the lower-cased extension. */
  lemma ProcessFileByExtension(p: string, q: string, extract: Format -> seq<string>)
    requires Lower(SplitExt(p).1) == Lower(SplitExt(q).1)
    ensures ProcessFile(p, extract) == ProcessFile(q, extract)
  {
  }

  lemma LowerDot(ext: string)
    ensures Lower("." + ext) == "." + Lower(ext)
  {
    assert ("." + ext)[1..] == ext;
  }

  /** A name with a non-dot character before its last dot has the text from
      that dot on as its extension. */
  lemma ExtensionOfName(root: string, ext: string)
    requires '.' !in ext && '/' !in ext
    requires exists k :: 0 <= k < |root| && root[k] != '.' && root[k] != '/' && '/' !in root[k..]
    ensures SplitExt(root + "." + ext).1 == "." + ext
  {
    var path := root + "." + ext;
    var k :| 0 <= k < |root| && root[k] != '.' && root[k] != '/' && '/' !in root[k..];
    assert path[|root|] == '.';
    assert '.' in path;
    var dot := LastIndex(path, '.');
    assert dot == |root|;
    assert path[k] == root[k];
    assert path[dot..] == "." + ext;
  }

  /** A file name made only of dots and an extension, such as `.pdf`, has no
      extension and is refused. */
  lemma DotFileRefused(extract: Format -> seq<string>)
    ensures ProcessFile(".pdf", extract) == Failure("不支持的文件格式: ")
  {
    assert LastIndex(".pdf", '.') == 0;
    assert SplitExt(".pdf").1 == "";
    assert Lower("") == "";
    assert "不支持的文件格式: " + "" == "不支持的文件格式: ";
  }
}

=== FILE: llm.dfy ===
/** What the code sees of a chat call to the local model server. */
module Llm {
  /** The message content of a reply, or the text of the exception the call
      (or the `response['message']['content']` lookup) raised. */
  datatype ChatReply = Reply(content: string) | ChatError(message: string)
}

=== FILE: query_rewriter.dfy ===
/** `QueryRewriter` (src/utils/query_rewriter.py): rewriting a user question
    with the local model, parsing the model's answer into candidate queries,
    cleaning a candidate, rule-based keyword expansion, query suggestions and
    intent analysis. The model call is the `chat` parameter. */
module QueryRewriter {
  import opened Wrappers
  import opened Text
  import opened Llm

  // ---------------------------------------------------------------- cleaning

  /** What the regular-expression class `\d` matches here: ASCII and
      full-width decimal digits. */
  predicate IsDecimalDigit(c: char) {
    ('0' <= c <= '9') || ('０' <= c <= '９')
  }

  predicate IsColon(c: char) {
    c == ':' || c == '：'
  }

  /** The longest run of decimal digits at the start of `s`. */
  function DigitRun(s: string): (r: string)
    ensures r <= s
    ensures forall k :: 0 <= k < |r| ==> IsDecimalDigit(r[k])
    ensures |r| < |s| ==> !IsDecimalDigit(s[|r|])
  {
    if s != [] && IsDecimalDigit(s[0]) then [s[0]] + DigitRun(s[1..]) else []
  }

  /** `re.sub(r'^[：:]\s*', '', s)`: one leading colon and the whitespace after it. */
  function DropColon(s: string): string {
    if s != [] && IsColon(s[0]) then TrimLeft(s[1..]) else s
  }

  /** `re.sub(r'^\d+\.\s*', '', s)`: a leading list number such as `12. `. */
  function DropNumbering(s: string): string {
    var n := |DigitRun(s)|;
    if 0 < n < |s| && s[n] == '.' then TrimLeft(s[n + 1..]) else s
  }

  const Quotes: set<char> := {'"', '\''}

  /** `_clean_query_text`: drop a leading colon, then a leading list number,
      then surrounding quotes, then turn every whitespace run into one space
      and strip. */
  function CleanQuery(text: string): string {
    Collapse(StripChars(DropNumbering(DropColon(text)), Quotes))
  }

  /** A query is in normal form when collapsing its whitespace changes nothing. */
  predicate Normal(q: string) {
    Collapse(q) == q
  }

  /** A cleaned query is in normal form: single spaces between words and none
      at either end. */
  lemma CleanQueryIsNormal(text: string)
    ensures Normal(CleanQuery(text))
    ensures var q := CleanQuery(text);
      q == [] || (!IsSpace(q[0]) && !IsSpace(q[|q| - 1]))
  {
    var u := StripChars(DropNumbering(DropColon(text)), Quotes);
    CollapseIdempotent(u);
    JoinTokensEnds(u);
  }

  /** Cleaning leaves a query alone when it is already in normal form and has
      no leading colon, list number or surrounding quote. */
  lemma CleanQueryKeepsClean(q: string)
    requires Normal(q)
    requires q != [] ==> !IsColon(q[0]) && !IsDecimalDigit(q[0]) && q[0] !in Quotes && q[|q| - 1] !in Quotes
    ensures CleanQuery(q) == q
  {
    assert DropColon(q) == q;
    assert DigitRun(q) == [];
    assert DropNumbering(q) == q;
    assert StripChars(q, Quotes) == q;
  }

  /** A label colon and the whitespace after it are dropped. */
  lemma CleanQueryDropsColon(c: char, x: string)
    requires IsColon(c)
    requires TrimLeft(x) != [] ==> !IsColon(TrimLeft(x)[0])
    ensures CleanQuery([c] + x) == CleanQuery(TrimLeft(x))
  {
    assert ([c] + x)[1..] == x;
  }

  lemma {:induction false} DigitRunOfDigits(d: string, y: string)
    requires forall k :: 0 <= k < |d| ==> IsDecimalDigit(d[k])
    requires y != [] && !IsDecimalDigit(y[0])
    ensures DigitRun(d + y) == d
    decreases |d|
  {
    if d == [] {
      assert d + y == y;
    } else {
      DigitRunOfDigits(d[1..], y);
      assert (d + y)[1..] == d[1..] + y;
    }
  }

  /** A list number `n.` and the whitespace after it are dropped. */
  lemma CleanQueryDropsNumber(n: nat, x: string)
    requires TrimLeft(x) != [] ==> !IsColon(TrimLeft(x)[0]) && !IsDecimalDigit(TrimLeft(x)[0])
    ensures CleanQuery(NatToString(n) + "." + x) == CleanQuery(TrimLeft(x))
  {
    var d := NatToString(n);
    var s := d + "." + x;
    assert s == d + ("." + x);
    DigitRunOfDigits(d, "." + x);
    assert s[|d|] == '.';
    assert s[|d| + 1..] == x;
    assert !IsColon(s[0]) by {
      assert s[0] == d[0];
    }
  }

  // ---------------------------------------------------------------- parsing the model's answer

  /** `content.split('\n')`. */
  function Lines(content: string): seq<string> {
    Split(content, "\n")
  }

  /** The lines `_parse_rewrite_response` treats as headings: numbered
      titles, lines ending in a colon, and bullet points. */
  predicate HeadingLike(l: string) {
    || StartsWith(l, "1.") || StartsWith(l, "2.") || StartsWith(l, "3.")
    || EndsWith(l, "：") || EndsWith(l, ":")
    || StartsWith(l, "-") || StartsWith(l, "•")
  }

  /** The cleaned query one line of the model's answer contributes, if any:
      the stripped line must be non-empty and not heading-like, and the
      cleaned text must be longer than five characters. */
  function Candidate(line: string): (r: Option<string>)
    ensures r.Some? ==> |r.value| > 5 && Normal(r.value)
  {
    var l := Strip(line);
    if l == [] || HeadingLike(l) then None
    else
      var q := CleanQuery(l);
      CleanQueryIsNormal(l);
      if |q| > 5 then Some(q) else None
  }

  /** `_parse_rewrite_response` over the lines of the model's answer: the
      distinct candidates in first-seen order, at most five. */
  function ParseRewriteResponse(lines: seq<string>): (r: seq<string>)
    ensures NoDup(r) && |r| <= 5
    ensures forall i :: 0 <= i < |r| ==> |r[i]| > 5 && Normal(r[i])
  {
    var cs := FilterMap(lines, Candidate);
    var d := Dedup(cs);
    forall x | x in cs ensures |x| > 5 && Normal(x) {
      FilterMapMembers(lines, Candidate, x);
    }
    Take(d, 5)
  }

  /** Every parsed query comes from some line of the answer. */
  lemma ParsedFromLine(lines: seq<string>, x: string)
    requires x in ParseRewriteResponse(lines)
    ensures exists i :: 0 <= i < |lines| && Candidate(lines[i]) == Some(x)
  {
    var d := Dedup(FilterMap(lines, Candidate));
    assert x in d;
    FilterMapMembers(lines, Candidate, x);
  }

  /** Every line's candidate is kept unless five distinct queries were
      already found. */
  lemma LineParsed(lines: seq<string>, i: nat)
    requires i < |lines| && Candidate(lines[i]).Some?
    ensures var r := ParseRewriteResponse(lines);
      Candidate(lines[i]).value in r || |r| == 5
  {
    var x := Candidate(lines[i]).value;
    FilterMapMembers(lines, Candidate, x);
    var d := Dedup(FilterMap(lines, Candidate));
    assert x in d;
    if x !in Take(d, 5) {
      assert |d| > 5;
    }
  }

  /** The parsed queries keep the order in which the answer first gives them. */
  lemma ParseRewriteResponseOrder(lines: seq<string>)
    ensures var cs := FilterMap(lines, Candidate);
      var r := ParseRewriteResponse(lines);
      forall i, j :: 0 <= i < j < |r| ==> FirstIndex(cs, r[i]) < FirstIndex(cs, r[j])
  {
    var cs := FilterMap(lines, Candidate);
    DedupFirstSeenOrder(cs);
  }

  // ---------------------------------------------------------------- extracting one query

  /** The query one line contributes to `_extract_rewritten_query`: lines
      that are blank or start with one of the two answer labels are skipped,
      and the cleaned text must be longer than five characters. */
  function Extracted(line: string): (r: Option<string>)
    ensures r.Some? ==> |r.value| > 5 && Normal(r.value)
  {
    var l := Strip(line);
    if l == [] || StartsWith(l, "扩展查询：") || StartsWith(l, "重写后的查询：") then None
    else
      var q := CleanQuery(l);
      CleanQueryIsNormal(l);
      if |q| > 5 then Some(q) else None
  }

  /** `_extract_rewritten_query`: the contribution of the first line that
      contributes, or the empty string when none does. */
  function ExtractRewrittenQuery(lines: seq<string>): (r: string)
    ensures r != [] ==> |r| > 5 && Normal(r)
    ensures (r == [] <==> forall i :: 0 <= i < |lines| ==> Extracted(lines[i]).None?) &&
      (r != [] ==>
        exists i :: 0 <= i < |lines| && Extracted(lines[i]) == Some(r) &&
          forall j :: 0 <= j < i ==> Extracted(lines[j]).None?)
  {
    FirstSomeIsFirst(lines, Extracted);
    FirstSome(lines, Extracted).GetOr([])
  }

  // ---------------------------------------------------------------- rewriting with the model

  /** The prompt sent to the model; the prose of the two templates is not modelled. */
  datatype Prompt =
    | MultiStrategyPrompt(query: string)
    | ExpandPrompt(query: string)
    | StrategyPrompt(strategy: string, query: string)

  /** The result dictionary: `outcome` is `Success(llm_response)` when
      `success` is true and `Failure(error)` otherwise. */
  datatype Rewrite = Rewrite(original: string, rewritten: seq<string>, strategy: string, outcome: Result<string, string>)

  /** The prompt `rewrite_query` sends for a strategy. */
  function PromptFor(query: string, strategy: string): Prompt {
    if strategy == "auto" then MultiStrategyPrompt(query)
    else if strategy == "expand" then ExpandPrompt(query)
    else StrategyPrompt(strategy, query)
  }

  /** `_rewrite_with_multiple_strategies`. */
  function RewriteWithMultipleStrategies(query: string, chat: Prompt -> ChatReply): Rewrite {
    match chat(MultiStrategyPrompt(query))
    case ChatError(e) => Rewrite(query, [query], "multiple", Failure(e))
    case Reply(content) =>
      var qs := ParseRewriteResponse(Lines(content));
      Rewrite(query, if qs == [] then [query] else qs, "multiple", Success(content))
  }

  /** `_rewrite_with_single_strategy`. */
  function RewriteWithSingleStrategy(query: string, strategy: string, chat: Prompt -> ChatReply): Rewrite {
    var prompt := if strategy == "expand" then ExpandPrompt(query) else StrategyPrompt(strategy, query);
    match chat(prompt)
    case ChatError(e) => Rewrite(query, [query], strategy, Failure(e))
    case Reply(content) =>
      var q := ExtractRewrittenQuery(Lines(content));
      Rewrite(query, [if q == [] then query else q], strategy, Success(content))
  }

  /** `rewrite_query`: there is always at least one query to search with;
      every query other than the original is a cleaned line of the model's
      answer; a failed call falls back to the original alone. */
  function RewriteQuery(query: string, strategy: string, chat: Prompt -> ChatReply): (r: Rewrite)
    ensures r.original == query
    ensures 1 <= |r.rewritten| <= 5
    ensures r.strategy == if strategy == "auto" then "multiple" else strategy
    ensures strategy != "auto" ==> |r.rewritten| == 1
    ensures r.outcome.Success? <==> chat(PromptFor(query, strategy)).Reply?
    ensures r.outcome.Success? ==> r.outcome.value == chat(PromptFor(query, strategy)).content
    ensures r.outcome.Failure? ==> r.rewritten == [query] && r.outcome.error == chat(PromptFor(query, strategy)).message
    ensures forall i :: 0 <= i < |r.rewritten| ==> r.rewritten[i] == query || (|r.rewritten[i]| > 5 && Normal(r.rewritten[i]))
    ensures strategy == "auto" && r.outcome.Success? ==>
      var qs := ParseRewriteResponse(Lines(r.outcome.value));
      r.rewritten == if qs == [] then [query] else qs
    ensures strategy != "auto" && r.outcome.Success? ==>
      var q := ExtractRewrittenQuery(Lines(r.outcome.value));
      r.rewritten == [if q == [] then query else q]
  {
    if strategy == "auto" then RewriteWithMultipleStrategies(query, chat)
    else RewriteWithSingleStrategy(query, strategy, chat)
  }

  // ---------------------------------------------------------------- keyword expansion

  /** The financial-term table of `expand_query_keywords`, in its order. */
  const FinancialTerms: seq<(string, seq<string>)> := [
    ("投资", ["投资", "投资策略", "投资组合", "投资风险", "投资收益"]),
    ("股票", ["股票", "股价", "股票市场", "股票投资", "股票分析"]),
    ("基金", ["基金", "投资基金", "基金净值", "基金收益", "基金风险"]),
    ("债券", ["债券", "债券投资", "债券收益", "债券风险", "债券市场"]),
    ("风险", ["风险", "风险管理", "风险评估", "风险控制", "投资风险"]),
    ("收益", ["收益", "收益率", "投资收益", "收益分析", "收益预测"]),
    ("市场", ["市场", "市场分析", "市场趋势", "市场风险", "市场预测"]),
    ("分析", ["分析", "财务分析", "技术分析", "基本面分析", "投资分析"]),
    ("报告", ["报告", "财务报告", "年度报告", "季度报告", "分析报告"]),
    ("财务", ["财务", "财务状况", "财务指标", "财务分析", "财务报表"])
  ]

  /** A term applies to a keyword when either contains the other. */
  predicate Related(keyword: string, term: string) {
    Contains(keyword, term) || Contains(term, keyword)
  }

  /** The first two expansions of every table entry related to `keyword`, in table order. */
  function TermExpansions(keyword: string, table: seq<(string, seq<string>)>): seq<string> {
    if table == [] then []
    else (if Related(keyword, table[0].0) then Take(table[0].1, 2) else []) + TermExpansions(keyword, table[1..])
  }

  /** The expansions of every keyword, keyword by keyword. */
  function Expansions(keywords: seq<string>): seq<string> {
    if keywords == [] then [] else TermExpansions(keywords[0], FinancialTerms) + Expansions(keywords[1..])
  }

  lemma {:induction false} TermExpansionsFrom(keyword: string, table: seq<(string, seq<string>)>, x: string)
    requires x in TermExpansions(keyword, table)
    ensures exists t :: 0 <= t < |table| && Related(keyword, table[t].0) && x in Take(table[t].1, 2)
    decreases |table|
  {
    if x !in (if Related(keyword, table[0].0) then Take(table[0].1, 2) else []) {
      TermExpansionsFrom(keyword, table[1..], x);
      var t :| 0 <= t < |table| - 1 && Related(keyword, table[1..][t].0) && x in Take(table[1..][t].1, 2);
      assert table[t + 1] == table[1..][t];
    }
  }

  lemma {:induction false} ExpansionsFrom(keywords: seq<string>, x: string)
    requires x in Expansions(keywords)
    ensures exists k, t ::
      0 <= k < |keywords| && 0 <= t < |FinancialTerms| &&
      Related(keywords[k], FinancialTerms[t].0) && x in Take(FinancialTerms[t].1, 2)
    decreases |keywords|
  {
    if x in TermExpansions(keywords[0], FinancialTerms) {
      TermExpansionsFrom(keywords[0], FinancialTerms, x);
      var t :| 0 <= t < |FinancialTerms| && Related(keywords[0], FinancialTerms[t].0) && x in Take(FinancialTerms[t].1, 2);
      assert 0 < |keywords|;
    } else {
      ExpansionsFrom(keywords[1..], x);
      var k, t :| 0 <= k < |keywords| - 1 && 0 <= t < |FinancialTerms|
        && Related(keywords[1..][k], FinancialTerms[t].0) && x in Take(FinancialTerms[t].1, 2);
      assert keywords[k + 1] == keywords[1..][k];
    }
  }

  lemma {:induction false} TermExpansionsTo(keyword: string, table: seq<(string, seq<string>)>, t: nat, x: string)
    requires t < |table| && Related(keyword, table[t].0) && x in Take(table[t].1, 2)
    ensures x in TermExpansions(keyword, table)
    decreases |table|
  {
    if t > 0 {
      assert table[1..][t - 1] == table[t];
      TermExpansionsTo(keyword, table[1..], t - 1, x);
    }
  }

  lemma {:induction false} ExpansionsTo(keywords: seq<string>, k: nat, t: nat, x: string)
    requires k < |keywords| && t < |FinancialTerms|
    requires Related(keywords[k], FinancialTerms[t].0) && x in Take(FinancialTerms[t].1, 2)
    ensures x in Expansions(keywords)
    decreases |keywords|
  {
    if k == 0 {
      TermExpansionsTo(keywords[0], FinancialTerms, t, x);
    } else {
      assert keywords[1..][k - 1] == keywords[k];
      ExpansionsTo(keywords[1..], k - 1, t, x);
    }
  }

  lemma TakePrefix<T>(a: seq<T>, b: seq<T>, n: nat)
    requires a <= b
    ensures Take(a, n) <= Take(b, n)
  {
  }

  /** `expand_query_keywords`: the query's whitespace tokens followed by the
      expansions of the financial terms they touch, de-duplicated in
      first-seen order and cut to ten. */
  function ExpandQueryKeywords(query: string): (r: seq<string>)
    ensures NoDup(r) && |r| <= 10
    ensures Take(Dedup(Tokens(query)), 10) <= r
  {
    var base := Tokens(query);
    DedupPrefix(base, Expansions(base));
    TakePrefix(Dedup(base), Dedup(base + Expansions(base)), 10);
    Take(Dedup(base + Expansions(base)), 10)
  }

  /** Every keyword is a word of the query or one of the first two
      expansions of a table term related to such a word. */
  lemma ExpandQueryKeywordsFrom(query: string, x: string)
    requires x in ExpandQueryKeywords(query)
    ensures var base := Tokens(query);
      x in base || (exists k, t ::
        0 <= k < |base| && 0 <= t < |FinancialTerms| &&
        Related(base[k], FinancialTerms[t].0) && x in Take(FinancialTerms[t].1, 2))
  {
    var base := Tokens(query);
    assert x in Dedup(base + Expansions(base));
    if x !in base {
      ExpansionsFrom(base, x);
    }
  }

  /** Every word of the query and every first-two expansion of a table
      term related to one of its words is a keyword, unless ten keywords
      were already found. */
  lemma ExpandQueryKeywordsTo(query: string, x: string)
    requires var base := Tokens(query);
      x in base || (exists k, t ::
        0 <= k < |base| && 0 <= t < |FinancialTerms| &&
        Related(base[k], FinancialTerms[t].0) && x in Take(FinancialTerms[t].1, 2))
    ensures x in ExpandQueryKeywords(query) || |ExpandQueryKeywords(query)| == 10
  {
    var base := Tokens(query);
    if x !in base {
      var k, t :| 0 <= k < |base| && 0 <= t < |FinancialTerms| &&
        Related(base[k], FinancialTerms[t].0) && x in Take(FinancialTerms[t].1, 2);
      ExpansionsTo(base, k, t, x);
    }
    var d := Dedup(base + Expansions(base));
    assert x in d;
    if x !in Take(d, 10) {
      assert |d| > 10;
    }
  }

  // ---------------------------------------------------------------- suggestions

  /** The seven suggestion templates of `get_query_suggestions`. */
  datatype SuggestionKind =
    | DefinitionQuery | PerformanceQuery | MethodQuery | ReasonQuery
    | DataQuery | ComparisonQuery | GeneralQuery

  predicate ContainsAny(q: string, words: seq<string>) {
    exists i :: 0 <= i < |words| && Contains(q, words[i])
  }

  /** The branch `get_query_suggestions` takes, as written: the definition
      test runs first and matches `什么`. */
  function SuggestionKindAsWritten(q: string): SuggestionKind {
    if ContainsAny(q, ["什么", "是什么", "定义", "概念"]) then DefinitionQuery
    else if ContainsAny(q, ["如何", "怎么"]) then
      (if ContainsAny(q, ["表现", "业绩", "情况", "状态", "趋势"]) then PerformanceQuery else MethodQuery)
    else if Contains(q, "为什么") then ReasonQuery
    else if ContainsAny(q, ["表现", "业绩", "数据", "财务", "营收", "利润"]) then DataQuery
    else if ContainsAny(q, ["比较", "对比", "差异", "区别"]) then ComparisonQuery
    else GeneralQuery
  }

  /** `为什么` ("why") contains `什么` ("what"). */
  lemma WhyContainsWhat(q: string)
    requires Contains(q, "为什么")
    ensures Contains(q, "什么")
  {
    assert "为" + "什么" == "为什么";
    ContainsSuffixOf(q, "为", "什么");
  }

  /** As written, the reason branch is unreachable and a why-question gets
      the definition suggestions. */
  lemma WhyQueryGetsDefinitionSuggestions(q: string)
    ensures SuggestionKindAsWritten(q) != ReasonQuery
    ensures Contains(q, "为什么") ==> SuggestionKindAsWritten(q) == DefinitionQuery
  {
    if Contains(q, "为什么") {
      WhyContainsWhat(q);
      assert Contains(q, ["什么", "是什么", "定义", "概念"][0]);
    }
  }

  /** The branch taken once why-questions are recognised before the
      definition test; every other query keeps its branch. */
  function SuggestionKindOf(q: string): (k: SuggestionKind)
    ensures Contains(q, "为什么") <==> k == ReasonQuery
    ensures !Contains(q, "为什么") ==> k == SuggestionKindAsWritten(q)
  {
    WhyQueryGetsDefinitionSuggestions(q);
    if Contains(q, "为什么") then ReasonQuery else SuggestionKindAsWritten(q)
  }

  function Suffixes(k: SuggestionKind): (r: seq<string>)
    ensures |r| == 4
  {
    match k
    case DefinitionQuery => ["详细说明", "具体含义", "相关概念", "背景介绍"]
    case PerformanceQuery => ["详细分析", "数据对比", "趋势分析", "影响因素"]
    case MethodQuery => ["具体方法", "操作步骤", "实施流程", "注意事项"]
    case ReasonQuery => ["具体原因", "影响因素", "背景分析", "相关数据"]
    case DataQuery => ["详细数据", "对比分析", "趋势变化", "行业对比"]
    case ComparisonQuery => ["详细对比", "差异分析", "优劣势", "选择建议"]
    case GeneralQuery => ["详细分析", "相关数据", "背景信息", "发展趋势"]
  }

  /** Four suggestions for a kind: the query, a space and each suffix of the kind. */
  function SuggestionsFor(query: string, k: SuggestionKind): (r: seq<string>)
    ensures |r| == 4
    ensures forall i :: 0 <= i < 4 ==>
      StartsWith(r[i], query + " ") && r[i][|query| + 1..] == Suffixes(k)[i]
  {
    var s := Suffixes(k);
    var r := seq(4, i requires 0 <= i < 4 => query + " " + s[i]);
    assert forall i :: 0 <= i < 4 ==> r[i] == (query + " ") + s[i];
    r
  }

  /** `get_query_suggestions`: four suggestions, each the query, a space and
      a suffix of the branch the query takes. */
  function GetQuerySuggestions(query: string): (r: seq<string>)
    ensures |r| == 4
    ensures forall i :: 0 <= i < 4 ==>
      StartsWith(r[i], query + " ") && r[i][|query| + 1..] == Suffixes(SuggestionKindAsWritten(query))[i]
  {
    SuggestionsFor(query, SuggestionKindAsWritten(query))
  }

  /** As written, a why-question is offered the definition suggestions. */
  lemma WhyQueryGetsDetailSuggestion(query: string)
    requires Contains(query, "为什么")
    ensures GetQuerySuggestions(query)[0] == query + " 详细说明"
  {
    WhyQueryGetsDefinitionSuggestions(query);
    var r := GetQuerySuggestions(query);
    assert r[0][|query| + 1..] == "详细说明";
    assert r[0] == (query + " ") + r[0][|query| + 1..];
  }

  /** `get_query_suggestions` with why-questions recognised first. */
  function GetQuerySuggestionsIntended(query: string): (r: seq<string>)
    ensures |r| == 4
    ensures forall i :: 0 <= i < 4 ==>
      StartsWith(r[i], query + " ") && r[i][|query| + 1..] == Suffixes(SuggestionKindOf(query))[i]
  {
    SuggestionsFor(query, SuggestionKindOf(query))
  }

  /** With why-questions recognised, a why-question gets the reason suggestions. */
  lemma WhyQueryGetsReasonSuggestions(query: string)
    requires Contains(query, "为什么")
    ensures GetQuerySuggestionsIntended(query)[0] == query + " 具体原因"
  {
    var r := GetQuerySuggestionsIntended(query);
    assert r[0][|query| + 1..] == "具体原因";
    assert r[0] == (query + " ") + r[0][|query| + 1..];
  }

  /** The correction changes nothing for a query without `为什么`. */
  lemma SuggestionsIntendedAgree(query: string)
    requires !Contains(query, "为什么")
    ensures GetQuerySuggestionsIntended(query) == GetQuerySuggestions(query)
  {
  }

  // ---------------------------------------------------------------- intent

  datatype IntentType = Definition | HowTo | Why | Comparison | Data | General {
    /** The `type` string of the result dictionary. */
    function Name(): string {
      match this
      case Definition => "definition"
      case HowTo => "how_to"
      case Why => "why"
      case Comparison => "comparison"
      case Data => "data"
      case General => "general"
    }
  }

  /** The type `analyze_query_intent` picks, as written: the definition test
      runs first and matches `什么`. */
  function IntentTypeAsWritten(q: string): IntentType {
    if ContainsAny(q, ["什么", "是什么", "定义", "概念"]) then Definition
    else if ContainsAny(q, ["如何", "怎么", "方法", "步骤"]) then HowTo
    else if ContainsAny(q, ["为什么", "原因", "影响"]) then Why
    else if ContainsAny(q, ["比较", "对比", "差异"]) then Comparison
    else if ContainsAny(q, ["数据", "数字", "统计"]) then Data
    else General
  }

  /** As written, a why-question is typed as a definition question. */
  lemma WhyQueryTypedAsDefinition(q: string)
    requires Contains(q, "为什么")
    ensures IntentTypeAsWritten(q) == Definition
  {
    WhyContainsWhat(q);
    assert Contains(q, ["什么", "是什么", "定义", "概念"][0]);
  }

  /** The type once why-questions are recognised before the definition test. */
  function IntentTypeOf(q: string): (t: IntentType)
    ensures Contains(q, "为什么") ==> t == Why
    ensures !Contains(q, "为什么") ==> t == IntentTypeAsWritten(q)
  {
    if Contains(q, "为什么") then Why else IntentTypeAsWritten(q)
  }

  /** The result dictionary of `analyze_query_intent`. */
  datatype QueryIntent = QueryIntent(kind: IntentType, confidence: real, keywords: seq<string>,
                                     entities: seq<string>, suggestions: seq<string>)

  /** `analyze_query_intent`: a recognised type has confidence 0.8, the
      general type 0.5; entities are never extracted. */
  function AnalyzeQueryIntent(query: string): (r: QueryIntent)
    ensures r.kind == IntentTypeAsWritten(query)
    ensures r.confidence == (if r.kind == General then 0.5 else 0.8)
    ensures r.entities == []
    ensures r.keywords == ExpandQueryKeywords(query) && r.suggestions == GetQuerySuggestions(query)
  {
    var t := IntentTypeAsWritten(query);
    QueryIntent(t, if t == General then 0.5 else 0.8, ExpandQueryKeywords(query), [], GetQuerySuggestions(query))
  }

  /** `analyze_query_intent` with why-questions recognised first, in the
      type and in the suggestions. */
  function AnalyzeQueryIntentIntended(query: string): (r: QueryIntent)
    ensures r.kind == IntentTypeOf(query)
    ensures r.confidence == (if r.kind == General then 0.5 else 0.8)
    ensures r.entities == []
    ensures r.keywords == ExpandQueryKeywords(query) && r.suggestions == GetQuerySuggestionsIntended(query)
  {
    var t := IntentTypeOf(query);
    QueryIntent(t, if t == General then 0.5 else 0.8, ExpandQueryKeywords(query), [], GetQuerySuggestionsIntended(query))
  }

  /** The two analyses differ exactly on queries with `为什么`: there the
      code says `definition` with confidence 0.8, the correction `why`. */
  lemma IntentIntendedAgree(query: string)
    ensures !Contains(query, "为什么") ==> AnalyzeQueryIntentIntended(query) == AnalyzeQueryIntent(query)
    ensures Contains(query, "为什么") ==>
      AnalyzeQueryIntent(query).kind == Definition && AnalyzeQueryIntentIntended(query).kind == Why
  {
    if Contains(query, "为什么") {
      WhyQueryTypedAsDefinition(query);
    } else {
      SuggestionsIntendedAgree(query);
    }
  }
}

=== FILE: rag_system.dfy ===
/** `FinanceRAGSystem` (src/core/rag_finance_qa.py): the connection retry
    loop, the two ingestion paths with their near-duplicate filters, the
    similarity search and the answer retry loop. The model server, the
    embedding model and the vector store are parameters: a probe per
    connection attempt, the top-1 similarity of a text against the store, a
    search function and a chat stream per answer attempt. */
module RagSystem {
  import opened Wrappers
  import opened Text
  import Chunker

  // ---------------------------------------------------------------- connecting

  const ConnectAttempts: nat := 5
  const ConnectDelay: nat := 3

  /** The connection loop of `__init__`: `probe(i)` is the outcome of the
      `i`-th `list()` call (the number of models, or the error). It stops at
      the first success, sleeps between failed attempts but not after the
      last, and re-raises the last error after five failures. */
  method Connect(probe: nat -> Result<nat, string>) returns (r: Result<nat, string>, attempts: nat, slept: nat)
    ensures 1 <= attempts <= ConnectAttempts
    ensures r == probe(attempts - 1)
    ensures forall j :: 0 <= j < attempts - 1 ==> probe(j).Failure?
    ensures r.Failure? ==> attempts == ConnectAttempts
    ensures slept == ConnectDelay * (attempts - 1)
  {
    var attempt: nat := 0;
    slept := 0;
    while true
      invariant attempt < ConnectAttempts
      invariant forall j :: 0 <= j < attempt ==> probe(j).Failure?
      invariant slept == ConnectDelay * attempt
      decreases ConnectAttempts - attempt
    {
      r := probe(attempt);
      if r.Success? || attempt == ConnectAttempts - 1 {
        attempts := attempt + 1;
        return;
      }
      slept := slept + ConnectDelay;
      attempt := attempt + 1;
    }
  }

  // ---------------------------------------------------------------- ingestion

  /** The threshold both de-duplication filters compare against. */
  const SimilarityThreshold: real := 0.8

  /** The parallel lists handed to `insert_data`. */
  datatype Insert = Insert(texts: seq<string>, sources: seq<string>, timestamps: seq<string>)

  /** `os.path.basename(path)`: the text after the last `/`. */
  function Basename(path: string): (r: string)
    ensures '/' !in r && |r| <= |path| && r == path[|path| - |r|..]
    ensures |r| < |path| ==> path[|path| - |r| - 1] == '/'
  {
    if '/' in path then path[LastIndex(path, '/') + 1..] else path
  }

  /** `add_document` skips a block only when the store has a top-1 hit more
      than 0.8 similar to it. */
  predicate DocumentSkips(similarity: Option<real>) {
    similarity.Some? && similarity.value > SimilarityThreshold
  }

  /** `add_knowledge` keeps a text only when the store has no hit, or its
      top-1 hit is less than 0.8 similar. */
  predicate KnowledgeKeeps(similarity: Option<real>) {
    similarity.None? || similarity.value < SimilarityThreshold
  }

  /** A hit exactly at the threshold is kept by `add_document` and skipped by
      `add_knowledge`. */
  lemma ThresholdsDiffer()
    ensures !DocumentSkips(Some(0.8)) && !KnowledgeKeeps(Some(0.8))
  {
  }

  /** The blocks `add_document` stores: the extracted texts joined with blank
      lines and re-chunked. */
  function DocumentBlocks(extracted: seq<string>): seq<string> {
    Chunker.SplitText(Join(extracted, "\n\n"), Chunker.DefaultMaxLength)
  }

  /** The blocks of a document that are new: non-blank and not too similar
      to their top-1 hit. */
  function NewBlocks(blocks: seq<string>, topSimilarity: string -> Option<real>): seq<string> {
    FilterMap(blocks, (b: string) => if Strip(b) != [] && !DocumentSkips(topSimilarity(b)) then Some(b) else None)
  }

  lemma NewBlocksMembers(blocks: seq<string>, topSimilarity: string -> Option<real>, x: string)
    ensures x in NewBlocks(blocks, topSimilarity) <==>
      x in blocks && Strip(x) != [] && !DocumentSkips(topSimilarity(x))
  {
    var f := (b: string) => if Strip(b) != [] && !DocumentSkips(topSimilarity(b)) then Some(b) else None;
    FilterMapMembers(blocks, f, x);
    if x in blocks && Strip(x) != [] && !DocumentSkips(topSimilarity(x)) {
      var i :| 0 <= i < |blocks| && blocks[i] == x;
      assert f(blocks[i]) == Some(x);
    }
  }

  /** `add_document`: `extracted` is what `process_file` returned or raised,
      `topSimilarity` the top-1 similarity of a block against the store
      before this call, `clock(i)` the time stamp read for the `i`-th new
      block, and `embedded` whether the embedding call succeeded. Nothing is
      inserted for a missing file, an extraction error, an empty extraction,
      no new block, or an embedding failure. */
  function AddDocument(path: string, fileExists: bool, extracted: Result<seq<string>, string>,
                       topSimilarity: string -> Option<real>, clock: nat -> string, embedded: bool): (r: Option<Insert>)
    ensures r.Some? <==>
      fileExists && extracted.Success? && extracted.value != [] && embedded &&
      NewBlocks(DocumentBlocks(extracted.value), topSimilarity) != []
    ensures r.Some? ==>
      var n := |r.value.texts|;
      |r.value.sources| == n && |r.value.timestamps| == n &&
      r.value.texts == NewBlocks(DocumentBlocks(extracted.value), topSimilarity) &&
      forall i :: 0 <= i < n ==> r.value.sources[i] == Basename(path) && r.value.timestamps[i] == clock(i)
  {
    if !fileExists || extracted.Failure? || extracted.value == [] then None
    else
      var kept := NewBlocks(DocumentBlocks(extracted.value), topSimilarity);
      if kept == [] || !embedded then None
      else Some(Insert(kept, seq(|kept|, _ => Basename(path)), seq(|kept|, i requires 0 <= i => clock(i))))
  }

  /** The texts `add_knowledge` keeps. */
  function NewTexts(texts: seq<string>, topSimilarity: string -> Option<real>): seq<string> {
    FilterMap(texts, (t: string) => if KnowledgeKeeps(topSimilarity(t)) then Some(t) else None)
  }

  lemma NewTextsMembers(texts: seq<string>, topSimilarity: string -> Option<real>, x: string)
    ensures x in NewTexts(texts, topSimilarity) <==> x in texts && KnowledgeKeeps(topSimilarity(x))
  {
    var f := (t: string) => if KnowledgeKeeps(topSimilarity(t)) then Some(t) else None;
    FilterMapMembers(texts, f, x);
    if x in texts && KnowledgeKeeps(topSimilarity(x)) {
      var i :| 0 <= i < |texts| && texts[i] == x;
      assert f(texts[i]) == Some(x);
    }
  }

  /** When every text is new, every text is inserted, duplicates and order
      included. */
  lemma {:induction false} NewTextsAllKept(texts: seq<string>, topSimilarity: string -> Option<real>)
    requires forall i :: 0 <= i < |texts| ==> KnowledgeKeeps(topSimilarity(texts[i]))
    ensures NewTexts(texts, topSimilarity) == texts
  {
    if texts != [] {
      NewTextsAllKept(texts[1..], topSimilarity);
    }
  }

  /** How `add_knowledge` ends: the rows it inserted, an early return when
      no text is new, or the error raised by the embedding or insert call,
      which it does not catch. */
  datatype KnowledgeOutcome = Inserted(insert: Insert) | NothingNew | Raised(error: string)

  /** `add_knowledge`: the kept texts with one source and one time stamp for
      the whole call; it returns early when no text is kept. `storeError` is
      the error the embedding of the kept texts or their insertion raises,
      if any; it reaches the caller. */
  function AddKnowledge(texts: seq<string>, source: string, topSimilarity: string -> Option<real>,
                        timestamp: string, storeError: Option<string>): (r: KnowledgeOutcome)
    ensures r.NothingNew? <==> NewTexts(texts, topSimilarity) == []
    ensures r.Raised? <==> NewTexts(texts, topSimilarity) != [] && storeError.Some?
    ensures r.Raised? ==> r.error == storeError.value
    ensures r.Inserted? ==>
      var n := |r.insert.texts|;
      r.insert.texts == NewTexts(texts, topSimilarity) &&
      |r.insert.sources| == n && |r.insert.timestamps| == n &&
      forall i :: 0 <= i < n ==> r.insert.sources[i] == source && r.insert.timestamps[i] == timestamp
  {
    var kept := NewTexts(texts, topSimilarity);
    if kept == [] then NothingNew
    else if storeError.Some? then Raised(storeError.value)
    else Inserted(Insert(kept, seq(|kept|, _ => source), seq(|kept|, _ => timestamp)))
  }

  /** An empty store: no text has a hit. */
  function NoHit(t: string): Option<real> {
    None
  }

  /** De-duplication only looks at the store as it was before the call: the
      same text twice in one batch against an empty store is inserted twice. */
  lemma DuplicatesWithinBatchKept(t: string, source: string, timestamp: string)
    ensures AddKnowledge([t, t], source, NoHit, timestamp, None) ==
      Inserted(Insert([t, t], [source, source], [timestamp, timestamp]))
  {
    NewTextsAllKept([t, t], NoHit);
    var r := AddKnowledge([t, t], source, NoHit, timestamp, None);
    assert r.insert.sources == [source, source];
    assert r.insert.timestamps == [timestamp, timestamp];
  }

  // ---------------------------------------------------------------- search and answer

  /** A search hit as the store returns it. */
  datatype Hit = Hit(text: string, source: string, timestamp: string, distance: real)

  /** `search_similar`: the store's hits, or none when embedding or search raised. */
  function SearchSimilar(query: string, search: string -> Result<seq<Hit>, string>): (r: seq<Hit>)
    ensures search(query).Failure? ==> r == []
    ensures search(query).Success? ==> r == search(query).value
  {
    match search(query)
    case Success(hits) => hits
    case Failure(_) => []
  }

  function HitTexts(hits: seq<Hit>): (r: seq<string>)
    ensures |r| == |hits| && forall i :: 0 <= i < |r| ==> r[i] == hits[i].text
  {
    if hits == [] then [] else [hits[0].text] + HitTexts(hits[1..])
  }

  /** The prompt of `answer_question`: the hit texts, one per line, and the question. */
  function AnswerPrompt(question: string, hits: seq<Hit>): string {
    "请结合以下检索到的内容和你自己的知识，回答用户问题：\n\n上下文：\n" + Join(HitTexts(hits), "\n")
      + "\n\n问题：" + question + "\n\n答案："
  }

  /** One element of the chat stream: the `message.content` it carries, if any. */
  datatype StreamChunk = StreamChunk(content: Option<string>)

  /** The text a chunk puts on screen: its content unless it starts with `<think>`. */
  function Shown(c: StreamChunk): (r: Option<string>)
    ensures r.Some? ==> !StartsWith(r.value, "<think>")
  {
    if c.content.Some? && !StartsWith(c.content.value, "<think>") then c.content else None
  }

  /** The printed text of a whole stream, chunk by chunk. */
  function Printed(stream: seq<StreamChunk>): (r: seq<string>)
    ensures forall i :: 0 <= i < |r| ==> !StartsWith(r[i], "<think>")
    ensures |r| <= |stream|
  {
    var r := FilterMap(stream, Shown);
    FilterMapBound(stream, Shown);
    forall i | 0 <= i < |r| ensures !StartsWith(r[i], "<think>") {
      FilterMapMembers(stream, Shown, r[i]);
    }
    r
  }

  /** The stream is printed chunk by chunk: one more chunk appends its
      content at the end, unless it has none or it starts with `<think>`. */
  lemma PrintedInOrder(stream: seq<StreamChunk>, c: StreamChunk)
    ensures Printed(stream + [c]) ==
      Printed(stream) + (if c.content.Some? && !StartsWith(c.content.value, "<think>") then [c.content.value] else [])
  {
    FilterMapAppend(stream, [c], Shown);
    assert [c][1..] == [];
  }

  /** A text is printed exactly when some chunk carries it as content and
      it does not start with `<think>`. */
  lemma PrintedMembers(stream: seq<StreamChunk>, x: string)
    ensures x in Printed(stream) <==>
      !StartsWith(x, "<think>") && exists i :: 0 <= i < |stream| && stream[i].content == Some(x)
  {
    FilterMapMembers(stream, Shown, x);
  }

  const AnswerAttempts: nat := 3
  const AnswerDelay: nat := 2
  const Answered := "回答完成"
  const GaveUp := "多次尝试后仍未能生成答案。"

  /** `answer_question`: `chat(i, prompt)` is the stream of the `i`-th
      attempt, or the error raised while opening or reading it. It stops at
      the first attempt whose stream is read to the end, sleeps after every
      failed attempt, and gives up after three. */
  method AnswerQuestion(question: string, search: string -> Result<seq<Hit>, string>,
                        chat: (nat, string) -> Result<seq<StreamChunk>, string>)
    returns (answer: string, printed: seq<string>, attempts: nat, slept: nat)
    ensures 1 <= attempts <= AnswerAttempts
    ensures var prompt := AnswerPrompt(question, SearchSimilar(question, search));
      (forall j :: 0 <= j < attempts - 1 ==> chat(j, prompt).Failure?) &&
      (answer == Answered <==> chat(attempts - 1, prompt).Success?) &&
      (answer == Answered ==> printed == Printed(chat(attempts - 1, prompt).value))
    ensures answer == Answered || answer == GaveUp
    ensures answer == GaveUp ==> attempts == AnswerAttempts && printed == []
    ensures slept == AnswerDelay * (if answer == Answered then attempts - 1 else attempts)
  {
    var attempt: nat := 0;
    slept := 0;
    printed := [];
    var prompt := AnswerPrompt(question, SearchSimilar(question, search));
    while attempt < AnswerAttempts
      invariant attempt <= AnswerAttempts
      invariant forall j :: 0 <= j < attempt ==> chat(j, prompt).Failure?
      invariant slept == AnswerDelay * attempt
    {
      var stream := chat(attempt, AnswerPrompt(question, SearchSimilar(question, search)));
      if stream.Success? {
        answer, printed, attempts := Answered, Printed(stream.value), attempt + 1;
        return;
      }
      slept := slept + AnswerDelay;
      attempt := attempt + 1;
    }
    answer, attempts := GaveUp, AnswerAttempts;
  }
}

=== FILE: reranker.dfy ===
/** `LLMReranker` (src/utils/reranker.py): batching of retrieved documents,
    brace-delimited JSON extraction with fixed fallbacks, padding of short
    ranking lists, linear score fusion, a stable descending sort, and the
    "return the input unchanged" escape. The chat backend and `json.loads` are
    oracles; the thread pool is an order-preserving sequential map. */
module Reranker {
  import opened Wrappers
  import opened Text
  import opened Llm
  import StableSort

  const DefaultScore: real := 0.5
  const UnparsableReason: string := "无法解析LLM响应"
  const MalformedReason: string := "LLM响应格式错误"
  const FailurePrefix: string := "重排序失败: "
  const IncompleteReason: string := "默认评分（LLM响应不完整）"

  /** A retrieved document as the vector store returns it; `distance` is
      absent when the dictionary has no such key. */
  datatype Doc = Doc(text: string, source: string, timestamp: string, distance: Option<real>)

  /** A copy of a document with the three fields the reranker adds. */
  datatype ScoredDoc = ScoredDoc(doc: Doc, relevance: real, reasoning: string, combined: real)

  /** One judgement object. A field is `None` when its key is absent; for the
      score also when its value is not a number (the fusion then raises). */
  datatype Ranking = Ranking(relevance: Option<real>, reasoning: Option<string>)

  /** A decoded JSON object, read as one judgement on the single-document path
      and through its `block_rankings` list on the batch path (an absent key
      reads as the empty list). */
  datatype JsonObject = JsonObject(top: Ranking, blockRankings: seq<Ranking>)

  /** The reranked documents, or the input returned as it was after an
      exception escaped the scoring. */
  datatype RerankOutcome = Reranked(hits: seq<ScoredDoc>) | Unchanged(docs: seq<Doc>)

  function Fallback(reason: string): Ranking {
    Ranking(Some(DefaultScore), Some(reason))
  }

  // ---------------------------------------------------------------- JSON extraction

  /** `content[content.find('{'):content.rfind('}') + 1]`, or `None` when one
      of the braces is missing. A last `}` before the first `{` gives the empty
      slice, as in Python. */
  function JsonSlice(content: string): (r: Option<string>)
    ensures r.None? <==> '{' !in content || '}' !in content
    ensures r.Some? && r.value != [] ==> r.value[0] == '{' && r.value[|r.value| - 1] == '}'
  {
    if '{' in content && '}' in content then
      var start := FirstIndex(content, '{');
      var end := LastIndex(content, '}') + 1;
      Some(if start <= end then content[start..end] else "")
    else None
  }

  /** A non-empty slice runs from the first `{` to the last `}`: no `{` comes
      before it and no `}` after it. */
  lemma JsonSliceSpan(content: string)
    requires JsonSlice(content).Some? && JsonSlice(content).value != []
    ensures var v := JsonSlice(content).value;
      exists i :: 0 <= i && i + |v| <= |content| && content[i..i + |v|] == v
        && '{' !in content[..i] && '}' !in content[i + |v|..]
  {
    var v := JsonSlice(content).value;
    var i := FirstIndex(content, '{');
    var e := LastIndex(content, '}') + 1;
    assert content[i..i + |v|] == v;
    assert content[i + |v|..] == content[e..];
  }

  /** The decoded object, if the reply has braces and the slice decodes. The
      empty slice never decodes: `json.loads("")` always raises. */
  function Decoded(reply: ChatReply, decode: string -> Option<JsonObject>): Option<JsonObject> {
    match reply
    case ChatError(_) => None
    case Reply(content) =>
      match JsonSlice(content)
      case None => None
      case Some(js) => if js == [] then None else decode(js)
  }

  /** A brace slice that does not decode: the empty one, or one `decode` refuses. */
  predicate Malformed(js: string, decode: string -> Option<JsonObject>) {
    js == [] || decode(js).None?
  }

  /** `get_rank_for_single_block` after the chat call. */
  function RankSingle(reply: ChatReply, decode: string -> Option<JsonObject>): (r: Ranking)
    ensures Decoded(reply, decode).Some? ==> r == Decoded(reply, decode).value.top
    ensures Decoded(reply, decode).None? ==> r.relevance == Some(DefaultScore) && r.reasoning.Some?
    ensures reply.ChatError? ==> r == Fallback(FailurePrefix + reply.message)
    ensures reply.Reply? && JsonSlice(reply.content).None? ==> r == Fallback(UnparsableReason)
    ensures reply.Reply? && JsonSlice(reply.content).Some? && Malformed(JsonSlice(reply.content).value, decode) ==>
      r == Fallback(MalformedReason)
  {
    match reply
    case ChatError(msg) => Fallback(FailurePrefix + msg)
    case Reply(content) =>
      match JsonSlice(content)
      case None => Fallback(UnparsableReason)
      case Some(js) =>
        if js == [] then Fallback(MalformedReason) else
        match decode(js)
        case None => Fallback(MalformedReason)
        case Some(obj) => obj.top
  }

  /** `get_rank_for_multiple_blocks` after the chat call, for a batch of `n` documents. */
  function RankMultiple(reply: ChatReply, decode: string -> Option<JsonObject>, n: nat): (r: seq<Ranking>)
    ensures Decoded(reply, decode).Some? ==> r == Decoded(reply, decode).value.blockRankings
    ensures Decoded(reply, decode).None? ==>
      |r| == n && forall i :: 0 <= i < n ==> r[i].relevance == Some(DefaultScore) && r[i].reasoning.Some?
    ensures reply.ChatError? ==> forall i :: 0 <= i < n ==> r[i] == Fallback(FailurePrefix + reply.message)
    ensures reply.Reply? && JsonSlice(reply.content).None? ==>
      forall i :: 0 <= i < n ==> r[i] == Fallback(UnparsableReason)
    ensures reply.Reply? && JsonSlice(reply.content).Some? && Malformed(JsonSlice(reply.content).value, decode) ==>
      forall i :: 0 <= i < n ==> r[i] == Fallback(MalformedReason)
  {
    match reply
    case ChatError(msg) => seq(n, _ => Fallback(FailurePrefix + msg))
    case Reply(content) =>
      match JsonSlice(content)
      case None => seq(n, _ => Fallback(UnparsableReason))
      case Some(js) =>
        if js == [] then seq(n, _ => Fallback(MalformedReason)) else
        match decode(js)
        case None => seq(n, _ => Fallback(MalformedReason))
        case Some(obj) => obj.blockRankings
  }

  /** A non-JSON reply scores every document of the batch 0.5 with the
      "cannot parse" reasoning, and raises nothing. */
  lemma NonJsonReplyDefaultsWholeBatch(content: string, decode: string -> Option<JsonObject>, n: nat)
    requires '{' !in content
    ensures RankMultiple(Reply(content), decode, n) == seq(n, _ => Fallback(UnparsableReason))
  {
  }

  /** A reply whose last `}` comes before its first `{` slices to the empty
      string, which no decoder accepts: the batch gets the "malformed" default. */
  lemma ReversedBracesMalformed(decode: string -> Option<JsonObject>, n: nat)
    ensures RankMultiple(Reply("}{"), decode, n) == seq(n, _ => Fallback(MalformedReason))
    ensures RankSingle(Reply("}{"), decode) == Fallback(MalformedReason)
  {
  }

  // ---------------------------------------------------------------- fusion

  /** Python's `round(x, 4)`, taken here as round-half-up on exact reals. */
  function Round4(x: real): (r: real)
    ensures x - 1.0 / 20000.0 < r <= x + 1.0 / 20000.0
  {
    ((x * 10000.0 + 0.5).Floor as real) / 10000.0
  }

  /** `round(llm_weight * relevance + (1 - llm_weight) * (1 - distance), 4)`,
      with a missing distance read as 0. */
  function Combined(w: real, relevance: real, doc: Doc): real {
    Round4(w * relevance + (1.0 - w) * (1.0 - doc.distance.GetOr(0.0)))
  }

  /** With weight, relevance and distance all in [0, 1] the fused score stays
      in [0, 1]; the code itself guarantees none of the three. */
  lemma CombinedInUnitRange(w: real, relevance: real, doc: Doc)
    requires 0.0 <= w <= 1.0 && 0.0 <= relevance <= 1.0
    requires doc.distance.Some? ==> 0.0 <= doc.distance.value <= 1.0
    ensures 0.0 <= Combined(w, relevance, doc) <= 1.0
  {
    var d := doc.distance.GetOr(0.0);
    ConvexWithin(w, relevance, 1.0 - d);
    Round4InUnitRange(w * relevance + (1.0 - w) * (1.0 - d));
  }

  /** A weighted average of two numbers in [0, 1] is in [0, 1]. */
  lemma ConvexWithin(w: real, a: real, b: real)
    requires 0.0 <= w <= 1.0 && 0.0 <= a <= 1.0 && 0.0 <= b <= 1.0
    ensures 0.0 <= w * a + (1.0 - w) * b <= 1.0
  {
    ScaleWithin(w, a);
    ScaleWithin(1.0 - w, b);
    var x, y := w * a, (1.0 - w) * b;
    assert x <= w && y <= 1.0 - w;
  }

  lemma ScaleWithin(a: real, b: real)
    requires 0.0 <= a && 0.0 <= b <= 1.0
    ensures 0.0 <= a * b <= a
  {
    assert a * b <= a * 1.0;
  }

  lemma Round4InUnitRange(x: real)
    requires 0.0 <= x <= 1.0
    ensures 0.0 <= Round4(x) <= 1.0
  {
    var f := (x * 10000.0 + 0.5).Floor;
    assert f as real <= x * 10000.0 + 0.5 < f as real + 1.0;
    assert 0 <= f <= 10000;
  }

  /** No clamping: an L2 distance above 1 pushes the fused score below 0. */
  lemma CombinedNotClamped()
    ensures Combined(0.7, 0.5, Doc("t", "s", "ts", Some(3.0))) < 0.0
  {
    var x := 0.7 * 0.5 + (1.0 - 0.7) * (1.0 - 3.0);
    assert x == -0.25;
  }

  /** Adds the three score fields to `doc`, or `None` when the Python code
      raises: a missing or non-numeric score, and on the single-document path
      (`strictReasoning`) a missing reasoning. The batch path reads a missing
      reasoning as "". */
  function ScoreDoc(doc: Doc, rank: Ranking, w: real, strictReasoning: bool): (r: Option<ScoredDoc>)
    ensures r.Some? <==> rank.relevance.Some? && (strictReasoning ==> rank.reasoning.Some?)
    ensures r.Some? ==>
      r.value.doc == doc && r.value.relevance == rank.relevance.value
      && r.value.reasoning == rank.reasoning.GetOr("") && Fused(r.value, w)
  {
    if rank.relevance.None? || (strictReasoning && rank.reasoning.None?) then None
    else Some(ScoredDoc(doc, rank.relevance.value, rank.reasoning.GetOr(""), Combined(w, rank.relevance.value, doc)))
  }

  /** A scored document whose combined score is the fusion of its own
      relevance and distance. */
  predicate Fused(h: ScoredDoc, w: real) {
    h.combined == Combined(w, h.relevance, h.doc)
  }

  // ---------------------------------------------------------------- batching

  /** `[docs[i:i + k] for i in range(0, len(docs), k)]` for a positive `k`. */
  function Batches<T>(docs: seq<T>, k: nat): (r: seq<seq<T>>)
    requires k > 0
    ensures forall i :: 0 <= i < |r| ==> 0 < |r[i]| <= k
    ensures forall i :: 0 <= i < |r| - 1 ==> |r[i]| == k
    decreases |docs|
  {
    if docs == [] then []
    else if |docs| <= k then [docs]
    else [docs[..k]] + Batches(docs[k..], k)
  }

  function Flatten<T>(ss: seq<seq<T>>): seq<T> {
    if ss == [] then [] else ss[0] + Flatten(ss[1..])
  }

  /** The batches are consecutive slices: concatenated, they are the input. */
  lemma {:induction false} BatchesCover<T>(docs: seq<T>, k: nat)
    requires k > 0
    ensures Flatten(Batches(docs, k)) == docs
    decreases |docs|
  {
    if docs != [] && |docs| > k {
      BatchesCover(docs[k..], k);
      assert Batches(docs, k)[1..] == Batches(docs[k..], k);
      assert docs == docs[..k] + docs[k..];
    } else if docs != [] {
      assert Flatten([docs]) == docs + Flatten([docs][1..]);
    }
  }

  /** A short ranking list is padded with the "incomplete response" default up
      to the batch size; a long one is left as it is. */
  function Pad(rankings: seq<Ranking>, n: nat): (r: seq<Ranking>)
    ensures |r| >= n && |r| >= |rankings| && r[..|rankings|] == rankings
    ensures |rankings| < n ==> |r| == n && forall i :: |rankings| <= i < n ==> r[i] == Fallback(IncompleteReason)
    ensures |rankings| >= n ==> r == rankings
  {
    if |rankings| < n then rankings + seq(n - |rankings|, _ => Fallback(IncompleteReason)) else rankings
  }

  /** `zip(batch, rankings)` scored on the batch path; `None` when any pair raises. */
  function ScoreZip(batch: seq<Doc>, rankings: seq<Ranking>, w: real): (r: Option<seq<ScoredDoc>>)
    requires |rankings| >= |batch|
    ensures r.Some? <==> forall i :: 0 <= i < |batch| ==> rankings[i].relevance.Some?
    ensures r.Some? ==> |r.value| == |batch| && forall i :: 0 <= i < |batch| ==>
      ScoreDoc(batch[i], rankings[i], w, false).Some? && r.value[i] == ScoreDoc(batch[i], rankings[i], w, false).value
    decreases |batch|
  {
    if batch == [] then Some([])
    else
      match ScoreDoc(batch[0], rankings[0], w, false)
      case None => None
      case Some(d) =>
        match ScoreZip(batch[1..], rankings[1..], w)
        case None => None
        case Some(rest) =>
          assert forall i :: 1 <= i < |batch| ==> batch[1..][i - 1] == batch[i] && rankings[1..][i - 1] == rankings[i];
          Some([d] + rest)
  }

  /** `process_batch`: one chat call per batch, rankings padded, then zipped. */
  function ScoreBatch(query: string, batch: seq<Doc>, w: real,
                      chat: (string, seq<Doc>) -> ChatReply,
                      decode: string -> Option<JsonObject>): (r: Option<seq<ScoredDoc>>)
    ensures var rs := Pad(RankMultiple(chat(query, batch), decode, |batch|), |batch|);
      r.None? <==> exists i :: 0 <= i < |batch| && rs[i].relevance.None?
    ensures var rs := Pad(RankMultiple(chat(query, batch), decode, |batch|), |batch|);
      r.Some? ==> |r.value| == |batch| && forall i :: 0 <= i < |batch| ==>
        r.value[i].doc == batch[i] && Fused(r.value[i], w)
        && ScoreDoc(batch[i], rs[i], w, false) == Some(r.value[i])
  {
    ScoreZip(batch, Pad(RankMultiple(chat(query, batch), decode, |batch|), |batch|), w)
  }

  /** A well-formed reply with too few judgements still scores every document:
      the missing ones get the default 0.5. */
  lemma ShortRankingsArePadded(query: string, batch: seq<Doc>, w: real,
                               chat: (string, seq<Doc>) -> ChatReply,
                               decode: string -> Option<JsonObject>)
    requires var rs := RankMultiple(chat(query, batch), decode, |batch|);
      |rs| < |batch| && forall i :: 0 <= i < |rs| ==> rs[i].relevance.Some?
    ensures ScoreBatch(query, batch, w, chat, decode).Some?
    ensures var rs := RankMultiple(chat(query, batch), decode, |batch|);
      forall i :: |rs| <= i < |batch| ==>
        ScoreBatch(query, batch, w, chat, decode).value[i].relevance == DefaultScore
  {
    var rs := RankMultiple(chat(query, batch), decode, |batch|);
    var padded := Pad(rs, |batch|);
    forall i | 0 <= i < |batch| ensures padded[i].relevance.Some? {
      if i < |rs| {
        assert padded[..|rs|][i] == rs[i];
      }
    }
  }

  /** Every batch scored in order and flattened; `None` as soon as one raises. */
  function ScoreBatches(query: string, batches: seq<seq<Doc>>, w: real,
                        chat: (string, seq<Doc>) -> ChatReply,
                        decode: string -> Option<JsonObject>): (r: Option<seq<ScoredDoc>>)
    ensures r.Some? ==>
      |r.value| == |Flatten(batches)|
      && forall i :: 0 <= i < |r.value| ==> r.value[i].doc == Flatten(batches)[i] && Fused(r.value[i], w)
    decreases |batches|
  {
    if batches == [] then Some([])
    else
      match ScoreBatch(query, batches[0], w, chat, decode)
      case None => None
      case Some(first) =>
        match ScoreBatches(query, batches[1..], w, chat, decode)
        case None => None
        case Some(rest) =>
          AppendScored(first, rest, batches[0], Flatten(batches[1..]), w);
          Some(first + rest)
  }

  /** Scoring one more batch appends its scored documents to the ones before,
      and fails when either part fails. */
  lemma {:induction false} ScoreBatchesAppend(query: string, batches: seq<seq<Doc>>, last: seq<Doc>, w: real,
                                              chat: (string, seq<Doc>) -> ChatReply,
                                              decode: string -> Option<JsonObject>)
    ensures var before := ScoreBatches(query, batches, w, chat, decode);
      var one := ScoreBatch(query, last, w, chat, decode);
      ScoreBatches(query, batches + [last], w, chat, decode) ==
        if before.Some? && one.Some? then Some(before.value + one.value) else None
    decreases |batches|
  {
    if batches == [] {
      assert ([] + [last])[1..] == [] && ([] + [last])[0] == last;
      var one := ScoreBatch(query, last, w, chat, decode);
      if one.Some? {
        assert one.value + [] == [] + one.value;
      }
    } else {
      ScoreBatchesAppend(query, batches[1..], last, w, chat, decode);
      assert (batches + [last])[0] == batches[0];
      assert (batches + [last])[1..] == batches[1..] + [last];
      var first := ScoreBatch(query, batches[0], w, chat, decode);
      var rest := ScoreBatches(query, batches[1..], w, chat, decode);
      var one := ScoreBatch(query, last, w, chat, decode);
      if first.Some? && rest.Some? && one.Some? {
        ConcatAssoc3(first.value, rest.value, one.value);
      }
    }
  }

  /** The batch path raises exactly when the scoring of some batch raises. */
  lemma {:induction false} ScoreBatchesFails(query: string, batches: seq<seq<Doc>>, w: real,
                                             chat: (string, seq<Doc>) -> ChatReply,
                                             decode: string -> Option<JsonObject>)
    ensures ScoreBatches(query, batches, w, chat, decode).None? <==>
      exists b :: 0 <= b < |batches| && ScoreBatch(query, batches[b], w, chat, decode).None?
    decreases |batches|
  {
    if batches != [] {
      ScoreBatchesFails(query, batches[1..], w, chat, decode);
      assert forall b :: 1 <= b < |batches| ==> batches[1..][b - 1] == batches[b];
    }
  }

  lemma AppendScored(first: seq<ScoredDoc>, rest: seq<ScoredDoc>, a: seq<Doc>, b: seq<Doc>, w: real)
    requires |first| == |a| && forall i :: 0 <= i < |a| ==> first[i].doc == a[i] && Fused(first[i], w)
    requires |rest| == |b| && forall i :: 0 <= i < |b| ==> rest[i].doc == b[i] && Fused(rest[i], w)
    ensures |first + rest| == |a + b|
    ensures forall i :: 0 <= i < |a + b| ==> (first + rest)[i].doc == (a + b)[i] && Fused((first + rest)[i], w)
  {
    forall i | 0 <= i < |a + b| ensures (first + rest)[i].doc == (a + b)[i] && Fused((first + rest)[i], w) {
      if i >= |a| {
        assert (first + rest)[i] == rest[i - |a|] && (a + b)[i] == b[i - |a|];
      }
    }
  }

  /** `process_single_doc` mapped over all documents; `None` as soon as one raises. */
  function ScoreSingles(query: string, docs: seq<Doc>, w: real,
                        chat: (string, Doc) -> ChatReply,
                        decode: string -> Option<JsonObject>): (r: Option<seq<ScoredDoc>>)
    ensures r.None? <==> exists i :: 0 <= i < |docs| && ScoreDoc(docs[i], RankSingle(chat(query, docs[i]), decode), w, true).None?
    ensures r.Some? ==> |r.value| == |docs| && forall i :: 0 <= i < |docs| ==>
      ScoreDoc(docs[i], RankSingle(chat(query, docs[i]), decode), w, true).Some? &&
      r.value[i] == ScoreDoc(docs[i], RankSingle(chat(query, docs[i]), decode), w, true).value
    decreases |docs|
  {
    if docs == [] then Some([])
    else
      match ScoreDoc(docs[0], RankSingle(chat(query, docs[0]), decode), w, true)
      case None => None
      case Some(d) =>
        match ScoreSingles(query, docs[1..], w, chat, decode)
        case None => None
        case Some(rest) =>
          assert forall i :: 1 <= i < |docs| ==> docs[1..][i - 1] == docs[i];
          Some([d] + rest)
  }

  // ---------------------------------------------------------------- rerank_documents

  function CombinedOf(h: ScoredDoc): real {
    h.combined
  }

  function DocsOf(hs: seq<ScoredDoc>): (r: seq<Doc>)
    ensures |r| == |hs| && forall i :: 0 <= i < |hs| ==> r[i] == hs[i].doc
  {
    if hs == [] then [] else [hs[0].doc] + DocsOf(hs[1..])
  }

  /** The scored documents before sorting, in input order; `None` when an
      exception escapes the scorers (including `range` with step 0). */
  function Scored(query: string, docs: seq<Doc>, batchSize: int, w: real,
                  chatSingle: (string, Doc) -> ChatReply,
                  chatBatch: (string, seq<Doc>) -> ChatReply,
                  decode: string -> Option<JsonObject>): (r: Option<seq<ScoredDoc>>)
    ensures batchSize == 0 ==> r.None?
    ensures batchSize < 0 ==> r == Some([])
    ensures r.Some? && batchSize > 0 ==> DocsOf(r.value) == docs
    ensures r.Some? ==> forall i :: 0 <= i < |r.value| ==> Fused(r.value[i], w)
  {
    if batchSize == 0 then None
    else if batchSize < 0 then Some([])
    else if batchSize == 1 then ScoreSingles(query, docs, w, chatSingle, decode)
    else
      BatchesCover(docs, batchSize);
      ScoreBatches(query, Batches(docs, batchSize), w, chatBatch, decode)
  }

  /** `rerank_documents`. */
  function Rerank(query: string, docs: seq<Doc>, batchSize: int, w: real,
                  chatSingle: (string, Doc) -> ChatReply,
                  chatBatch: (string, seq<Doc>) -> ChatReply,
                  decode: string -> Option<JsonObject>): (r: RerankOutcome)
    ensures docs == [] ==> r == Reranked([])
    ensures r.Unchanged? ==> r.docs == docs
    ensures docs != [] && batchSize == 0 ==> r == Unchanged(docs)
    ensures docs != [] && batchSize < 0 ==> r == Reranked([])
    ensures docs != [] ==>
      (r.Unchanged? <==> Scored(query, docs, batchSize, w, chatSingle, chatBatch, decode).None?)
  {
    if docs == [] then Reranked([])
    else
      match Scored(query, docs, batchSize, w, chatSingle, chatBatch, decode)
      case None => Unchanged(docs)
      case Some(scored) => Reranked(StableSort.SortDesc(scored, CombinedOf))
  }

  /** A reranked result holds every input document exactly once, in
      descending combined score, and documents with equal scores keep their
      input order. */
  lemma RerankOrdersAllDocuments(query: string, docs: seq<Doc>, batchSize: int, w: real,
                                 chatSingle: (string, Doc) -> ChatReply,
                                 chatBatch: (string, seq<Doc>) -> ChatReply,
                                 decode: string -> Option<JsonObject>)
    requires docs != [] && batchSize > 0
    requires Rerank(query, docs, batchSize, w, chatSingle, chatBatch, decode).Reranked?
    ensures var hits := Rerank(query, docs, batchSize, w, chatSingle, chatBatch, decode).hits;
      var scored := Scored(query, docs, batchSize, w, chatSingle, chatBatch, decode);
      && scored.Some? && DocsOf(scored.value) == docs
      && StableSort.SortedDesc(hits, CombinedOf)
      && multiset(hits) == multiset(scored.value)
      && (forall c :: StableSort.WithKey(hits, CombinedOf, c) == StableSort.WithKey(scored.value, CombinedOf, c))
      && forall i :: 0 <= i < |hits| ==> Fused(hits[i], w)
  {
    var scored := Scored(query, docs, batchSize, w, chatSingle, chatBatch, decode).value;
    StableSort.SortDescIsSortedPermutation(scored, CombinedOf);
    forall c {
      StableSort.SortDescIsStable(scored, CombinedOf, c);
    }
    var hits := StableSort.SortDesc(scored, CombinedOf);
    forall i | 0 <= i < |hits| ensures Fused(hits[i], w) {
      assert hits[i] in multiset(scored);
    }
  }

  /** A single-document ranking without `relevance_score` makes the whole call
      return its input unchanged. */
  lemma MissingScoreReturnsInput(query: string, docs: seq<Doc>, w: real,
                                 chatSingle: (string, Doc) -> ChatReply,
                                 chatBatch: (string, seq<Doc>) -> ChatReply,
                                 decode: string -> Option<JsonObject>, i: nat)
    requires i < |docs|
    requires RankSingle(chatSingle(query, docs[i]), decode).relevance.None?
    ensures Rerank(query, docs, 1, w, chatSingle, chatBatch, decode) == Unchanged(docs)
  {
    assert ScoreDoc(docs[i], RankSingle(chatSingle(query, docs[i]), decode), w, true).None?;
  }
}

=== FILE: stable_sort.dfy ===
/** Python's `list.sort(key=key, reverse=True)`: a stable sort into descending
    key order, modelled as insertion sort over an immutable sequence. */
module StableSort {

  /** `s` is in descending key order. */
  ghost predicate SortedDesc<T>(s: seq<T>, key: T -> real) {
    forall i, j :: 0 <= i < j < |s| ==> key(s[i]) >= key(s[j])
  }

  /** The elements of `s` whose key is `k`, in the order they appear in `s`. */
  function WithKey<T>(s: seq<T>, key: T -> real, k: real): seq<T> {
    if s == [] then []
    else (if key(s[0]) == k then [s[0]] else []) + WithKey(s[1..], key, k)
  }

  /** Places `x` in front of the first element whose key is not above `key(x)`. */
  function Insert<T>(x: T, t: seq<T>, key: T -> real): (r: seq<T>)
    ensures multiset(r) == multiset(t) + multiset{x}
    ensures |r| == |t| + 1
  {
    if t == [] || key(t[0]) <= key(x) then [x] + t
    else
      assert t == [t[0]] + t[1..];
      [t[0]] + Insert(x, t[1..], key)
  }

  /** `s` sorted by descending key, equal keys kept in input order. */
  function SortDesc<T>(s: seq<T>, key: T -> real): seq<T> {
    if s == [] then [] else Insert(s[0], SortDesc(s[1..], key), key)
  }

  lemma {:induction false} InsertSorted<T>(x: T, t: seq<T>, key: T -> real)
    requires SortedDesc(t, key)
    ensures SortedDesc(Insert(x, t, key), key)
    decreases |t|
  {
    if t != [] && key(t[0]) > key(x) {
      var u := Insert(x, t[1..], key);
      InsertSorted(x, t[1..], key);
      assert Insert(x, t, key) == [t[0]] + u;
      forall j | 0 <= j < |u| ensures key(t[0]) >= key(u[j]) {
        assert u[j] in multiset(u);
        if u[j] != x {
          assert u[j] in multiset(t[1..]);
          var i :| 0 <= i < |t[1..]| && t[1..][i] == u[j];
          assert t[i + 1] == u[j];
        }
      }
    }
  }

  lemma {:induction false} InsertWithKey<T>(x: T, t: seq<T>, key: T -> real, k: real)
    ensures WithKey(Insert(x, t, key), key, k)
         == (if key(x) == k then [x] else []) + WithKey(t, key, k)
    decreases |t|
  {
    if t == [] || key(t[0]) <= key(x) {
      assert ([x] + t)[1..] == t;
    } else {
      var u := Insert(x, t[1..], key);
      assert Insert(x, t, key) == [t[0]] + u;
      assert ([t[0]] + u)[1..] == u;
      assert WithKey([t[0]] + u, key, k) == (if key(t[0]) == k then [t[0]] else []) + WithKey(u, key, k);
      InsertWithKey(x, t[1..], key, k);
      if key(x) == k {
        assert key(t[0]) != k;
      }
    }
  }

  /** The sort returns a descending permutation of its input. */
  lemma {:induction false} SortDescIsSortedPermutation<T>(s: seq<T>, key: T -> real)
    ensures SortedDesc(SortDesc(s, key), key)
    ensures multiset(SortDesc(s, key)) == multiset(s)
    ensures |SortDesc(s, key)| == |s|
    decreases |s|
  {
    if s != [] {
      SortDescIsSortedPermutation(s[1..], key);
      InsertSorted(s[0], SortDesc(s[1..], key), key);
      assert s == [s[0]] + s[1..];
    }
  }

  /** The sort is stable: for every key value, the elements carrying it come
      out in the order they went in. */
  lemma {:induction false} SortDescIsStable<T>(s: seq<T>, key: T -> real, k: real)
    ensures WithKey(SortDesc(s, key), key, k) == WithKey(s, key, k)
    decreases |s|
  {
    if s != [] {
      SortDescIsStable(s[1..], key, k);
      InsertWithKey(s[0], SortDesc(s[1..], key), key, k);
    }
  }
}

=== FILE: text.dfy ===
/** String and sequence primitives with Python's semantics: `str.isspace`,
    `str.strip`, `str.split(sep)`, `str.split()`, `sep.join`, `in` on strings,
    `dict.fromkeys` de-duplication and slicing caps. */
module Text {
  import opened Wrappers

  /** Python's `str.isspace()`: the characters that `str.strip()`, `str.split()`
      and the regular-expression class `\s` treat as whitespace. */
  predicate IsSpace(c: char) {
    || ('\t' <= c <= '\r')
    || ('\U{1C}' <= c <= ' ')
    || c == '\U{85}' || c == '\U{A0}' || c == '\U{1680}'
    || ('\U{2000}' <= c <= '\U{200A}')
    || c == '\U{2028}' || c == '\U{2029}' || c == '\U{202F}' || c == '\U{205F}' || c == '\U{3000}'
  }

  predicate AllSpace(s: string) {
    forall k :: 0 <= k < |s| ==> IsSpace(s[k])
  }

  predicate NoSpace(s: string) {
    forall k :: 0 <= k < |s| ==> !IsSpace(s[k])
  }

  /** The characters of `s` that are not whitespace, in order. */
  function NonSpace(s: string): string {
    if s == [] then [] else (if IsSpace(s[0]) then [] else [s[0]]) + NonSpace(s[1..])
  }

  // ---------------------------------------------------------------- strip

  /** Python's `s.lstrip()`. */
  function TrimLeft(s: string): (r: string)
    ensures |r| <= |s|
    ensures r != [] ==> !IsSpace(r[0])
  {
    if s != [] && IsSpace(s[0]) then TrimLeft(s[1..]) else s
  }

  /** `TrimLeft` drops a whitespace prefix and keeps the rest. */
  lemma {:induction false} TrimLeftDrops(s: string)
    ensures var r := TrimLeft(s);
      r == s[|s| - |r|..] && AllSpace(s[..|s| - |r|])
    decreases |s|
  {
    if s != [] && IsSpace(s[0]) {
      TrimLeftDrops(s[1..]);
    }
  }

  function TrimRight(s: string): (r: string)
    ensures |r| <= |s| && r == s[..|r|]
    ensures AllSpace(s[|r|..])
    ensures r != [] ==> !IsSpace(r[|r| - 1])
  {
    if s != [] && IsSpace(s[|s| - 1]) then
      var r := TrimRight(s[..|s| - 1]);
      assert s[|r|..] == s[..|s| - 1][|r|..] + [s[|s| - 1]];
      assert forall k :: |r| <= k < |s| - 1 ==> s[k] == s[..|s| - 1][k];
      r
    else s
  }

  /** Python's `s.strip()`. */
  function Strip(s: string): (r: string)
    ensures |r| <= |s|
    ensures r != [] ==> !IsSpace(r[0]) && !IsSpace(r[|r| - 1])
  {
    TrimRight(TrimLeft(s))
  }

  /** `Strip` removes a whitespace run from each end and nothing else. */
  lemma StripIsInfix(s: string)
    ensures var r := Strip(s);
      exists i :: 0 <= i && i + |r| <= |s| && r == s[i..i + |r|]
        && AllSpace(s[..i]) && AllSpace(s[i + |r|..])
  {
    var t := TrimLeft(s);
    TrimLeftDrops(s);
    var r := TrimRight(t);
    var i := |s| - |t|;
    assert r == s[i..i + |r|];
    assert s[i + |r|..] == t[|r|..];
  }

  lemma {:induction false} TrimLeftSpacePrefix(a: string, t: string)
    requires AllSpace(a) && (t == [] || !IsSpace(t[0]))
    ensures TrimLeft(a + t) == t
    decreases |a|
  {
    if a == [] {
      assert a + t == t;
    } else {
      assert (a + t)[1..] == a[1..] + t;
      TrimLeftSpacePrefix(a[1..], t);
    }
  }

  lemma {:induction false} TrimRightSpaceSuffix(t: string, b: string)
    requires AllSpace(b) && (t == [] || !IsSpace(t[|t| - 1]))
    ensures TrimRight(t + b) == t
    decreases |b|
  {
    if b == [] {
      assert t + b == t;
    } else {
      assert (t + b)[..|t + b| - 1] == t + b[..|b| - 1];
      TrimRightSpaceSuffix(t, b[..|b| - 1]);
    }
  }

  /** A string that is a stripped core between two whitespace runs strips
      to that core. */
  lemma StripUnique(a: string, r: string, b: string)
    requires AllSpace(a) && AllSpace(b)
    requires r == [] || (!IsSpace(r[0]) && !IsSpace(r[|r| - 1]))
    ensures Strip(a + r + b) == r
  {
    if r == [] {
      assert a + r + b == (a + b) + [];
      TrimLeftSpacePrefix(a + b, []);
    } else {
      assert a + r + b == a + (r + b);
      TrimLeftSpacePrefix(a, r + b);
      TrimRightSpaceSuffix(r, b);
    }
  }

  /** White space added around a string does not survive `Strip`. */
  lemma StripPadded(pad: string, s: string)
    requires AllSpace(pad)
    ensures Strip(pad + s + pad) == Strip(s)
  {
    var a, b := StripSplits(s);
    var r := Strip(s);
    AllSpaceAppend(pad, a);
    AllSpaceAppend(b, pad);
    assert pad + s + pad == (pad + a) + r + (b + pad) by {
      Regroup(pad, a, r, b);
    }
    StripUnique(pad + a, r, b + pad);
  }

  /** The white space `Strip` removes from each end. */
  lemma StripSplits(s: string) returns (a: string, b: string)
    ensures AllSpace(a) && AllSpace(b) && s == a + (Strip(s) + b)
  {
    var t := TrimLeft(s);
    TrimLeftDrops(s);
    var r := TrimRight(t);
    a, b := s[..|s| - |t|], t[|r|..];
    assert s == a + t && t == r + b;
  }

  lemma AllSpaceAppend(x: string, y: string)
    requires AllSpace(x) && AllSpace(y)
    ensures AllSpace(x + y)
  {
    forall k | 0 <= k < |x + y| ensures IsSpace((x + y)[k]) {
      if k < |x| { assert (x + y)[k] == x[k]; } else { assert (x + y)[k] == y[k - |x|]; }
    }
  }

  lemma Regroup(p: string, a: string, r: string, b: string)
    ensures p + (a + (r + b)) + p == (p + a) + r + (b + p)
  {
  }

  lemma {:induction false} TrimLeftOfBlank(s: string)
    requires AllSpace(s)
    ensures TrimLeft(s) == []
    decreases |s|
  {
    if s != [] {
      TrimLeftOfBlank(s[1..]);
    }
  }

  lemma {:induction false} TrimRightKeeps(s: string, k: nat)
    requires k < |s| && !IsSpace(s[k])
    ensures |TrimRight(s)| > k
    decreases |s|
  {
    if k < |s| - 1 {
      TrimRightKeeps(s[..|s| - 1], k);
    }
  }

  lemma {:induction false} StripOfNonBlank(s: string, k: nat)
    requires k < |s| && !IsSpace(s[k])
    ensures Strip(s) != []
    decreases |s|
  {
    if IsSpace(s[0]) {
      StripOfNonBlank(s[1..], k - 1);
    } else {
      TrimRightKeeps(s, k);
    }
  }

  /** A string strips to nothing exactly when it is all whitespace. */
  lemma StripEmptyIffBlank(s: string)
    ensures Strip(s) == [] <==> AllSpace(s)
  {
    if AllSpace(s) {
      TrimLeftOfBlank(s);
    } else {
      var k :| 0 <= k < |s| && !IsSpace(s[k]);
      StripOfNonBlank(s, k);
    }
  }

  /** Python's `s.strip(chars)` for the character set `cs`. */
  function StripChars(s: string, cs: set<char>): (r: string)
    ensures |r| <= |s|
    ensures r != [] ==> r[0] !in cs && r[|r| - 1] !in cs
    decreases |s|
  {
    if s != [] && s[0] in cs then StripChars(s[1..], cs)
    else if s != [] && s[|s| - 1] in cs then StripChars(s[..|s| - 1], cs)
    else s
  }

  /** `[p.strip() for p in parts if p.strip()]`. */
  function StrippedNonBlank(parts: seq<string>): (r: seq<string>)
    ensures |r| <= |parts|
    ensures forall i :: 0 <= i < |r| ==> r[i] != [] && !IsSpace(r[i][0]) && !IsSpace(r[i][|r[i]| - 1])
  {
    if parts == [] then []
    else (if Strip(parts[0]) == [] then [] else [Strip(parts[0])]) + StrippedNonBlank(parts[1..])
  }

  /** One more part adds its stripped text at the end, unless it is blank. */
  lemma {:induction false} StrippedNonBlankSnoc(parts: seq<string>, p: string)
    ensures StrippedNonBlank(parts + [p]) ==
      StrippedNonBlank(parts) + (if Strip(p) == [] then [] else [Strip(p)])
    decreases |parts|
  {
    if parts == [] {
      assert ([] + [p])[1..] == [] && ([] + [p])[0] == p;
    } else {
      StrippedNonBlankSnoc(parts[1..], p);
      assert (parts + [p])[0] == parts[0] && (parts + [p])[1..] == parts[1..] + [p];
      var head := if Strip(parts[0]) == [] then [] else [Strip(parts[0])];
      var last := if Strip(p) == [] then [] else [Strip(p)];
      ConcatAssoc3(head, StrippedNonBlank(parts[1..]), last);
    }
  }

  /** `StrippedNonBlank` keeps exactly the non-blank stripped parts. */
  lemma {:induction false} StrippedNonBlankMembers(parts: seq<string>, x: string)
    ensures x in StrippedNonBlank(parts) <==> x != [] && exists j :: 0 <= j < |parts| && x == Strip(parts[j])
  {
    if parts != [] {
      StrippedNonBlankMembers(parts[1..], x);
      if exists j :: 0 <= j < |parts| && x == Strip(parts[j]) {
        var j :| 0 <= j < |parts| && x == Strip(parts[j]);
        if j > 0 {
          assert parts[1..][j - 1] == parts[j];
        }
      }
      if exists j :: 0 <= j < |parts| - 1 && x == Strip(parts[1..][j]) {
        var j :| 0 <= j < |parts| - 1 && x == Strip(parts[1..][j]);
        assert parts[j + 1] == parts[1..][j];
      }
    }
  }

  // ---------------------------------------------------------------- search

  predicate StartsWith(s: string, p: string) {
    p <= s
  }

  predicate EndsWith(s: string, p: string) {
    |p| <= |s| && s[|s| - |p|..] == p
  }

  predicate OccursAt(s: string, sub: string, i: int) {
    0 <= i && i + |sub| <= |s| && s[i..i + |sub|] == sub
  }

  /** Python's `sub in s`. */
  predicate Contains(s: string, sub: string)
    decreases |s|
  {
    sub <= s || (s != [] && Contains(s[1..], sub))
  }

  lemma {:induction false} ContainsAt(s: string, sub: string, i: nat)
    requires OccursAt(s, sub, i)
    ensures Contains(s, sub)
    decreases i
  {
    if i == 0 {
      assert sub <= s;
    } else {
      assert s[1..][i - 1..i - 1 + |sub|] == s[i..i + |sub|];
      ContainsAt(s[1..], sub, i - 1);
    }
  }

  lemma {:induction false} ContainsWitness(s: string, sub: string) returns (i: nat)
    requires Contains(s, sub)
    ensures OccursAt(s, sub, i)
    decreases |s|
  {
    if sub <= s {
      i := 0;
    } else {
      var j := ContainsWitness(s[1..], sub);
      assert s[1..][j..j + |sub|] == s[j + 1..j + 1 + |sub|];
      i := j + 1;
    }
  }

  /** A string containing `a + b` contains `b`: the text of `b` sits at the
      found position plus `|a|`. */
  lemma ContainsSuffixOf(s: string, a: string, b: string)
    requires Contains(s, a + b)
    ensures Contains(s, b)
  {
    var i := ContainsWitness(s, a + b);
    assert s[i + |a|..i + |a| + |b|] == (a + b)[|a|..];
    ContainsAt(s, b, i + |a|);
  }

  /** The first position at or after `from` where `sep` occurs. */
  function FindFrom(s: string, sep: string, from: nat): (r: Option<nat>)
    ensures r.Some? ==> from <= r.value && OccursAt(s, sep, r.value)
    ensures r.Some? ==> forall j :: from <= j < r.value ==> !OccursAt(s, sep, j)
    ensures r.None? ==> forall j :: from <= j ==> !OccursAt(s, sep, j)
    decreases |s| - from
  {
    if from + |sep| > |s| then None
    else if s[from..from + |sep|] == sep then Some(from)
    else FindFrom(s, sep, from + 1)
  }

  /** Python's `s.find(sep)` as an option instead of `-1`. */
  function Find(s: string, sep: string): (r: Option<nat>)
    ensures r.Some? ==> OccursAt(s, sep, r.value) && forall j :: 0 <= j < r.value ==> !OccursAt(s, sep, j)
    ensures r.None? ==> forall j :: 0 <= j ==> !OccursAt(s, sep, j)
  {
    FindFrom(s, sep, 0)
  }

  /** Index of the last occurrence of `c` in `s` (Python's `s.rfind(c)` when `c` occurs). */
  function LastIndex(s: string, c: char): (r: nat)
    requires c in s
    ensures r < |s| && s[r] == c && c !in s[r + 1..]
  {
    if s[|s| - 1] == c then |s| - 1
    else
      assert c in s[..|s| - 1] by {
        var i :| 0 <= i < |s| && s[i] == c;
        assert s[..|s| - 1][i] == c;
      }
      var r := LastIndex(s[..|s| - 1], c);
      assert s[r + 1..] == s[..|s| - 1][r + 1..] + [s[|s| - 1]];
      r
  }

  // ---------------------------------------------------------------- split / join

  /** Python's `sep.join(parts)`. */
  function Join(parts: seq<string>, sep: string): string {
    if parts == [] then ""
    else if |parts| == 1 then parts[0]
    else parts[0] + sep + Join(parts[1..], sep)
  }

  /** Python's `s.split(sep)` for a non-empty separator: the pieces between
      the non-overlapping occurrences of `sep`, found left to right. */
  function Split(s: string, sep: string): (r: seq<string>)
    requires sep != []
    ensures |r| >= 1
    decreases |s|
  {
    var f := Find(s, sep);
    if f.None? then [s] else [s[..f.value]] + Split(s[f.value + |sep|..], sep)
  }

  lemma JoinCons(a: string, rest: seq<string>, sep: string)
    requires rest != []
    ensures Join([a] + rest, sep) == a + sep + Join(rest, sep)
  {
    assert ([a] + rest)[1..] == rest;
  }

  /** Splitting and re-joining with the same separator gives the text back. */
  lemma {:induction false} JoinSplit(s: string, sep: string)
    requires sep != []
    ensures Join(Split(s, sep), sep) == s
    decreases |s|
  {
    var f := Find(s, sep);
    if f.Some? {
      var i := f.value;
      var rest := s[i + |sep|..];
      var tail := Split(rest, sep);
      assert Split(s, sep) == [s[..i]] + tail;
      JoinSplit(rest, sep);
      JoinCons(s[..i], tail, sep);
      SplitAround(s, sep, i);
    }
  }

  lemma SplitAround(s: string, sub: string, i: int)
    requires OccursAt(s, sub, i)
    ensures s == s[..i] + sub + s[i + |sub|..]
  {
    assert s == s[..i] + s[i..i + |sub|] + s[i + |sub|..];
  }

  /** No piece of `Split(s, sep)` contains the separator. */
  lemma {:induction false} SplitPartsFree(s: string, sep: string)
    requires sep != []
    ensures forall k, j :: 0 <= k < |Split(s, sep)| && 0 <= j ==> !OccursAt(Split(s, sep)[k], sep, j)
    decreases |s|
  {
    var f := Find(s, sep);
    if f.Some? {
      var i := f.value;
      var rest := s[i + |sep|..];
      SplitPartsFree(rest, sep);
      var r := Split(s, sep);
      assert r == [s[..i]] + Split(rest, sep);
      forall k, j | 0 <= k < |r| && 0 <= j ensures !OccursAt(r[k], sep, j) {
        if k == 0 {
          if j + |sep| <= i {
            assert !OccursAt(s, sep, j);
            assert s[..i][j..j + |sep|] == s[j..j + |sep|];
          }
        } else {
          assert r[k] == Split(rest, sep)[k - 1];
        }
      }
    }
  }

  /** Every character of every piece of `Split(s, sep)` is a character of `s`. */
  lemma {:induction false} SplitPartsFromText(s: string, sep: string)
    requires sep != []
    ensures forall k, j :: 0 <= k < |Split(s, sep)| && 0 <= j < |Split(s, sep)[k]| ==> Split(s, sep)[k][j] in s
    decreases |s|
  {
    var f := Find(s, sep);
    if f.Some? {
      var i := f.value;
      var rest := s[i + |sep|..];
      SplitPartsFromText(rest, sep);
      var r := Split(s, sep);
      assert r == [s[..i]] + Split(rest, sep);
      forall k, j | 0 <= k < |r| && 0 <= j < |r[k]| ensures r[k][j] in s {
        if k == 0 {
          assert r[k][j] == s[j];
        } else {
          assert r[k] == Split(rest, sep)[k - 1];
          assert r[k][j] in rest;
        }
      }
    }
  }

  /** Joining pieces that avoid a marker character `c` of the separator and
      splitting again gives the pieces back: no occurrence of the separator can
      start inside a piece, because `c` would then fall inside that piece. */
  lemma {:induction false} SplitJoin(parts: seq<string>, sep: string, m: nat)
    requires m < |sep| && sep[m] !in sep[..m]
    requires forall k :: 0 <= k < |parts| ==> sep[m] !in parts[k]
    requires parts != []
    ensures Split(Join(parts, sep), sep) == parts
    decreases |parts|
  {
    var s := Join(parts, sep);
    var p := parts[0];
    if |parts| == 1 {
      forall j | 0 <= j ensures !OccursAt(s, sep, j) {
        if j + |sep| <= |s| {
          assert s[j..j + |sep|][m] == s[j + m];
          assert s[j + m] in p;
        }
      }
      assert Find(s, sep).None?;
    } else {
      var rest := Join(parts[1..], sep);
      assert s == p + sep + rest;
      assert OccursAt(s, sep, |p|) by {
        assert s[|p|..|p| + |sep|] == sep;
      }
      forall j | 0 <= j < |p| ensures !OccursAt(s, sep, j) {
        if j + |sep| <= |s| {
          assert s[j..j + |sep|][m] == s[j + m];
          if j + m < |p| {
            assert s[j + m] == p[j + m];
            assert s[j + m] != sep[m];
          } else {
            assert s[j + m] == sep[j + m - |p|];
            assert sep[j + m - |p|] == sep[..m][j + m - |p|];
            assert s[j + m] != sep[m];
          }
        }
      }
      assert Find(s, sep) == Some(|p|);
      assert s[..|p|] == p;
      assert s[|p| + |sep|..] == rest;
      assert Split(s, sep) == [p] + Split(rest, sep);
      SplitJoin(parts[1..], sep, m);
      assert parts == [p] + parts[1..];
    }
  }

  /** `[p.strip() for p in text.split('\n\n') if p.strip()]`: the non-blank
      paragraphs of a text, stripped. */
  function Paragraphs(text: string): (r: seq<string>)
    ensures forall i :: 0 <= i < |r| ==> r[i] != [] && !IsSpace(r[i][0]) && !IsSpace(r[i][|r[i]| - 1])
  {
    StrippedNonBlank(Split(text, "\n\n"))
  }

  /** A text has no paragraph exactly when it is all white space. */
  lemma ParagraphsEmptyIffBlank(text: string)
    ensures Paragraphs(text) == [] <==> AllSpace(text)
  {
    var parts := Split(text, "\n\n");
    JoinSplit(text, "\n\n");
    JoinAllSpace(parts, "\n\n");
    StrippedNonBlankEmpty(parts);
  }

  /** Nothing survives stripping exactly when every part is blank. */
  lemma StrippedNonBlankEmpty(parts: seq<string>)
    ensures StrippedNonBlank(parts) == [] <==> forall j :: 0 <= j < |parts| ==> AllSpace(parts[j])
  {
    var r := StrippedNonBlank(parts);
    if r != [] {
      StrippedNonBlankMembers(parts, r[0]);
      var j :| 0 <= j < |parts| && r[0] == Strip(parts[j]);
      StripEmptyIffBlank(parts[j]);
    }
    if exists j :: 0 <= j < |parts| && !AllSpace(parts[j]) {
      var j :| 0 <= j < |parts| && !AllSpace(parts[j]);
      StripEmptyIffBlank(parts[j]);
      StrippedNonBlankMembers(parts, Strip(parts[j]));
    }
  }

  /** `x + y` is blank exactly when both are. */
  lemma AllSpaceConcat(x: string, y: string)
    ensures AllSpace(x + y) <==> AllSpace(x) && AllSpace(y)
  {
    if AllSpace(x + y) {
      forall k | 0 <= k < |x| ensures IsSpace(x[k]) { assert x[k] == (x + y)[k]; }
      forall k | 0 <= k < |y| ensures IsSpace(y[k]) { assert y[k] == (x + y)[|x| + k]; }
    }
    if AllSpace(x) && AllSpace(y) {
      AllSpaceAppend(x, y);
    }
  }

  /** Parts joined by a blank separator are blank exactly when every part is. */
  lemma {:induction false} JoinAllSpace(parts: seq<string>, sep: string)
    requires AllSpace(sep)
    ensures AllSpace(Join(parts, sep)) <==> forall j :: 0 <= j < |parts| ==> AllSpace(parts[j])
    decreases |parts|
  {
    if |parts| > 1 {
      JoinAllSpace(parts[1..], sep);
      AllSpaceConcat(parts[0] + sep, Join(parts[1..], sep));
      AllSpaceConcat(parts[0], sep);
      assert forall j :: 1 <= j < |parts| ==> parts[1..][j - 1] == parts[j];
    }
  }

  // ---------------------------------------------------------------- whitespace tokens

  /** The longest whitespace-free prefix of `s`. */
  function Word(s: string): (r: string)
    ensures r <= s && NoSpace(r)
    ensures |r| < |s| ==> IsSpace(s[|r|])
  {
    if s == [] || IsSpace(s[0]) then [] else [s[0]] + Word(s[1..])
  }

  /** Python's `s.split()`: the maximal runs of non-whitespace characters. */
  function Tokens(s: string): (r: seq<string>)
    ensures forall k :: 0 <= k < |r| ==> r[k] != [] && NoSpace(r[k])
    decreases |s|
  {
    var t := TrimLeft(s);
    if t == [] then []
    else
      var w := Word(t);
      [w] + Tokens(t[|w|..])
  }

  function Concat(parts: seq<string>): string {
    if parts == [] then [] else parts[0] + Concat(parts[1..])
  }

  lemma {:induction false} NonSpaceAppend(a: string, b: string)
    ensures NonSpace(a + b) == NonSpace(a) + NonSpace(b)
    decreases |a|
  {
    if a == [] {
      assert a + b == b;
    } else {
      assert (a + b)[1..] == a[1..] + b;
      NonSpaceAppend(a[1..], b);
    }
  }

  lemma {:induction false} NonSpaceOfBlank(s: string)
    requires AllSpace(s)
    ensures NonSpace(s) == []
    decreases |s|
  {
    if s != [] {
      NonSpaceOfBlank(s[1..]);
    }
  }

  lemma {:induction false} NonSpaceOfWord(s: string)
    requires NoSpace(s)
    ensures NonSpace(s) == s
    decreases |s|
  {
    if s != [] {
      NonSpaceOfWord(s[1..]);
    }
  }

  /** `str.split()` loses only whitespace: its tokens, concatenated, are the
      non-whitespace characters of the text in order. */
  lemma {:induction false} TokensKeepText(s: string)
    ensures Concat(Tokens(s)) == NonSpace(s)
    decreases |s|
  {
    var t := TrimLeft(s);
    TrimLeftDrops(s);
    var lead := s[..|s| - |t|];
    assert s == lead + t;
    NonSpaceAppend(lead, t);
    NonSpaceOfBlank(lead);
    if t != [] {
      var w := Word(t);
      var rest := t[|w|..];
      assert t == w + rest;
      NonSpaceAppend(w, rest);
      NonSpaceOfWord(w);
      TokensKeepText(rest);
    }
  }

  /** `re.sub(r'\s+', ' ', s)`: every whitespace run becomes one space. */
  function SquashSpace(s: string): string
    decreases |s|
  {
    if s == [] then []
    else if IsSpace(s[0]) then
      assert TrimLeft(s) == TrimLeft(s[1..]);
      " " + SquashSpace(TrimLeft(s))
    else [s[0]] + SquashSpace(s[1..])
  }

  /** `re.sub(r'\s+', ' ', s).strip()`. */
  function Collapse(s: string): (r: string)
    ensures r == Join(Tokens(s), " ")
  {
    CollapseIsJoinTokens(s);
    Strip(SquashSpace(s))
  }

  lemma JoinEnds(parts: seq<string>, sep: string)
    requires parts != [] && forall i :: 0 <= i < |parts| ==> parts[i] != []
    ensures var j := Join(parts, sep);
      j != [] && j[0] == parts[0][0] && j[|j| - 1] == parts[|parts| - 1][|parts[|parts| - 1]| - 1]
    decreases |parts|
  {
    if |parts| > 1 {
      JoinEnds(parts[1..], sep);
    }
  }

  lemma {:induction false} SquashWord(s: string)
    ensures SquashSpace(s) == Word(s) + SquashSpace(s[|Word(s)|..])
    decreases |s|
  {
    if s != [] && !IsSpace(s[0]) {
      SquashWord(s[1..]);
      SquashWordStep(s);
      ConcatAssoc3([s[0]], Word(s[1..]), SquashSpace(s[1..][|Word(s[1..])|..]));
    } else {
      assert s[|Word(s)|..] == s;
    }
  }

  lemma SquashWordStep(s: string)
    requires s != [] && !IsSpace(s[0])
    ensures Word(s) == [s[0]] + Word(s[1..])
    ensures SquashSpace(s) == [s[0]] + SquashSpace(s[1..])
    ensures s[|Word(s)|..] == s[1..][|Word(s[1..])|..]
  {
  }

  lemma ConcatAssoc3<T>(a: seq<T>, b: seq<T>, c: seq<T>)
    ensures a + (b + c) == (a + b) + c
  {
  }

  /** One space when `s` ends in whitespace, else nothing. */
  function SpaceEnd(s: string): string {
    if s != [] && IsSpace(s[|s| - 1]) then " " else ""
  }

  /** For a text without leading whitespace, squashing gives the tokens joined
      by single spaces, plus one space when the text ends in whitespace. */
  lemma {:induction false} SquashIsJoinTokens(s: string)
    requires s == [] || !IsSpace(s[0])
    ensures SquashSpace(s) == Join(Tokens(s), " ") + SpaceEnd(s)
    decreases |s|
  {
    if s != [] {
      var w := Word(s);
      var rest := s[|w|..];
      if rest == [] {
        SquashSingleWord(s);
      } else {
        var t := TrimLeft(rest);
        SquashIsJoinTokens(t);
        if t == [] {
          SquashWordBlank(s, w, rest);
        } else {
          SquashWordMore(s, w, rest, t);
        }
      }
    }
  }

  lemma SquashSingleWord(s: string)
    requires s != [] && !IsSpace(s[0]) && s[|Word(s)|..] == []
    ensures SquashSpace(s) == Join(Tokens(s), " ") + SpaceEnd(s)
  {
    TokensOfWordStart(s);
    SquashWord(s);
    assert s == Word(s);
    WordOnly(s);
  }

  lemma SquashWordBlank(s: string, w: string, rest: string)
    requires s != [] && !IsSpace(s[0]) && w == Word(s) && rest == s[|w|..] && rest != [] && TrimLeft(rest) == []
    ensures SquashSpace(s) == Join(Tokens(s), " ") + SpaceEnd(s)
  {
    TokensOfWordStart(s);
    SquashWord(s);
    TokensOfTrimmed(rest);
    SquashOfLeadingSpace(rest);
    SpaceEndAfterWord(s, rest, TrimLeft(rest), |w|);
    BlankTail(TrimLeft(rest));
    CloseBlank(w, Tokens(s), SquashSpace(s), SpaceEnd(s));
  }

  lemma SquashWordMore(s: string, w: string, rest: string, t: string)
    requires s != [] && !IsSpace(s[0]) && w == Word(s) && rest == s[|w|..] && rest != []
    requires t == TrimLeft(rest) && t != []
    requires SquashSpace(t) == Join(Tokens(t), " ") + SpaceEnd(t)
    ensures SquashSpace(s) == Join(Tokens(s), " ") + SpaceEnd(s)
  {
    TokensOfWordStart(s);
    SquashWord(s);
    TokensOfTrimmed(rest);
    SquashOfLeadingSpace(rest);
    SpaceEndAfterWord(s, rest, t, |w|);
    JoinCons(w, Tokens(t), " ");
    CloseWord(w, Join(Tokens(t), " "), SpaceEnd(t), Join(Tokens(s), " "), SquashSpace(s));
  }

  lemma TokensOfWordStart(s: string)
    requires s != [] && !IsSpace(s[0])
    ensures Tokens(s) == [Word(s)] + Tokens(s[|Word(s)|..])
    ensures |Word(s)| < |s| ==> IsSpace(s[|Word(s)|..][0])
  {
    assert TrimLeft(s) == s;
  }

  lemma WordOnly(s: string)
    requires s != [] && NoSpace(s)
    requires Tokens(s) == [s] + Tokens([])
    requires SquashSpace(s) == s + SquashSpace([])
    ensures SquashSpace(s) == Join(Tokens(s), " ") + SpaceEnd(s)
  {
    assert Tokens([]) == [];
    assert SquashSpace(s) == s;
    assert Join([s], " ") == s;
    assert !IsSpace(s[|s| - 1]);
    assert SpaceEnd(s) == [];
  }

  lemma BlankTail(t: string)
    requires t == []
    ensures Tokens(t) == [] && SquashSpace(t) == []
  {
  }

  /** The whitespace ending of a text is that of its tail after the first word. */
  lemma SpaceEndAfterWord(s: string, rest: string, t: string, k: nat)
    requires k < |s| && rest == s[k..] && t == TrimLeft(rest)
    ensures t == [] ==> SpaceEnd(s) == " "
    ensures t != [] ==> SpaceEnd(s) == SpaceEnd(t)
  {
    LastOfSuffix(s, rest, k);
    if t == [] {
      BlankEndsInSpace(rest);
      SpaceEndOfSpace(s);
    } else {
      LastOfTrimLeft(rest, t);
      SpaceEndSame(s, t);
    }
  }

  lemma LastOfSuffix(s: string, rest: string, k: nat)
    requires k < |s| && rest == s[k..]
    ensures rest != [] && rest[|rest| - 1] == s[|s| - 1]
  {
  }

  lemma LastOfTrimLeft(rest: string, t: string)
    requires t == TrimLeft(rest) && t != []
    ensures t[|t| - 1] == rest[|rest| - 1]
  {
    TrimLeftDrops(rest);
    assert t == rest[|rest| - |t|..];
  }

  lemma SpaceEndOfSpace(s: string)
    requires s != [] && IsSpace(s[|s| - 1])
    ensures SpaceEnd(s) == " "
  {
  }

  lemma SpaceEndSame(s: string, t: string)
    requires s != [] && t != [] && s[|s| - 1] == t[|t| - 1]
    ensures SpaceEnd(s) == SpaceEnd(t)
  {
  }

  lemma CloseBlank(w: string, tokens: seq<string>, squashed: string, end: string)
    requires tokens == [w] + [] && squashed == w + (" " + []) && end == " "
    ensures squashed == Join(tokens, " ") + end
  {
    assert tokens == [w];
  }

  lemma CloseWord(w: string, j: string, e: string, joined: string, squashed: string)
    requires squashed == w + (" " + (j + e)) && joined == w + " " + j
    ensures squashed == joined + e
  {
  }

  lemma SquashOfLeadingSpace(x: string)
    requires x != [] && IsSpace(x[0])
    ensures SquashSpace(x) == " " + SquashSpace(TrimLeft(x))
  {
  }


  lemma {:induction false} BlankEndsInSpace(s: string)
    requires s != [] && TrimLeft(s) == []
    ensures IsSpace(s[|s| - 1])
    decreases |s|
  {
    assert IsSpace(s[0]);
    if |s| > 1 {
      BlankEndsInSpace(s[1..]);
      assert s[1..][|s| - 2] == s[|s| - 1];
    }
  }


  lemma StripAroundJoin(j: string, tail: string)
    requires j == [] || (!IsSpace(j[0]) && !IsSpace(j[|j| - 1]))
    requires tail == "" || tail == " "
    ensures Strip(j + tail) == j
  {
    assert AllSpace(tail) by {
      if tail == " " { assert IsSpace(tail[0]); }
    }
    assert [] + j + tail == j + tail;
    StripUnique([], j, tail);
  }

  /** Squashing whitespace runs and stripping is joining the whitespace
      tokens with single spaces. */
  lemma CollapseIsJoinTokens(s: string)
    ensures Strip(SquashSpace(s)) == Join(Tokens(s), " ")
  {
    var t := TrimLeft(s);
    TokensOfTrimmed(s);
    SquashIsJoinTokens(t);
    var j := Join(Tokens(t), " ");
    JoinTokensEnds(t);
    StripAroundJoin(j, SpaceEnd(t));
    if s != [] && IsSpace(s[0]) {
      SquashLeading(s);
    }
  }

  lemma TokensOfTrimmed(s: string)
    ensures TrimLeft(s) == [] || !IsSpace(TrimLeft(s)[0])
    ensures Tokens(s) == Tokens(TrimLeft(s))
  {
    var t := TrimLeft(s);
    assert TrimLeft(t) == t;
  }

  lemma JoinTokensEnds(t: string)
    ensures var j := Join(Tokens(t), " ");
      j == [] || (!IsSpace(j[0]) && !IsSpace(j[|j| - 1]))
  {
    var ts := Tokens(t);
    if ts != [] {
      JoinEnds(ts, " ");
      assert !IsSpace(ts[0][0]);
      assert !IsSpace(ts[|ts| - 1][|ts[|ts| - 1]| - 1]);
    }
  }

  lemma SquashLeading(s: string)
    requires s != [] && IsSpace(s[0])
    ensures Strip(SquashSpace(s)) == Strip(SquashSpace(TrimLeft(s)))
  {
    SquashOfLeadingSpace(s);
    TrimLeftSpaceCons(SquashSpace(TrimLeft(s)));
  }

  lemma TrimLeftSpaceCons(x: string)
    ensures TrimLeft(" " + x) == TrimLeft(x)
  {
    var y := " " + x;
    assert y[0] == ' ';
    assert IsSpace(y[0]);
    assert y[1..] == x;
  }


  /** A whitespace-free prefix followed by whitespace (or nothing) is the first word. */
  lemma WordOfPrefix(w: string, s: string)
    requires NoSpace(w) && w <= s && (|w| == |s| || IsSpace(s[|w|]))
    ensures Word(s) == w
  {
  }

  /** Splitting on whitespace undoes joining whitespace-free words with single spaces. */
  lemma {:induction false} TokensOfJoin(ws: seq<string>)
    requires forall i :: 0 <= i < |ws| ==> ws[i] != [] && NoSpace(ws[i])
    ensures Tokens(Join(ws, " ")) == ws
    decreases |ws|
  {
    if |ws| == 1 {
      TokensOfWord(ws[0]);
    } else if |ws| > 1 {
      var w, j := ws[0], Join(ws[1..], " ");
      assert Join(ws, " ") == w + (" " + j);
      TokensOfWordThenSpace(w, " " + j);
      TrimLeftSpaceCons(j);
      TokensOfTrimmed(" " + j);
      TokensOfTrimmed(j);
      TokensOfJoin(ws[1..]);
      assert ws == [w] + ws[1..];
    }
  }

  /** A single word is its own only token. */
  lemma TokensOfWord(w: string)
    requires w != [] && NoSpace(w)
    ensures Tokens(w) == [w]
  {
    assert TrimLeft(w) == w;
    WordOfPrefix(w, w);
    assert w[|w|..] == [];
  }

  /** A word followed by white space is the first token. */
  lemma TokensOfWordThenSpace(w: string, rest: string)
    requires w != [] && NoSpace(w) && rest != [] && IsSpace(rest[0])
    ensures Tokens(w + rest) == [w] + Tokens(rest)
  {
    var s := w + rest;
    assert TrimLeft(s) == s;
    assert s[|w|] == rest[0];
    WordOfPrefix(w, s);
    assert s[|w|..] == rest;
  }

  /** Collapsing whitespace twice is collapsing it once. */
  lemma CollapseIdempotent(s: string)
    ensures Collapse(Collapse(s)) == Collapse(s)
  {
    TokensOfJoin(Tokens(s));
  }

  // ---------------------------------------------------------------- filter-map

  /** `[y for x in xs for y in [f(x)] if y is not None]`: the present values
      of `f` over `xs`, in order. */
  function FilterMap<T, U>(xs: seq<T>, f: T -> Option<U>): seq<U> {
    if xs == [] then []
    else (if f(xs[0]).Some? then [f(xs[0]).value] else []) + FilterMap(xs[1..], f)
  }

  lemma {:induction false} FilterMapMembers<T, U>(xs: seq<T>, f: T -> Option<U>, y: U)
    ensures y in FilterMap(xs, f) <==> exists i :: 0 <= i < |xs| && f(xs[i]) == Some(y)
    decreases |xs|
  {
    if xs != [] {
      FilterMapMembers(xs[1..], f, y);
      if exists i :: 0 <= i < |xs| && f(xs[i]) == Some(y) {
        var i :| 0 <= i < |xs| && f(xs[i]) == Some(y);
        if i > 0 {
          assert xs[1..][i - 1] == xs[i];
        }
      }
      if exists i :: 0 <= i < |xs| - 1 && f(xs[1..][i]) == Some(y) {
        var i :| 0 <= i < |xs| - 1 && f(xs[1..][i]) == Some(y);
        assert xs[i + 1] == xs[1..][i];
      }
    }
  }

  lemma {:induction false} FilterMapBound<T, U>(xs: seq<T>, f: T -> Option<U>)
    ensures |FilterMap(xs, f)| <= |xs|
    decreases |xs|
  {
    if xs != [] {
      FilterMapBound(xs[1..], f);
    }
  }

  /** `FilterMap` distributes over concatenation: the present values of
      `xs + ys` are those of `xs` followed by those of `ys`. */
  lemma {:induction false} FilterMapAppend<T, U>(xs: seq<T>, ys: seq<T>, f: T -> Option<U>)
    ensures FilterMap(xs + ys, f) == FilterMap(xs, f) + FilterMap(ys, f)
    decreases |xs|
  {
    if xs == [] {
      assert xs + ys == ys;
    } else {
      var head := if f(xs[0]).Some? then [f(xs[0]).value] else [];
      assert (xs + ys)[0] == xs[0] && (xs + ys)[1..] == xs[1..] + ys;
      assert FilterMap(xs + ys, f) == head + FilterMap(xs[1..] + ys, f);
      FilterMapAppend(xs[1..], ys, f);
      assert head + (FilterMap(xs[1..], f) + FilterMap(ys, f)) == (head + FilterMap(xs[1..], f)) + FilterMap(ys, f);
    }
  }

  /** The value of `f` at the first element of `xs` where it is present. */
  function FirstSome<T, U>(xs: seq<T>, f: T -> Option<U>): Option<U> {
    if xs == [] then None
    else if f(xs[0]).Some? then f(xs[0])
    else FirstSome(xs[1..], f)
  }

  /** `FirstSome` is absent exactly when `f` is absent everywhere, and
      otherwise it is `f` at the first position where `f` is present. */
  lemma {:induction false} FirstSomeIsFirst<T, U>(xs: seq<T>, f: T -> Option<U>)
    ensures FirstSome(xs, f).None? <==> forall i :: 0 <= i < |xs| ==> f(xs[i]).None?
    ensures FirstSome(xs, f).Some? ==>
      exists i :: 0 <= i < |xs| && f(xs[i]) == FirstSome(xs, f) &&
        forall j :: 0 <= j < i ==> f(xs[j]).None?
    decreases |xs|
  {
    if xs != [] && f(xs[0]).None? {
      FirstSomeIsFirst(xs[1..], f);
      forall i | 1 <= i < |xs| ensures xs[i] == xs[1..][i - 1] {
      }
      if FirstSome(xs, f).Some? {
        var i :| 0 <= i < |xs| - 1 && f(xs[1..][i]) == FirstSome(xs, f) &&
          forall j :: 0 <= j < i ==> f(xs[1..][j]).None?;
        assert f(xs[i + 1]) == FirstSome(xs, f);
      }
    }
  }

  // ---------------------------------------------------------------- de-duplication

  predicate NoDup<T(==)>(s: seq<T>) {
    forall i, j :: 0 <= i < j < |s| ==> s[i] != s[j]
  }

  /** Index of the first occurrence of `x` in `s`. */
  function FirstIndex<T(==)>(s: seq<T>, x: T): (r: nat)
    requires x in s
    ensures r < |s| && s[r] == x && x !in s[..r]
  {
    if s[0] == x then 0 else 1 + FirstIndex(s[1..], x)
  }

  /** Python's `list(dict.fromkeys(s))`: every element once, at its first occurrence. */
  function Dedup<T(==,!new)>(s: seq<T>): (r: seq<T>)
    ensures NoDup(r)
    ensures forall x :: x in r <==> x in s
    ensures |r| <= |s|
  {
    if s == [] then []
    else
      var d := Dedup(s[..|s| - 1]);
      if s[|s| - 1] in d then d else d + [s[|s| - 1]]
  }

  /** `Dedup` keeps first-seen order. */
  lemma {:induction false} DedupFirstSeenOrder<T(!new)>(s: seq<T>)
    ensures forall i, j :: 0 <= i < j < |Dedup(s)| ==> FirstIndex(s, Dedup(s)[i]) < FirstIndex(s, Dedup(s)[j])
    decreases |s|
  {
    if s != [] {
      var init := s[..|s| - 1];
      var x := s[|s| - 1];
      DedupFirstSeenOrder(init);
      var d := Dedup(init);
      forall y | y in init ensures FirstIndex(s, y) == FirstIndex(init, y) {
        FirstIndexPrefix(init, [x], y);
        assert init + [x] == s;
      }
      if x !in d {
        assert x !in init;
        assert FirstIndex(s, x) == |s| - 1 by {
          assert s[..|s| - 1] == init;
        }
      }
    }
  }

  lemma {:induction false} FirstIndexPrefix<T>(a: seq<T>, b: seq<T>, x: T)
    requires x in a
    ensures FirstIndex(a + b, x) == FirstIndex(a, x)
    decreases |a|
  {
    if a[0] != x {
      assert (a + b)[1..] == a[1..] + b;
      FirstIndexPrefix(a[1..], b, x);
    }
  }

  /** De-duplicating a longer list only appends: `Dedup(a)` is a prefix of `Dedup(a + b)`. */
  lemma {:induction false} DedupPrefix<T(!new)>(a: seq<T>, b: seq<T>)
    ensures Dedup(a) <= Dedup(a + b)
    decreases |b|
  {
    if b == [] {
      assert a + b == a;
    } else {
      var init := b[..|b| - 1];
      DedupPrefix(a, init);
      assert (a + b)[..|a + b| - 1] == a + init;
    }
  }

  /** A duplicate-free list is its own de-duplication. */
  lemma {:induction false} DedupOfNoDup<T(!new)>(s: seq<T>)
    requires NoDup(s)
    ensures Dedup(s) == s
    decreases |s|
  {
    if s != [] {
      var init := s[..|s| - 1];
      DedupOfNoDup(init);
      assert s[|s| - 1] !in init;
      assert init + [s[|s| - 1]] == s;
    }
  }

  function Min(a: int, b: int): int {
    if a <= b then a else b
  }

  /** Python's `s[:n]` for `n >= 0`. */
  function Take<T>(s: seq<T>, n: nat): (r: seq<T>)
    ensures |r| == Min(|s|, n) && r <= s
  {
    s[..Min(|s|, n)]
  }

  // ---------------------------------------------------------------- case, numbers

  /** Python's `c.lower()` on the ASCII letters; every other character is kept. */
  function LowerChar(c: char): char {
    if 'A' <= c <= 'Z' then (c as int + 32) as char else c
  }

  function Lower(s: string): (r: string)
    ensures |r| == |s| && forall k :: 0 <= k < |s| ==> r[k] == LowerChar(s[k])
  {
    if s == [] then [] else [LowerChar(s[0])] + Lower(s[1..])
  }

  /** Lower-casing twice is lower-casing once. */
  lemma LowerIdempotent(s: string)
    ensures Lower(Lower(s)) == Lower(s)
  {
  }

  predicate IsDigit(c: char) {
    '0' <= c <= '9'
  }

  function DigitChar(d: nat): (c: char)
    requires d < 10
    ensures IsDigit(c)
  {
    ('0' as int + d) as char
  }

  /** Python's `str(n)` for a natural number. */
  function NatToString(n: nat): (r: string)
    ensures r != [] && forall k :: 0 <= k < |r| ==> IsDigit(r[k])
    decreases n
  {
    if n < 10 then [DigitChar(n)] else NatToString(n / 10) + [DigitChar(n % 10)]
  }

  /** The value of a string of decimal digits. */
  function DigitsValue(s: string): nat
    requires forall k :: 0 <= k < |s| ==> IsDigit(s[k])
  {
    if s == [] then 0 else assert IsDigit(s[|s| - 1]); 10 * DigitsValue(s[..|s| - 1]) + (s[|s| - 1] as int - '0' as int)
  }

  /** `NatToString` is the decimal rendering: reading its digits back gives `n`. */
  lemma {:induction false} NatToStringRoundTrip(n: nat)
    ensures DigitsValue(NatToString(n)) == n
    decreases n
  {
    if n >= 10 {
      NatToStringRoundTrip(n / 10);
      var r := NatToString(n);
      assert r[..|r| - 1] == NatToString(n / 10);
    }
  }

  /** Python's `str(i)` for any integer. */
  function IntToString(i: int): (r: string)
    ensures r != []
  {
    if i < 0 then "-" + NatToString(-i) else NatToString(i)
  }
}

=== FILE: uploads.dfy ===
/** `allowed_file`, the upload filter that src/web/web_ui.py and
    src/core/autogen_web_ui.py each define with the same text: a name is
    accepted when it has a dot and the text after its last dot, lower-cased,
    is one of five extensions. */
module Uploads {
  import opened Text
  import DocumentProcessor

  const AllowedExtensions: set<string> := {"pdf", "docx", "md", "pptx", "txt"}

  /** The text after the last dot (`rsplit('.', 1)[1]`). */
  function AfterLastDot(filename: string): (r: string)
    requires '.' in filename
    ensures '.' !in r && |r| < |filename|
    ensures filename[|filename| - |r| - 1] == '.' && filename[|filename| - |r|..] == r
  {
    filename[LastIndex(filename, '.') + 1..]
  }

  predicate AllowedFile(filename: string) {
    '.' in filename && Lower(AfterLastDot(filename)) in AllowedExtensions
  }

  /** Read without `rsplit`: there is a dot after which no dot follows, and
      the lower-cased text after it is an allowed extension. */
  lemma AllowedFileMeans(filename: string)
    ensures AllowedFile(filename) <==>
      (exists i :: 0 <= i < |filename| && filename[i] == '.' && '.' !in filename[i + 1..] &&
        Lower(filename[i + 1..]) in AllowedExtensions)
  {
    if '.' in filename {
      var i := |filename| - |AfterLastDot(filename)| - 1;
      forall j | 0 <= j < |filename| && filename[j] == '.' && '.' !in filename[j + 1..]
        ensures j == i
      {
      }
    }
  }

  /** A name ending in a dot and a dot-free extension is accepted exactly
      when that extension, lower-cased, is allowed. */
  lemma AllowedFileOf(root: string, ext: string)
    requires '.' !in ext
    ensures AllowedFile(root + "." + ext) <==> Lower(ext) in AllowedExtensions
  {
    var name := root + "." + ext;
    assert name[|root|] == '.';
    assert AfterLastDot(name) == ext by {
      assert name[|root| + 1..] == ext;
    }
  }

  /** Any root, the empty one included, is accepted with a `pdf` extension in
      either case. */
  lemma PdfAccepted(root: string, ext: string, name: string)
    requires ext == "pdf" || ext == "PDF"
    requires name == root + "." + ext
    ensures AllowedFile(name)
  {
    AllowedFileOf(root, ext);
    assert Lower(ext) == "pdf";
  }

  lemma PdfNamesAccepted()
    ensures AllowedFile("a.PDF") && AllowedFile(".pdf")
  {
    PdfAccepted("a", "PDF", "a.PDF");
    PdfAccepted("", "pdf", ".pdf");
  }

  lemma NoDotRefused()
    ensures !AllowedFile("pdf")
  {
    assert "pdf"[0] != '.' && "pdf"[1] != '.' && "pdf"[2] != '.';
  }

  lemma EmptyExtensionRefused()
    ensures !AllowedFile("report.")
  {
    AllowedFileOf("report", "");
    assert "report" + "." + "" == "report.";
  }

  lemma LastExtensionDecides()
    ensures !AllowedFile("a.pdf.exe")
  {
    AllowedFileOf("a.pdf", "exe");
    assert "a.pdf" + "." + "exe" == "a.pdf.exe";
    LowerExe();
  }

  lemma LowerExe()
    ensures Lower("exe") !in AllowedExtensions
  {
    assert Lower("exe") == "exe";
    assert "exe"[0] == 'e';
  }

  /** The names the upload filter is usually shown with. */
  lemma AllowedFileExamples()
    ensures AllowedFile("a.PDF")
    ensures !AllowedFile("report.")
    ensures AllowedFile(".pdf")
    ensures !AllowedFile("pdf")
    ensures !AllowedFile("a.pdf.exe")
  {
    PdfNamesAccepted();
    EmptyExtensionRefused();
    NoDotRefused();
    LastExtensionDecides();
  }

  /** The filter ignores the case of the extension. */
  lemma AllowedFileIgnoresCase(root: string, ext: string)
    requires '.' !in ext
    ensures AllowedFile(root + "." + ext) == AllowedFile(root + "." + Lower(ext))
  {
    assert '.' !in Lower(ext) by {
      forall k | 0 <= k < |ext| ensures Lower(ext)[k] != '.' {
        assert ext[k] != '.';
      }
    }
    var a, b := root + "." + ext, root + "." + Lower(ext);
    assert a[|root|] == '.' && b[|root|] == '.';
    assert AfterLastDot(a) == ext by {
      assert a[|root| + 1..] == ext;
    }
    assert AfterLastDot(b) == Lower(ext) by {
      assert b[|root| + 1..] == Lower(ext);
    }
    LowerIdempotent(ext);
  }

  /** The dispatch table of `process_file` is the upload table with the
      dots written in. */
  lemma DottedAllowed(l: string)
    ensures l in AllowedExtensions <==> "." + l in {".pdf", ".docx", ".md", ".pptx", ".txt"}
  {
    if "." + l == ".pdf" { assert l == ("." + l)[1..] == "pdf"; }
    if "." + l == ".docx" { assert l == ("." + l)[1..] == "docx"; }
    if "." + l == ".md" { assert l == ("." + l)[1..] == "md"; }
    if "." + l == ".pptx" { assert l == ("." + l)[1..] == "pptx"; }
    if "." + l == ".txt" { assert l == ("." + l)[1..] == "txt"; }
  }

  /** For a name with something other than a dot or a slash before its last
      dot, the upload filter and the extension dispatch of `process_file`
      accept exactly the same names. */
  lemma AllowedFileAgreesWithDispatch(root: string, ext: string,
                                      extract: DocumentProcessor.Format -> seq<string>)
    requires '.' !in ext && '/' !in ext
    requires exists k :: 0 <= k < |root| && root[k] != '.' && root[k] != '/' && '/' !in root[k..]
    ensures AllowedFile(root + "." + ext) <==> DocumentProcessor.ProcessFile(root + "." + ext, extract).Success?
  {
    AllowedFileOf(root, ext);
    DocumentProcessor.ExtensionOfName(root, ext);
    DocumentProcessor.LowerDot(ext);
    DottedAllowed(Lower(ext));
  }

  /** The two filters part ways on a name that starts with its only dot:
      the upload filter accepts `.pdf`, which `process_file` then refuses. */
  lemma DotFileAcceptedThenRefused(extract: DocumentProcessor.Format -> seq<string>)
    ensures AllowedFile(".pdf")
    ensures DocumentProcessor.ProcessFile(".pdf", extract).Failure?
  {
    PdfAccepted("", "pdf", ".pdf");
    DocumentProcessor.DotFileRefused(extract);
  }
}

=== FILE: web_ui.dfy ===
/** The request checks of the Flask front end in src/web/web_ui.py: the
    `/upload` gate and the `/ask` answer. Each route's JSON reply is a
    datatype value; the store search and the chat call are oracles. */
module WebUi {
  import opened Wrappers
  import opened Text
  import Uploads
  import RagSystem

  /** The reply of `/upload`: a message, or an error with its HTTP status. */
  datatype UploadReply = Uploaded(message: string) | UploadRefused(status: nat, error: string)

  const NotReady := "RAG系统未初始化"
  const NoFile := "没有选择文件"
  const BadFormat := "不支持的文件格式"
  const UploadStarted := "文件上传成功，正在处理中..."

  /** `/upload`: `ready` is whether the system was built at start-up and
      `filename` the name of the `file` part, if the request has one. An
      accepted file is handed to a background thread, which is not part of
      this model. */
  function Upload(ready: bool, filename: Option<string>): (r: UploadReply)
    ensures r.Uploaded? <==> ready && filename.Some? && Uploads.AllowedFile(filename.value)
    ensures r.Uploaded? ==> r.message == UploadStarted
    ensures !ready ==> r == UploadRefused(500, NotReady)
    ensures ready && (filename.None? || filename == Some("")) ==> r == UploadRefused(400, NoFile)
    ensures ready && r.UploadRefused? ==> r.status == 400
  {
    if !ready then UploadRefused(500, NotReady)
    else if filename.None? || filename.value == "" then UploadRefused(400, NoFile)
    else if Uploads.AllowedFile(filename.value) then Uploaded(UploadStarted)
    else UploadRefused(400, BadFormat)
  }

  const PreviewLength: nat := 500

  /** The context shown next to an answer: the context itself when it is
      short, else its first 500 characters and an ellipsis. */
  function Preview(context: string): (r: string)
    ensures |context| <= PreviewLength ==> r == context
    ensures |r| <= PreviewLength + 3
    ensures context[..Min(|context|, PreviewLength)] <= r
    ensures |context| > PreviewLength ==> EndsWith(r, "...") && |r| == PreviewLength + 3
  {
    if |context| > PreviewLength then context[..PreviewLength] + "..." else context
  }

  /** A preview of a preview is the preview: cutting twice cuts nothing more. */
  lemma PreviewIdempotent(context: string)
    ensures Preview(Preview(context)) == Preview(context)
  {
    if |context| > PreviewLength {
      var p := Preview(context);
      assert p[..PreviewLength] == context[..PreviewLength];
    }
  }

  /** The sources of the hits, in hit order. */
  function Sources(hits: seq<RagSystem.Hit>): (r: seq<string>)
    ensures |r| == |hits| && forall i :: 0 <= i < |r| ==> r[i] == hits[i].source
  {
    if hits == [] then [] else [hits[0].source] + Sources(hits[1..])
  }

  /** The reply of `/ask`. */
  datatype AskReply =
    | Answer(answer: string, context: string, sources: seq<string>)
    | AskRefused(status: nat, error: string)

  const EmptyQuestion := "问题不能为空"
  const AnswerFailed := "生成答案时出错: "

  /** `/ask`: the stripped question is searched (search errors give no
      hits), the hits and the question go to the chat model in the prompt
      `answer_question` also uses, and the reply carries the answer, the
      preview of the hit texts and the hit sources. */
  function Ask(ready: bool, question: string, search: string -> Result<seq<RagSystem.Hit>, string>,
               chat: string -> Result<string, string>): (r: AskReply)
    ensures !ready ==> r == AskRefused(500, NotReady)
    ensures ready && Strip(question) == [] ==> r == AskRefused(400, EmptyQuestion)
    ensures ready && Strip(question) != [] ==>
      var q := Strip(question);
      var hits := RagSystem.SearchSimilar(q, search);
      var reply := chat(RagSystem.AnswerPrompt(q, hits));
      (r.Answer? <==> reply.Success?) &&
      (r.Answer? ==>
        r.answer == reply.value && r.sources == Sources(hits) &&
        r.context == Preview(Join(RagSystem.HitTexts(hits), "\n"))) &&
      (r.AskRefused? ==> r == AskRefused(500, AnswerFailed + reply.error))
  {
    var q := Strip(question);
    if !ready then AskRefused(500, NotReady)
    else if q == [] then AskRefused(400, EmptyQuestion)
    else
      var hits := RagSystem.SearchSimilar(q, search);
      match chat(RagSystem.AnswerPrompt(q, hits))
      case Failure(e) => AskRefused(500, AnswerFailed + e)
      case Success(a) => Answer(a, Preview(Join(RagSystem.HitTexts(hits), "\n")), Sources(hits))
  }

  /** Only the stripped question reaches the search and the model: padding
      it with white space changes nothing. */
  lemma AskIgnoresPadding(ready: bool, pad: string, question: string,
                          search: string -> Result<seq<RagSystem.Hit>, string>,
                          chat: string -> Result<string, string>)
    requires AllSpace(pad)
    ensures Ask(ready, pad + question + pad, search, chat) == Ask(ready, question, search, chat)
  {
    StripPadded(pad, question);
  }
}

=== FILE: wrappers.dfy ===
/** Failure-compatible wrappers shared by every module of the model. */
module Wrappers {

  /** A value that may be absent: a missing dictionary key, a failed search, no match. */
  datatype Option<+T> = None | Some(value: T) {

    /** The wrapped value, or `default` when there is none (Python's `d.get(key, default)`). */
    function GetOr(default: T): T {
      match this
      case Some(v) => v
      case None => default
    }
  }

  /** Either a value or the error the source would have raised. */
  datatype Result<+R, +E> = Success(value: R) | Failure(error: E)
}
